=== FILE: README.md ===
# tmdu-traffic: a verified model of the traffic pipeline

This project is a Dafny model of the data pipeline behind the tmdu-traffic dashboards. The
dashboards show road congestion around the Tokyo Medical and Dental University campus. The
pipeline has five stages, each modelled in its own module:

- **Traffic** (`traffic.dfy`, `TrafficDataFetcher`):
  - when to fall back to mock observations;
  - the five-minute time code `YYYYMMDDhhmm` and the layout of the query URL;
  - the GeoJSON parse outcome and the validation filters on speed, travel time and geometry;
  - the deterministic part of the mock generator: the hour-to-speed factor, clamping, and travel time from link length and speed.
- **RoadData** (`road_data.dfy`, class `RoadDataLoader`):
  - the one-shot road cache and shapefile-name selection;
  - the bbox filter and its bounds fallback;
  - renaming of the N01_* columns, zero-padding of `road_id` and defaults for road names;
  - removal of rows with null or invalid geometry.
- **Spatial** (`spatial.dfy`, class `SpatialProcessor`):
  - the nearest-road left join with a distance cutoff;
  - per-road aggregation: group means, first non-null name and class, group size, and geometry looked up in the stored road set;
  - the road-coverage report.
- **Congestion** (`congestion.dfy`, `CongestionAnalyzer`):
  - the speed-to-level classification with its colour and label tables;
  - the statistics record (counts, rounded percentages, speed, travel-time and observation summaries);
  - the per-class and per-speed-range trends, and the one-line summary text.
- **PydeckApp** (`pydeck_app.dfy`, the PyDeck front end):
  - the RGBA and width tables;
  - flattening of road geometries into `[lon, lat]` paths;
  - the 30 seeded mock roads;
  - the choice between real and mock data, with its status record.

Supporting modules:

- `wrappers.dfy`: `Option` and `Result`.
- `text.dfy`: decimal rendering, `zfill`, `lower`, substring search, `join` and string sorting.
- `geo.dfy`: points, line geometries, bounds.
- `stats.dfy`: sum, mean, min, max, sorting, linear-interpolation quantiles and rounding over `real`.
- `tables.dfy`: the frame records passed between stages.
- `counting.dfy`: occurrence counts, distinct values, `value_counts`.
- `clock.dfy`: calendar arithmetic for "five minutes ago".
- `config.dfy`: the constants of `config.py`.

Modelling choices:

- **Data frames.** A frame is a record with a set of present columns and a sequence of row records. A numeric cell that is absent or NaN is `None`. A column that is not present is never read.
- **Classes.** `SpatialProcessor` and `RoadDataLoader` are classes because the source updates their fields (`_road_gdf`, `_cached_roads`) in place. Their methods are proved against specification functions.
- **Loops.** Loops in the source stay loops in the model, each with invariants and proved against a function:
  - the geometry dictionary in `aggregate_by_road`;
  - the shapefile scan;
  - the path and mock-road builders;
  - the class and speed-range tables;
  - the summary parts.
- **Oracles and parameters.** Library computations the model cannot see become parameters:
  - the metric point-to-road distance;
  - the `.cx` slice and geometry validity;
  - the shapefile reader;
  - the HTTP outcome, the clock, and the random draws.

## Model

| member | source | states |
|---|---|---|
| Congestion.LevelFor | congestion_analyzer.py:44-59 | a speed at or above the high threshold is `low`; otherwise one at or above the medium threshold is `medium`; otherwise `high`; a missing or non-numeric speed is `unknown` (each as an if-and-only-if) |
| Congestion.DefaultBands | config.py:22-25 | with the default thresholds, speeds of 30 or more are low, 20 up to 30 medium, below 20 high |
| Congestion.FasterIsNotWorse | congestion_analyzer.py:47-52 | a higher speed never gets a more severe level |
| Congestion.HigherThresholdNeverRelieves | congestion_analyzer.py:47-52 | raising the high threshold with the medium one fixed keeps every medium or high road medium or high |
| Congestion.HigherThresholdCountsMoreCongested | congestion_analyzer.py:47-59 | over a whole frame, raising the high threshold with the medium one fixed never lowers the number of medium plus high roads |
| Congestion.LookupsIdentifyLevel | congestion_analyzer.py:61-71 | colour and Japanese label each identify the level: two levels share a colour (or a label) exactly when they are equal |
| Congestion.CalculateCongestionLevel | congestion_analyzer.py:27-77 | an empty frame comes back unchanged; otherwise the level column is added, the row count is kept, and each row gets the level, colour and label of its own speed |
| Congestion.NoSpeedColumnAllUnknown | congestion_analyzer.py:33-38 | without a speed column every row is `unknown`, `#808080`, 'データなし' |
| Congestion.ClassifyIdempotent | congestion_analyzer.py:30-77 | classifying an already classified frame changes nothing |
| Congestion.Distribution | congestion_analyzer.py:101-106 | the level counts hold exactly the levels that occur, each with its number of rows, and are empty without a level column |
| Congestion.Percentages | congestion_analyzer.py:103 | one percentage per counted level, each within 0.05 of count / total × 100 |
| Congestion.GenerateStatistics | congestion_analyzer.py:89-113 | empty input gives total 0 with empty distribution, percentage and speed maps; otherwise total_roads is the row count, and the distribution and percentages are as above (speed, travel-time and observation statistics: the three lemmas below) |
| Congestion.DistributionSumsToTotal | congestion_analyzer.py:98-110 | after classification the four level counts add up to total_roads |
| Congestion.PercentagesNearHundred | congestion_analyzer.py:103 | after classification the rounded percentages add up to between 99.8 and 100.2 |
| Congestion.SpeedStatsBounds | congestion_analyzer.py:116-130 | speed_stats is exactly {count: 0} when the speed column has no number, and a full summary exactly when it has one; then count, mean, median, min, max, q25 and q75 are the length, mean, 0.5 quantile, minimum, maximum, 0.25 and 0.75 quantiles of the non-null speeds, and each summary lies between min and max |
| Congestion.TravelTimeStatsBounds | congestion_analyzer.py:132-141 | travel_time_stats exists exactly when the travel-time column exists and holds a number; then count, mean, median, min and max are those of the non-null travel times, and mean and median lie between min and max |
| Congestion.Speeds | congestion_analyzer.py:117 | the speeds summarised are the speed column with its nulls dropped |
| Congestion.SpeedsInRowOrder | congestion_analyzer.py:117 | the k-th speed summarised is the speed of the row at the k-th non-null position, and every non-null speed is among them |
| Congestion.TravelTimes | congestion_analyzer.py:133 | the travel times summarised are the travel-time column with its nulls dropped |
| Congestion.ObservationStatsBounds | congestion_analyzer.py:145-153 | total_observations is the sum of the counts; max_per_road is the largest count (at least every row's, equal to one of them, at most the sum); roads_with_data is the number of rows with a positive count (so at most total_roads); mean_per_road is the sum over the row count |
| Congestion.Classes | congestion_analyzer.py:178 | the road_class column, row for row |
| Congestion.RowsOfClassCount | congestion_analyzer.py:179 | the rows selected for a road class number exactly the occurrences of that class |
| Congestion.ClassAnalysisCoversClasses | congestion_analyzer.py:175-184 | one entry per distinct non-null class, in order of first appearance; each entry's total_roads is its (non-zero) number of rows; the totals add up to the number of rows with a class |
| Congestion.AnalyzeByClass | congestion_analyzer.py:176-184 | the loop builds the per-class table for the given classes |
| Congestion.AnalyzeClass | congestion_analyzer.py:179-182 | at most one entry; an entry exactly when the class occurs in the frame, and then it names the class, carries the statistics of the class's rows, and its total_roads is the number of occurrences of the class |
| Congestion.BandsTile | congestion_analyzer.py:191-201 | the five half-open speed ranges cover every non-negative speed exactly once and no negative one |
| Congestion.RangeCountsSum | congestion_analyzer.py:199-209 | the five range counts add up to the number of non-negative speeds |
| Congestion.AnalyzeBySpeedRange | congestion_analyzer.py:199-209 | the loop builds one entry per range, in order, each with its count, rounded percentage and label |
| Congestion.AnalyzeCongestionTrends | congestion_analyzer.py:169-213 | empty input or no level column gives no tables; otherwise the class table exists iff there is a class column, and the range table exists iff there is at least one numeric speed |
| Congestion.CongestionSummary | congestion_analyzer.py:225-260 | empty input gives 'データがありません。'; no percentages give the road count with '（混雑度データなし）'; otherwise the joined summary parts |
| Congestion.RenderSummary | congestion_analyzer.py:246-260 | the appended parts, joined with ' \| ' |
| Congestion.SummaryHeader | congestion_analyzer.py:246-248 | the first part is always the road count |
| Congestion.SummaryMentionsPositive | congestion_analyzer.py:250-258 | the low, medium, high and average-speed parts each appear iff their value is positive |
| Stats.Min | congestion_analyzer.py:123 | the minimum is at most every value and is one of them |
| Stats.Max | congestion_analyzer.py:124 | the maximum is at least every value and is one of them |
| Stats.MeanBetween | congestion_analyzer.py:121 | the mean lies between the minimum and the maximum |
| Stats.Sort | congestion_analyzer.py:122 | sorting gives an ordered permutation of the data |
| Stats.QuantileBetween | congestion_analyzer.py:126-127 | every linear-interpolation quantile lies between the minimum and the maximum |
| Stats.MedianIsMiddle | congestion_analyzer.py:122 | the 0.5 quantile is the middle sorted value, or the mean of the two middle ones for even counts |
| Stats.Round1 | congestion_analyzer.py:103 | rounding to one decimal moves a value by at most 0.05 |
| Stats.Round1Tenths | congestion_analyzer.py:207 | a value that is already whole tenths is unchanged by rounding |
| Stats.SumIntsOfNats | congestion_analyzer.py:149-151 | the sum of non-negative counts is non-negative and at least their maximum |
| Text.Format1Tenths | congestion_analyzer.py:258 | a whole number of tenths renders as its integer part, '.', and its tenths digit |
| Tables.Present | congestion_analyzer.py:117 | a value survives dropping nulls if and only if some cell held it, and the result is never longer than the input |
| Tables.PresentKeepsOrder | congestion_analyzer.py:117 | dropping nulls keeps order and repeats: the k-th value kept is the value at the k-th present position, and every present cell is kept |
| Counting.Distinct | congestion_analyzer.py:178 | unique values: no duplicates, the same members as the input, and ordered by first appearance (each value's first position in the input is before the next value's) |
| Counting.DistinctCounts | congestion_analyzer.py:102 | every distinct value occurs, and their counts add up to the input length |
| Clock.FiveMinutesEarlier | traffic_data.py:135 | the instant five minutes earlier, valid and exactly 5 minutes back, and absent only before 0001-01-01 00:05 |
| Traffic.TimeCodeDecodes | traffic_data.py:138-139 | the YYYYMMDDhhmm number decodes back to the year, month, day, hour and minute |
| Traffic.CurrentTimeCode | traffic_data.py:133-139 | a time code exists unless five minutes back falls before year 1 |
| Traffic.TimeCodeWindow | traffic_data.py:133-139 | the code names a valid instant on a 5-minute boundary, 5 to 9 minutes before now |
| Traffic.UrlCarriesQuery | traffic_data.py:141-151 | the URL starts with the API URL, the WFS query and '道路種別=3 AND 時間コード=', and the digits that follow read back as the time code |
| Traffic.UrlListsCorners | traffic_data.py:149-150 | the URL ends with the BBOX filter, corners in the order min lon, min lat, max lon, max lat |
| Traffic.ParseGeoJson | traffic_data.py:153-172 | the parsed frame is empty iff 'features' is missing or empty or conversion fails; otherwise it holds the features, with geometry |
| Traffic.ValidRows | traffic_data.py:182-203 | a row is kept iff its speed is in [0, 150] (when the column exists), its travel time ≥ 0 (when the column exists) and its geometry is present; never more rows |
| Tables.WhereFuse | traffic_data.py:182-192 | two successive filters equal one filter on both conditions |
| Traffic.ValidateTrafficData | traffic_data.py:174-209 | empty input comes back unchanged; a non-empty frame without a geometry column raises KeyError at the `dropna`; otherwise the columns are kept and the k-th row kept is the input row at the k-th accepted position |
| Traffic.AcceptedRows | traffic_data.py:182-203 | the positions of the acceptable rows, ascending, every acceptable row exactly once |
| Traffic.ValidRowsInOrder | traffic_data.py:182-203 | the valid rows are the input rows at the accepted positions, in input order |
| Tables.WhereKeepsOrder | traffic_data.py:186 | a boolean mask keeps exactly the passing rows, in their order, each once |
| Traffic.ValidationIdempotent | traffic_data.py:174-209 | validating validated rows keeps them all |
| Traffic.Clip | traffic_data.py:101 | the result lies in [lo, hi], and a value already inside is unchanged |
| Traffic.BaseSpeedRange | traffic_data.py:88 | the distance-based base speed lies in [20, 50] |
| Traffic.FactoredBaseRange | traffic_data.py:88-99 | base speed times the hour factor lies in [12, 65] |
| Traffic.MockSpeed | traffic_data.py:99-101 | the clamped mock speed lies in [5, 80]; it is undefined only when every point sits at the box centre |
| Traffic.TravelSeconds | traffic_data.py:105 | travel time × speed = length × 3.6, and it is non-negative for non-negative lengths |
| Traffic.TravelIdentity | traffic_data.py:105 | the source's (length / 1000) / (speed / 3600) times speed equals length × 3.6 |
| Traffic.MockData | traffic_data.py:70-131 | 200 rows with road type, time code, speed, travel time, link length and geometry columns |
| Traffic.MockDataBounds | traffic_data.py:76-120 | each mock row has road type 3 and the current time code; a link length in [50, 200); a location inside the bbox; and, when defined, a speed in [5, 80] and a non-negative travel time |
| Traffic.MockSurvivesValidation | traffic_data.py:99-119 | validating mock data keeps every row |
| Traffic.FetchTrafficData | traffic_data.py:24-68 | with use_mock, mock data with no URL built; otherwise the URL for the given or current time code is requested; live data (validated) only for a non-empty parsed response; mock data for the same bbox on an empty response or any exception |
| RoadData.ShpFiles | road_data.py:63 | the archive names ending in '.shp' are kept in archive order with repeats (the mask filter of the names), so 'first' in the choice below is the archive's first |
| RoadData.ChosenShapefile | road_data.py:64-75 | none iff no .shp; otherwise the first name containing 'Road' or, in lower case, 'road', else the first .shp |
| RoadData.SelectShapefile | road_data.py:62-75 | the breaking loop picks the chosen shapefile |
| RoadData.LoadFromZip | road_data.py:57-91 | the table read from the chosen shapefile; none when the archive or a .shp is missing |
| RoadData.FilterByBbox | road_data.py:93-111 | the slice keeps the rows the `.cx` oracle accepts; the fallback keeps exactly the rows whose bounds meet the box, with closed comparisons; columns are kept and rows never added |
| RoadData.FallbackKeepsTouching | road_data.py:106-111 | a road with a vertex inside the box survives the fallback filter |
| RoadData.RenameOnlyPresent | road_data.py:119-130 | road_id, road_class, road_name and road_number exist after renaming iff they or their N01_* source existed; the N01_00x sources disappear; other columns are untouched |
| Text.ZFill | road_data.py:134 | pads on the left with '0' to the width, after a leading sign, and leaves longer strings unchanged |
| Text.ZFillKeepsValue | road_data.py:134 | zero-padding a digit string keeps it all digits and keeps its value |
| RoadData.RoadIdOf | road_data.py:133-138 | a present id is its text zero-filled on the left to 3 characters (`Text.ZFill`), so at least 3 long and, for digits, the same number; without an id column and with an unnamed index, the index zero-filled to 6 digits, which reads back as the index |
| RoadData.RoadNameOf | road_data.py:141-145 | a null name becomes '未分類道路', a present one is kept, and without the column every road is '道路' |
| RoadData.StandardRows | road_data.py:156-163 | a standardised record appears if and only if it comes from a row with present, valid geometry |
| RoadData.StandardRowsInOrder | road_data.py:158-163 | the k-th record is the standardised row at the k-th position with present, valid geometry, so input order is kept and every such row appears |
| RoadData.StandardizeRoadSchema | road_data.py:113-165 | empty input keeps its columns; no geometry column gives an empty frame; otherwise only road_id, road_class, road_name and geometry remain, over the valid rows |
| RoadData.StandardizedRoadsValid | road_data.py:133-163 | every standardised road has valid geometry, a name, and an id of at least 3 characters, and there are never more roads than input rows |
| RoadData.RoadDataLoader.constructor | road_data.py:12-14 | the cache starts empty |
| RoadData.RoadDataLoader.LoadRoadNetwork | road_data.py:16-55 | the first load fills the cache from the archive, and later loads leave it unchanged; the result is the cached table, bbox-filtered only when a bbox is given, then standardised; empty when loading failed |
| Spatial.MinDist | spatial_processor.py:59-65 | the nearest distance is at most every road's distance and is attained by one |
| Spatial.NearestRoads | spatial_processor.py:59-65 | one joined row per road at the nearest distance (ties give several rows) |
| Spatial.JoinPoint | spatial_processor.py:59-65 | a point joins its nearest roads when they lie within max_distance, each row carrying a real road's id and distance; otherwise it is kept once with no road |
| Spatial.JoinIsLeftWithCutoff | spatial_processor.py:59-65 | every traffic point appears in the join, and every joined row comes from joining its own point |
| Spatial.JoinedDistances | spatial_processor.py:59-65 | a matched row has a distance ≤ max_distance to a road with its id; an unmatched row has no distance |
| Spatial.GroupRows | spatial_processor.py:145 | one road's group is the joined rows carrying its id, in row order with repeats (the mask filter on road_id), so 'first' and 'mean' in the aggregation run over the group in order |
| Spatial.GroupSize | spatial_processor.py:148 | a road's group has as many rows as its id occurs among matched rows |
| Spatial.MatchedSize | spatial_processor.py:110 | the matched rows are exactly those with a present road_id |
| Spatial.MeanOf | spatial_processor.py:130-131 | the NaN-skipping mean is absent iff no value is present, and otherwise lies between the present minimum and maximum |
| Spatial.FirstPresent | spatial_processor.py:134-137 | 'first' is the first non-null value of the group, absent iff all are null |
| Spatial.GroupKeys | spatial_processor.py:145 | the group keys are the distinct matched road ids, sorted |
| Spatial.FirstGeometry | spatial_processor.py:157-159 | the geometry of the first stored road with that id, absent iff there is none |
| Spatial.GeometryLookup | spatial_processor.py:154-159 | the loop's dictionary holds exactly the aggregated ids that have a stored road, each with its first road's geometry |
| Spatial.AttachMatchesLookup | spatial_processor.py:162 | mapping ids through the dictionary gives each row its first road's geometry |
| Spatial.Aggregated | spatial_processor.py:105-149 | empty input, no road_id column, no matched rows, or none of the three numeric columns gives an empty frame; otherwise one row per group key, and there is at least one (so the per-road lemmas apply) |
| Spatial.AggregatedShape | spatial_processor.py:145-149 | the k-th aggregated row is the group row of the k-th group key (all fields but geometry), with its id and group size |
| Spatial.AggregatedFields | spatial_processor.py:127-149 | each road's travel time, link length and distance are the null-skipping means over its group, and its name and class the first non-null ones, each only where the joined table has the column |
| Spatial.AggregatedRoadIds | spatial_processor.py:145 | one row per distinct matched road id, sorted, with no repeats |
| Spatial.AggregatedCounts | spatial_processor.py:148-149 | each observation_count is its group's size (> 0), and the counts add up to the number of matched rows |
| Spatial.AggregatedSpeedBetween | spatial_processor.py:130-131 | a road's mean speed lies between the least and greatest speed observed on it |
| Spatial.AggregatedGeometry | spatial_processor.py:153-168 | without a stored road set there is no geometry column; with one, each road's geometry is copied from the first stored road with its id |
| Spatial.CoverageBounds | spatial_processor.py:195-228 | the join fails iff the roads lack road_id; otherwise matched_roads ≤ total_roads = road count; coverage_rate = matched / total, in [0, 1]; distance stats exist iff a point matched; then max ≤ max_distance and mean and median ≤ max |
| Spatial.SpatialProcessor.constructor | spatial_processor.py:12-15 | stores max_distance; no road set is stored yet |
| Spatial.SpatialProcessor.JoinTrafficRoads | spatial_processor.py:17-93 | returns the join result; non-empty points and roads with a road_id column store the road set, and the early exits leave the stored set alone |
| Spatial.SpatialProcessor.AggregateByRoad | spatial_processor.py:95-181 | returns the aggregation over the stored road set |
| Spatial.SpatialProcessor.CalculateRoadCoverage | spatial_processor.py:183-228 | no input gives the empty report and stores nothing; otherwise the coverage of the join it performs, and the road set is stored exactly when it has a road_id column (as the nested join does) |
| PydeckApp.ColorRgb | pydeck_map_app.py:126-134 | four components in 0..255 with alpha 160, and any level other than low, medium and high gets the unknown grey |
| PydeckApp.WidthFor | pydeck_map_app.py:136-144 | widths lie in 2..5, and any other level gets 2 |
| PydeckApp.ColorsDistinguishLevels | pydeck_map_app.py:128-133 | different levels get different colours |
| PydeckApp.WidthFollowsSeverity | pydeck_map_app.py:138-143 | a more severe level gets a wider line, and equal severity an equal width |
| PydeckApp.PaletteAgrees | pydeck_map_app.py:128-133 | each RGB triple is the hex colour config.py gives the same level |
| PydeckApp.PathPoints | pydeck_map_app.py:114 | one [lon, lat] pair per coordinate |
| PydeckApp.PathRoundTrip | pydeck_map_app.py:114 | reading the pairs back gives the coordinates, in order |
| PydeckApp.Coordinates | pydeck_map_app.py:97-106 | a line or multi-line gives its vertices, with multi-line parts concatenated in order; other shapes are skipped |
| PydeckApp.FlattenParts | pydeck_map_app.py:102-104 | the extend loop yields the parts' coordinates concatenated in order |
| PydeckApp.RowPoints | pydeck_map_app.py:94-106 | a row yields points iff it has a line or multi-line geometry |
| PydeckApp.PathRows | pydeck_map_app.py:92-124 | never more path rows than input rows |
| PydeckApp.PathRowsFromRows | pydeck_map_app.py:93-122 | every path row is built from a drawable input row, using its points and the getattr defaults |
| PydeckApp.AllDrawnInOrder | pydeck_map_app.py:93-122 | when every row is drawable, there is one path row per input row, in order |
| PydeckApp.DrawnRows | pydeck_map_app.py:96-119 | the positions of the rows that get coordinates, ascending, each drawable row exactly once |
| PydeckApp.PathRowsOfDrawnRows | pydeck_map_app.py:93-122 | the path rows are exactly the drawable rows' entries, in order, even when other rows are skipped |
| Congestion.PositiveCountIsIndices | congestion_analyzer.py:152 | the count of positive values equals the number of positions holding one |
| PydeckApp.PreparePydeckData | pydeck_map_app.py:86-124 | fails only for a non-empty frame without geometry; otherwise returns one path row per drawable input row, in input order, each built from that row with its index, and nothing for the skipped rows |
| PydeckApp.AsWrittenAgreesOnLines | pydeck_map_app.py:98-106 | the code as written succeeds iff no row is multi-part, and then agrees with the corrected preparation |
| PydeckApp.MultiLineAborts | pydeck_map_app.py:98-104 | a frame with one two-part MultiLineString aborts as written, while the corrected preparation yields its 3-point path |
| PydeckApp.MockLevel | pydeck_map_app.py:162-167 | the mock rule is the analyser's default classification |
| PydeckApp.MockRow | pydeck_map_app.py:153-177 | a two-point path; speed in [5, 60]; congestion low, medium or high by the 30/20 rule; colour and width from the tables |
| PydeckApp.MockRows | pydeck_map_app.py:151-152 | exactly 30 mock roads |
| PydeckApp.CreateMockData | pydeck_map_app.py:146-180 | the loop builds the 30 mock roads in order |
| PydeckApp.MockIdsDistinct | pydeck_map_app.py:171 | mock road ids are pairwise distinct |
| PydeckApp.LoadAndProcessData | pydeck_map_app.py:34-84 | status is real iff the modules are present and no stage comes back empty; then it carries the road, traffic, matched and final counts, and the data are the path rows of the classified aggregate; otherwise mock data with the failing stage's message |
| PydeckApp.LoadedAsWritten | pydeck_map_app.py:47 | as written, the outcome is always the mock data, with the missing-method error when the modules are present |
| PydeckApp.RealReachable | pydeck_map_app.py:45-73 | with the loader method corrected, one road and one traffic point 10 m from it pass every stage, so the real branch is reachable |

## Left out

- Streamlit, folium, plotly and pydeck rendering, and the `st.cache_data` time-to-live cache of `load_and_process_data`. These are UI.
- Logging everywhere, and the `analysis_timestamp` fields. These hold the wall-clock time.
- The HTTP request is a parameter (`ApiOutcome`) saying whether it raised, failed while processing, or returned a body. GeoJSON decoding (`from_features`) is abstracted to a body that carries its observations and a flag saying whether conversion succeeds.
- `np.random` draws, the current hour and `datetime.now()` are parameters (`MockDraws`, `MockDraw`, `DateTime`).
- The `strftime` rendering of years below 1000 is not modelled. The time code is computed arithmetically, which equals the zero-padded rendering.
- Coordinates in the query URL are rendered by a parameter, because Python's float `repr` is not modelled.
- CRS handling (`to_crs`, EPSG:3857 and back) and `sjoin_nearest` are not modelled. A distance oracle gives each (point, road) pair its metric distance. Equidistant roads each give a joined row.
- The `.cx` slice, geometry validity and shapefile reading are oracles. A `.cx` slice that raises is modelled by passing no slice oracle, which selects the bounds fallback.
- The road cache ignores `zip_path` as in the source, so no path is modelled. The archive is a parameter.
- A frame holding both `N01_002` and `road_id` would get two `road_id` columns in pandas. The model treats columns as a set and does not capture the duplicate.
- Id cells are text or whole numbers. A float id cell, which pandas renders as e.g. `12.0`, is not modelled.
- `get_road_statistics` in road_data.py is not part of this model.
- The numeric-conversion loop of `validate_traffic_data` (traffic_data.py:196-200) is not modelled. Model cells are already numbers or `None`, so it changes nothing.
- The `road_gdf` parameter of `aggregate_by_road` is unused by the source and is not modelled.
- Standard deviations (`std` of speeds and distances) are omitted, as are all floating-point effects. Means, quantiles and percentages are exact reals.
- Stats.Round1: Python rounds half to even on binary doubles. The model rounds ties upward on exact reals, and its contract states only the 0.05 error bound.
- `{x:.1f}` and the printed float in the summary text are rendered with one decimal, rounding half up.
- A path row whose level cell is empty is drawn as `unknown`. After classification this cannot happen.
- Geometries other than line strings and multi-line strings are one `OtherShape` case. The corrected preparation skips it, and the as-written model treats it like a multi-part shape.
- The import-failure branch of `load_and_process_data` (pydeck_map_app.py:36-37) cannot run as the module is written: when an import at lines 11-16 fails, `UPDATE_INTERVAL` stays unbound, and the decorator at line 33 raises NameError while the module loads. LoadAndProcessData models that branch as the function itself is written, returning mock data.
- The real-or-mock choice takes the road table and the traffic frame as inputs rather than calling the loader and the fetcher. With the source's default `USE_MOCK_DATA = True` the fetcher always returns mock traffic.

## Findings

| source | as written | input that shows it | evidently intended | confidence | as-written member | corrected member |
|---|---|---|---|---|---|---|
| pydeck_map_app.py:47 | `loader.load_road_data(bbox=BBOX_5KM)` calls a method `RoadDataLoader` does not define; the AttributeError is caught, so the real-data path always ends in mock data | any call with the modules importable | `loader.load_road_network(bbox=BBOX_5KM)` (road_data.py:16) | high; not executed | PydeckApp.LoadedAsWritten | PydeckApp.LoadAndProcessData |
| pydeck_map_app.py:98 | `hasattr(row.geometry, 'coords')` on a MultiLineString: Shapely raises NotImplementedError from `.coords` on multi-part geometries, and `hasattr` does not catch it, so the `geoms` branch (lines 100-104) is unreachable and the call aborts | a frame with one road whose geometry is MultiLineString([[p0, p1], [p2]]) | concatenate the parts' coordinates, as lines 100-104 do | medium; not executed | PydeckApp.MultiLineAborts | PydeckApp.PreparePydeckData |

=== FILE: clock.dfy ===
/** Wall-clock values as Python's datetime handles them (proleptic Gregorian calendar, years
    1 to 9999), and the `now - timedelta(minutes=5)` step. */
module Clock {
  import opened Wrappers

  datatype DateTime = DateTime(year: int, month: int, day: int, hour: int, minute: int)

  predicate IsLeap(y: int) {
    y % 4 == 0 && (y % 100 != 0 || y % 400 == 0)
  }

  function DaysInMonth(y: int, m: int): int {
    if m == 2 then (if IsLeap(y) then 29 else 28)
    else if m == 4 || m == 6 || m == 9 || m == 11 then 30
    else 31
  }

  function DaysInYear(y: int): int {
    if IsLeap(y) then 366 else 365
  }

  predicate Valid(d: DateTime) {
    1 <= d.year <= 9999 && 1 <= d.month <= 12 && 1 <= d.day <= DaysInMonth(d.year, d.month)
    && 0 <= d.hour < 24 && 0 <= d.minute < 60
  }

  /** Days in the years 1 .. y-1. */
  function DaysBeforeYear(y: int): int
    decreases y
  {
    if y <= 1 then 0 else DaysBeforeYear(y - 1) + DaysInYear(y - 1)
  }

  /** Days in the months 1 .. m-1 of year y. */
  function DaysBeforeMonth(y: int, m: int): int
    decreases m
  {
    if m <= 1 then 0 else DaysBeforeMonth(y, m - 1) + DaysInMonth(y, m - 1)
  }

  /** Minutes elapsed since 0001-01-01 00:00. */
  function AbsMinutes(d: DateTime): int {
    ((DaysBeforeYear(d.year) + DaysBeforeMonth(d.year, d.month) + d.day - 1) * 24 + d.hour) * 60 + d.minute
  }

  /** `d - timedelta(minutes=5)`; None where Python raises OverflowError (before year 1). */
  function FiveMinutesEarlier(d: DateTime): (r: Option<DateTime>)
    requires Valid(d)
    ensures r.None? <==> d.year == 1 && d.month == 1 && d.day == 1 && d.hour == 0 && d.minute < 5
    ensures r.Some? ==> Valid(r.value) && AbsMinutes(r.value) == AbsMinutes(d) - 5
  {
    if d.minute >= 5 then Some(d.(minute := d.minute - 5))
    else if d.hour >= 1 then Some(d.(hour := d.hour - 1, minute := d.minute + 55))
    else if d.day >= 2 then Some(d.(day := d.day - 1, hour := 23, minute := d.minute + 55))
    else if d.month >= 2 then
      var m := d.month - 1;
      Some(DateTime(d.year, m, DaysInMonth(d.year, m), 23, d.minute + 55))
    else if d.year >= 2 then
      YearEnds(d.year - 1);
      Some(DateTime(d.year - 1, 12, 31, 23, d.minute + 55))
    else None
  }

  /** The twelve months make up the year. */
  lemma YearEnds(y: int)
    ensures DaysBeforeMonth(y, 12) + 31 == DaysInYear(y)
  {
    assert DaysBeforeMonth(y, 2) == 31;
    assert DaysBeforeMonth(y, 3) == 31 + DaysInMonth(y, 2);
    assert DaysBeforeMonth(y, 4) == DaysBeforeMonth(y, 3) + 31;
    assert DaysBeforeMonth(y, 5) == DaysBeforeMonth(y, 4) + 30;
    assert DaysBeforeMonth(y, 6) == DaysBeforeMonth(y, 5) + 31;
    assert DaysBeforeMonth(y, 7) == DaysBeforeMonth(y, 6) + 30;
    assert DaysBeforeMonth(y, 8) == DaysBeforeMonth(y, 7) + 31;
    assert DaysBeforeMonth(y, 9) == DaysBeforeMonth(y, 8) + 31;
    assert DaysBeforeMonth(y, 10) == DaysBeforeMonth(y, 9) + 30;
    assert DaysBeforeMonth(y, 11) == DaysBeforeMonth(y, 10) + 31;
    assert DaysBeforeMonth(y, 12) == DaysBeforeMonth(y, 11) + 30;
  }
}

=== FILE: config.dfy ===
/** The application constants of config.py that the modelled core reads. */
module Config {
  import opened Geo

  /** TMDU_CENTER, stored in the source as (lat, lon). */
  const CenterLat: real := 35.7056
  const CenterLon: real := 139.7644

  /** BBOX_5KM = (minLon, minLat, maxLon, maxLat). */
  const Bbox5km: BBox := BBox(139.7194, 35.6606, 139.8094, 35.7506)

  const JarticApiUrl: string := "https://api.jartic-open-traffic.org/geoserver"
  /** Road type 3: ordinary roads. */
  const RoadType: nat := 3
  /** Refresh interval and API timeout, in seconds. */
  const UpdateInterval: nat := 300
  const ApiTimeout: nat := 30

  /** CONGESTION_COLORS */
  const LowColor: string := "#00ff00"
  const MediumColor: string := "#ffff00"
  const HighColor: string := "#ff0000"
  const UnknownColor: string := "#808080"

  /** CONGESTION_THRESHOLDS, in km/h. */
  const HighSpeedThreshold: real := 30.0
  const MediumSpeedThreshold: real := 20.0

  /** ROAD_DATA_ZIP */
  const RoadDataZip: string := "N01-07L-13-01.0a_GML.zip"
}

=== FILE: congestion.dfy ===
/** CongestionAnalyzer: classifies each road by its mean speed, tallies the levels, summarises
    speeds, travel times and observation counts, breaks the picture down by road class and by
    fixed speed ranges, and renders a one-line summary. */
module Congestion {
  import opened Wrappers
  import opened Tables
  import opened Stats
  import opened Text
  import opened Counting
  import Config

  /** speed_thresholds: 'high_speed' and 'medium_speed', in km/h. */
  datatype Thresholds = Thresholds(highSpeed: real, mediumSpeed: real)

  const DefaultThresholds: Thresholds := Thresholds(Config.HighSpeedThreshold, Config.MediumSpeedThreshold)

  /** An analyzer only holds its thresholds, fixed when it is built. */
  datatype Analyzer = Analyzer(thresholds: Thresholds)

  /** `speed_thresholds or CONGESTION_THRESHOLDS`: None stands for both None and an empty dict. */
  function NewAnalyzer(given: Option<Thresholds>): Analyzer {
    Analyzer(given.GetOr(DefaultThresholds))
  }

  // ---------------------------------------------------------------- classification

  /** The np.select rule: the first condition that holds wins; a missing speed matches none. */
  function LevelFor(speed: Option<real>, t: Thresholds): (l: Level)
    ensures l == Unknown <==> speed.None?
    ensures l == Low <==> speed.Some? && speed.value >= t.highSpeed
    ensures l == Medium <==> speed.Some? && t.mediumSpeed <= speed.value < t.highSpeed
    ensures l == High <==> speed.Some? && speed.value < t.highSpeed && speed.value < t.mediumSpeed
  {
    match speed
    case None => Unknown
    case Some(v) =>
      if v >= t.highSpeed then Low
      else if v >= t.mediumSpeed then Medium
      else High  // v < medium_speed: the third condition, which always holds here
  }

  /** How congested a level is; Unknown is not ranked. */
  function Severity(l: Level): int {
    match l
    case Low => 0
    case Medium => 1
    case High => 2
    case Unknown => -1
  }

  /** A faster road is never rated more congested than a slower one, whatever the thresholds. */
  lemma FasterIsNotWorse(v1: real, v2: real, t: Thresholds)
    requires v1 <= v2
    ensures Severity(LevelFor(Some(v2), t)) <= Severity(LevelFor(Some(v1), t))
  {
  }

  /** Raising the high threshold with the medium one fixed never relieves a road: one rated
      medium or high stays medium or high. */
  lemma HigherThresholdNeverRelieves(speed: Option<real>, t1: Thresholds, t2: Thresholds)
    requires t1.mediumSpeed == t2.mediumSpeed && t1.highSpeed <= t2.highSpeed
    ensures LevelFor(speed, t1) in {Medium, High} ==> LevelFor(speed, t2) in {Medium, High}
  {
  }

  /** With the default thresholds: at least 30 km/h is low, 20 to 30 medium, below 20 high. */
  lemma DefaultBands(v: real)
    ensures LevelFor(Some(v), DefaultThresholds) == (if v >= 30.0 then Low else if v >= 20.0 then Medium else High)
  {
  }

  /** CONGESTION_COLORS */
  function ColorOf(l: Level): string {
    match l
    case Low => Config.LowColor
    case Medium => Config.MediumColor
    case High => Config.HighColor
    case Unknown => Config.UnknownColor
  }

  /** congestion_labels */
  function LabelOf(l: Level): string {
    match l
    case Low => "空いている"
    case Medium => "やや混雑"
    case High => "混雑"
    case Unknown => "データなし"
  }

  /** Colour and label are lookups on the level alone, and each of them identifies the level. */
  lemma LookupsIdentifyLevel(l1: Level, l2: Level)
    ensures ColorOf(l1) == ColorOf(l2) <==> l1 == l2
    ensures LabelOf(l1) == LabelOf(l2) <==> l1 == l2
  {
  }

  function Classify(speed: Option<real>, t: Thresholds): Classification {
    var l := LevelFor(speed, t);
    Classification(l, ColorOf(l), LabelOf(l))
  }

  /** The speed the classifier reads from row i: none when the frame has no speed column. */
  function SpeedSeen(f: RoadFrame, i: nat): Option<real>
    requires i < |f.rows|
  {
    if SpeedCol in f.columns then f.rows[i].speed else None
  }

  /** calculate_congestion_level: an empty frame is returned as is; otherwise every row gets the
      three classification columns and nothing else changes. */
  function CalculateCongestionLevel(a: Analyzer, f: RoadFrame): (r: RoadFrame)
    ensures |f.rows| == 0 ==> r == f
    ensures |f.rows| > 0 ==> r.columns == f.columns + {LevelCol}
    ensures |r.rows| == |f.rows|
    ensures |f.rows| > 0 ==> forall i :: 0 <= i < |f.rows| ==>
              r.rows[i] == f.rows[i].(classification := Some(Classify(SpeedSeen(f, i), a.thresholds)))
  {
    if |f.rows| == 0 then f
    else if SpeedCol !in f.columns then
      // no speed column: every row is 'unknown', grey, 'データなし'
      RoadFrame(f.columns + {LevelCol},
        seq(|f.rows|, i requires 0 <= i < |f.rows| =>
          f.rows[i].(classification := Some(Classification(Unknown, Config.UnknownColor, "データなし")))))
    else
      RoadFrame(f.columns + {LevelCol},
        seq(|f.rows|, i requires 0 <= i < |f.rows| =>
          f.rows[i].(classification := Some(Classify(f.rows[i].speed, a.thresholds)))))
  }

  /** Without a speed column every row is unknown, grey and labelled 'データなし'. */
  lemma NoSpeedColumnAllUnknown(a: Analyzer, f: RoadFrame)
    requires |f.rows| > 0 && SpeedCol !in f.columns
    ensures forall i :: 0 <= i < |f.rows| ==>
      CalculateCongestionLevel(a, f).rows[i].classification
        == Some(Classification(Unknown, "#808080", "データなし"))
  {
    forall i | 0 <= i < |f.rows|
      ensures CalculateCongestionLevel(a, f).rows[i].classification
        == Some(Classification(Unknown, "#808080", "データなし"))
    {
      assert SpeedSeen(f, i) == None;
    }
  }

  /** Classifying an already classified frame changes nothing. */
  lemma ClassifyIdempotent(a: Analyzer, f: RoadFrame)
    ensures CalculateCongestionLevel(a, CalculateCongestionLevel(a, f)) == CalculateCongestionLevel(a, f)
  {
    var r := CalculateCongestionLevel(a, f);
    var rr := CalculateCongestionLevel(a, r);
    if |f.rows| > 0 {
      assert SpeedCol in r.columns <==> SpeedCol in f.columns;
      forall i | 0 <= i < |f.rows| ensures rr.rows[i] == r.rows[i] {
        assert SpeedSeen(r, i) == SpeedSeen(f, i);
      }
      assert rr.rows == r.rows;
    }
  }

  // ---------------------------------------------------------------- statistics

  /** The level of a classified row. */
  function LevelOfRow(row: RoadRow): Option<Level> {
    if row.classification.Some? then Some(row.classification.value.level) else None
  }

  /** Number of rows whose level is l. */
  function LevelCount(rows: seq<RoadRow>, l: Level): (n: nat)
    ensures n <= |rows|
  {
    if |rows| == 0 then 0
    else (if LevelOfRow(rows[0]) == Some(l) then 1 else 0) + LevelCount(rows[1..], l)
  }

  /** A row rated medium or high. */
  predicate Congested(row: RoadRow) {
    LevelOfRow(row) == Some(Medium) || LevelOfRow(row) == Some(High)
  }

  lemma {:induction false} CongestedCountsDominated(rows1: seq<RoadRow>, rows2: seq<RoadRow>)
    requires |rows1| == |rows2|
    requires forall i :: 0 <= i < |rows1| && Congested(rows1[i]) ==> Congested(rows2[i])
    ensures LevelCount(rows1, Medium) + LevelCount(rows1, High) <= LevelCount(rows2, Medium) + LevelCount(rows2, High)
  {
    if |rows1| > 0 {
      assert Congested(rows1[0]) ==> Congested(rows2[0]);
      CongestedCountsDominated(rows1[1..], rows2[1..]);
    }
  }

  /** Over a whole frame, raising the high threshold with the medium one fixed never lowers the
      number of medium plus high roads. */
  lemma HigherThresholdCountsMoreCongested(f: RoadFrame, t1: Thresholds, t2: Thresholds)
    requires t1.mediumSpeed == t2.mediumSpeed && t1.highSpeed <= t2.highSpeed
    ensures var r1, r2 := CalculateCongestionLevel(Analyzer(t1), f), CalculateCongestionLevel(Analyzer(t2), f);
      LevelCount(r1.rows, Medium) + LevelCount(r1.rows, High) <= LevelCount(r2.rows, Medium) + LevelCount(r2.rows, High)
  {
    var r1, r2 := CalculateCongestionLevel(Analyzer(t1), f), CalculateCongestionLevel(Analyzer(t2), f);
    if |f.rows| > 0 {
      forall i | 0 <= i < |r1.rows| && Congested(r1.rows[i]) ensures Congested(r2.rows[i]) {
        HigherThresholdNeverRelieves(SpeedSeen(f, i), t1, t2);
      }
    }
    CongestedCountsDominated(r1.rows, r2.rows);
  }

  /** Number of rows that carry a level at all. */
  function ClassifiedCount(rows: seq<RoadRow>): (n: nat)
    ensures n <= |rows|
  {
    if |rows| == 0 then 0
    else (if rows[0].classification.Some? then 1 else 0) + ClassifiedCount(rows[1..])
  }

  /** value_counts() of 'congestion_level': levels that occur, with their counts. */
  function Distribution(f: RoadFrame): (d: map<Level, nat>)
    ensures LevelCol !in f.columns ==> d == map[]
    ensures forall l :: l in d <==> LevelCol in f.columns && LevelCount(f.rows, l) > 0
    ensures forall l :: l in d ==> d[l] == LevelCount(f.rows, l)
  {
    LevelsExhausted();
    if LevelCol in f.columns then
      map l | l in AllLevels && LevelCount(f.rows, l) > 0 :: LevelCount(f.rows, l)
    else map[]
  }

  const AllLevels: set<Level> := {Low, Medium, High, Unknown}

  lemma LevelsExhausted()
    ensures forall l: Level :: l in AllLevels
  {
    forall l: Level ensures l in AllLevels {
      match l {
        case Low =>
        case Medium =>
        case High =>
        case Unknown =>
      }
    }
  }

  /** count / total × 100 before rounding. */
  function Share(count: nat, total: nat): real
    requires total > 0
  {
    count as real / total as real * 100.0
  }

  /** (level_counts / total_roads * 100).round(1) */
  function Percentages(d: map<Level, nat>, total: nat): (p: map<Level, real>)
    requires total > 0
    ensures p.Keys == d.Keys
    ensures forall l :: l in p ==> -0.05 < p[l] - Share(d[l], total) <= 0.05
  {
    map l | l in d :: Round1(Share(d[l], total))
  }

  /** A value that may be absent from a dict, read with a default of 0 (`dict.get(k, 0)`). */
  function CountOf(d: map<Level, nat>, l: Level): nat {
    if l in d then d[l] else 0
  }

  function PctOf(p: map<Level, real>, l: Level): real {
    if l in p then p[l] else 0.0
  }

  /** 'speed_stats': {} for an empty frame, {'count': 0} when no speed is present. */
  datatype SpeedStats =
    | EmptySpeedStats
    | ZeroCount
    | SpeedSummary(count: nat, mean: real, median: real, min: real, max: real, q25: real, q75: real)

  datatype TravelTimeStats = TravelTimeStats(count: nat, mean: real, median: real, min: real, max: real)

  datatype ObservationStats = ObservationStats(totalObservations: int, meanPerRoad: real, maxPerRoad: int, roadsWithData: nat)

  /** The statistics dict; an absent optional key is None. */
  datatype Statistics = Statistics(
    totalRoads: nat,
    distribution: map<Level, nat>,
    percentage: map<Level, real>,
    speedStats: Option<SpeedStats>,
    travelTimeStats: Option<TravelTimeStats>,
    observationStats: Option<ObservationStats>)

  /** The speed column, cell by cell. */
  function SpeedCells(rows: seq<RoadRow>): (c: seq<Option<real>>)
    ensures |c| == |rows| && forall i :: 0 <= i < |rows| ==> c[i] == rows[i].speed
  {
    seq(|rows|, i requires 0 <= i < |rows| => rows[i].speed)
  }

  /** The travel-time column, cell by cell. */
  function TravelTimeCells(rows: seq<RoadRow>): (c: seq<Option<real>>)
    ensures |c| == |rows| && forall i :: 0 <= i < |rows| ==> c[i] == rows[i].travelTime
  {
    seq(|rows|, i requires 0 <= i < |rows| => rows[i].travelTime)
  }

  /** The non-null speeds, in row order: `pd.to_numeric(gdf['平均速度']).dropna()`. */
  function Speeds(rows: seq<RoadRow>): (s: seq<real>)
    ensures s == Present(SpeedCells(rows))
  {
    if |rows| == 0 then []
    else
      assert SpeedCells(rows) == [rows[0].speed] + SpeedCells(rows[1..]);
      (if rows[0].speed.Some? then [rows[0].speed.value] else []) + Speeds(rows[1..])
  }

  /** The non-null travel times, in row order. */
  function TravelTimes(rows: seq<RoadRow>): (s: seq<real>)
    ensures s == Present(TravelTimeCells(rows))
  {
    if |rows| == 0 then []
    else
      assert TravelTimeCells(rows) == [rows[0].travelTime] + TravelTimeCells(rows[1..]);
      (if rows[0].travelTime.Some? then [rows[0].travelTime.value] else []) + TravelTimes(rows[1..])
  }

  /** The speeds speed_stats summarises are the non-null speed cells, in row order: the k-th is
      the speed of the row at the k-th non-null position, and every non-null speed is there. */
  lemma SpeedsInRowOrder(rows: seq<RoadRow>)
    ensures var ix := Selected(SpeedCells(rows), IsSome, |rows|);
      |Speeds(rows)| == |ix|
      && (forall k :: 0 <= k < |ix| ==> rows[ix[k]].speed == Some(Speeds(rows)[k]))
      && (forall i :: 0 <= i < |rows| && rows[i].speed.Some? ==> i in ix)
  {
    PresentKeepsOrder(SpeedCells(rows));
  }

  function ObservationCounts(rows: seq<RoadRow>): (s: seq<int>)
    ensures |s| == |rows|
    ensures forall i :: 0 <= i < |s| ==> s[i] == rows[i].observationCount
  {
    if |rows| == 0 then [] else [rows[0].observationCount as int] + ObservationCounts(rows[1..])
  }

  /** The positions of the positive values. */
  function PositiveIndices(s: seq<int>): set<nat> {
    set i: nat | i < |s| && s[i] > 0
  }

  /** The number of positive values. */
  function PositiveCount(s: seq<int>): (n: nat)
    ensures n <= |s|
  {
    if |s| == 0 then 0 else (if s[0] > 0 then 1 else 0) + PositiveCount(s[1..])
  }

  lemma {:induction false} PositiveCountAppend(a: seq<int>, b: seq<int>)
    ensures PositiveCount(a + b) == PositiveCount(a) + PositiveCount(b)
  {
    if |a| > 0 {
      assert (a + b)[1..] == a[1..] + b;
      PositiveCountAppend(a[1..], b);
    } else {
      assert a + b == b;
    }
  }

  /** PositiveCount of a prefix counts exactly the positive positions below it. */
  lemma {:induction false} PositiveCountPrefix(s: seq<int>, n: nat)
    requires n <= |s|
    ensures PositiveCount(s[..n]) == |set i: nat | i < n && s[i] > 0|
  {
    if n > 0 {
      PositiveCountPrefix(s, n - 1);
      assert s[..n] == s[..n - 1] + [s[n - 1]];
      PositiveCountAppend(s[..n - 1], [s[n - 1]]);
      var below := set i: nat | i < n - 1 && s[i] > 0;
      if s[n - 1] > 0 {
        assert (set i: nat | i < n && s[i] > 0) == below + {n - 1};
      } else {
        assert (set i: nat | i < n && s[i] > 0) == below;
      }
    }
  }

  /** roads_with_data: the number of positions holding a positive count. */
  lemma PositiveCountIsIndices(s: seq<int>)
    ensures PositiveCount(s) == |PositiveIndices(s)|
  {
    PositiveCountPrefix(s, |s|);
    assert s[..|s|] == s;
  }

  function SummarizeSpeeds(s: seq<real>): SpeedStats {
    if |s| == 0 then ZeroCount
    else SpeedSummary(|s|, Mean(s), Quantile(s, 1, 2), Min(s), Max(s), Quantile(s, 1, 4), Quantile(s, 3, 4))
  }

  function SummarizeTravelTimes(s: seq<real>): TravelTimeStats
    requires |s| > 0
  {
    TravelTimeStats(|s|, Mean(s), Quantile(s, 1, 2), Min(s), Max(s))
  }

  function SummarizeObservations(s: seq<int>): ObservationStats
    requires |s| > 0
  {
    ObservationStats(SumInts(s), SumInts(s) as real / |s| as real, MaxInt(s), PositiveCount(s))
  }

  /** generate_statistics (the analysis timestamp is not modelled). */
  function GenerateStatistics(f: RoadFrame): (st: Statistics)
    ensures |f.rows| == 0 ==> st == Statistics(0, map[], map[], Some(EmptySpeedStats), None, None)
    ensures st.totalRoads == |f.rows|
    ensures |f.rows| > 0 ==> st.distribution == Distribution(f)
    ensures st.percentage.Keys == st.distribution.Keys
    ensures forall l :: l in st.percentage ==> -0.05 < st.percentage[l] - Share(st.distribution[l], |f.rows|) <= 0.05
  {
    if |f.rows| == 0 then Statistics(0, map[], map[], Some(EmptySpeedStats), None, None)
    else
      var total := |f.rows|;
      var dist := Distribution(f);
      var speed := if SpeedCol in f.columns then Some(SummarizeSpeeds(Speeds(f.rows))) else None;
      var travel := TravelTimes(f.rows);
      var obs := ObservationCounts(f.rows);
      Statistics(total, dist, Percentages(dist, total), speed,
        if TravelTimeCol in f.columns && |travel| > 0 then Some(SummarizeTravelTimes(travel)) else None,
        if ObservationCountCol in f.columns && |obs| > 0 then Some(SummarizeObservations(obs)) else None)
  }

  lemma {:induction false} LevelCountsAddUp(rows: seq<RoadRow>)
    ensures LevelCount(rows, Low) + LevelCount(rows, Medium) + LevelCount(rows, High) + LevelCount(rows, Unknown)
            == ClassifiedCount(rows)
  {
    if |rows| > 0 {
      LevelCountsAddUp(rows[1..]);
      if rows[0].classification.Some? {
        var l := rows[0].classification.value.level;
        assert l == Low || l == Medium || l == High || l == Unknown;
      }
    }
  }

  lemma {:induction false} AllClassified(rows: seq<RoadRow>)
    requires forall i :: 0 <= i < |rows| ==> rows[i].classification.Some?
    ensures ClassifiedCount(rows) == |rows|
  {
    if |rows| > 0 { AllClassified(rows[1..]); }
  }

  /** The level counts of a classified frame add up to total_roads. */
  lemma DistributionSumsToTotal(a: Analyzer, f: RoadFrame)
    ensures var st := GenerateStatistics(CalculateCongestionLevel(a, f));
      CountOf(st.distribution, Low) + CountOf(st.distribution, Medium)
        + CountOf(st.distribution, High) + CountOf(st.distribution, Unknown) == st.totalRoads
  {
    var r := CalculateCongestionLevel(a, f);
    if |f.rows| > 0 {
      var d := Distribution(r);
      forall l ensures CountOf(d, l) == LevelCount(r.rows, l) {}
      LevelCountsAddUp(r.rows);
      AllClassified(r.rows);
    }
  }

  lemma ShareAdd(a: nat, b: nat, n: nat)
    requires n > 0
    ensures Share(a, n) + Share(b, n) == Share(a + b, n)
  {
  }

  lemma ShareWhole(n: nat)
    requires n > 0
    ensures Share(n, n) == 100.0
  {
  }

  /** Four shares rounded to a tenth, whose counts make up the whole, add up to 100 within
      the four roundings. */
  lemma RoundedSharesNearHundred(d: map<Level, nat>, p: map<Level, real>, n: nat)
    requires n > 0 && p.Keys == d.Keys
    requires CountOf(d, Low) + CountOf(d, Medium) + CountOf(d, High) + CountOf(d, Unknown) == n
    requires forall l :: l in p ==> -0.05 < p[l] - Share(d[l], n) <= 0.05
    ensures 99.8 <= PctOf(p, Low) + PctOf(p, Medium) + PctOf(p, High) + PctOf(p, Unknown) <= 100.2
  {
    var a, b, c, e := CountOf(d, Low), CountOf(d, Medium), CountOf(d, High), CountOf(d, Unknown);
    RoundedNear(d, p, n, Low);
    RoundedNear(d, p, n, Medium);
    RoundedNear(d, p, n, High);
    RoundedNear(d, p, n, Unknown);
    SharesOfWhole(a, b, c, e, n);
    NearSum(PctOf(p, Low), PctOf(p, Medium), PctOf(p, High), PctOf(p, Unknown),
            Share(a, n), Share(b, n), Share(c, n), Share(e, n));
  }

  lemma RoundedNear(d: map<Level, nat>, p: map<Level, real>, n: nat, l: Level)
    requires n > 0 && p.Keys == d.Keys
    requires forall l :: l in p ==> -0.05 < p[l] - Share(d[l], n) <= 0.05
    ensures -0.05 <= PctOf(p, l) - Share(CountOf(d, l), n) <= 0.05
  {
    if l !in d { assert Share(0, n) == 0.0; }
  }

  lemma SharesOfWhole(a: nat, b: nat, c: nat, e: nat, n: nat)
    requires n > 0 && a + b + c + e == n
    ensures Share(a, n) + Share(b, n) + Share(c, n) + Share(e, n) == 100.0
  {
    ShareAdd(a, b, n);
    ShareAdd(a + b, c, n);
    ShareAdd(a + b + c, e, n);
    ShareWhole(n);
  }

  lemma NearSum(x1: real, x2: real, x3: real, x4: real, y1: real, y2: real, y3: real, y4: real)
    requires y1 + y2 + y3 + y4 == 100.0
    requires -0.05 <= x1 - y1 <= 0.05 && -0.05 <= x2 - y2 <= 0.05
    requires -0.05 <= x3 - y3 <= 0.05 && -0.05 <= x4 - y4 <= 0.05
    ensures 99.8 <= x1 + x2 + x3 + x4 <= 100.2
  {
  }

  /** The rounded percentages of a classified frame add up to 100 within the four roundings. */
  lemma PercentagesNearHundred(a: Analyzer, f: RoadFrame)
    requires |f.rows| > 0
    ensures var st := GenerateStatistics(CalculateCongestionLevel(a, f));
      99.8 <= PctOf(st.percentage, Low) + PctOf(st.percentage, Medium)
                + PctOf(st.percentage, High) + PctOf(st.percentage, Unknown) <= 100.2
  {
    var st := GenerateStatistics(CalculateCongestionLevel(a, f));
    DistributionSumsToTotal(a, f);
    RoundedSharesNearHundred(st.distribution, st.percentage, st.totalRoads);
  }

  /** speed_stats covers exactly the non-null speeds: count, mean, median, min, max and the
      quartiles are those of that sequence, and every summary lies between min and max. */
  lemma SpeedStatsBounds(f: RoadFrame)
    ensures var st := GenerateStatistics(f); var s := Speeds(f.rows);
      (st.speedStats == Some(ZeroCount) <==> |f.rows| > 0 && SpeedCol in f.columns && |s| == 0)
      && (st.speedStats.Some? && st.speedStats.value.SpeedSummary? <==> |f.rows| > 0 && SpeedCol in f.columns && |s| > 0)
      && (st.speedStats.Some? && st.speedStats.value.SpeedSummary? ==>
            var ss := st.speedStats.value;
            ss.count == |s| <= st.totalRoads
            && ss.mean == Mean(s) && ss.median == Quantile(s, 1, 2)
            && ss.min == Min(s) && ss.max == Max(s)
            && ss.q25 == Quantile(s, 1, 4) && ss.q75 == Quantile(s, 3, 4)
            && ss.min <= ss.mean <= ss.max
            && ss.min <= ss.median <= ss.max
            && ss.min <= ss.q25 <= ss.max
            && ss.min <= ss.q75 <= ss.max)
  {
    var s := Speeds(f.rows);
    if |f.rows| > 0 && SpeedCol in f.columns && |s| > 0 {
      MeanBetween(s);
      QuantileBetween(s, 1, 2);
      QuantileBetween(s, 1, 4);
      QuantileBetween(s, 3, 4);
    }
  }

  /** travel_time_stats exists exactly when the column exists and some travel time is non-null;
      its count, mean, median, min and max are those of the non-null travel times. */
  lemma TravelTimeStatsBounds(f: RoadFrame)
    ensures var st := GenerateStatistics(f); var t := TravelTimes(f.rows);
      (st.travelTimeStats.Some? <==> |f.rows| > 0 && TravelTimeCol in f.columns && |t| > 0)
      && (st.travelTimeStats.Some? ==>
            var ts := st.travelTimeStats.value;
            ts.count == |t| <= st.totalRoads
            && ts.mean == Mean(t) && ts.median == Quantile(t, 1, 2)
            && ts.min == Min(t) && ts.max == Max(t)
            && ts.min <= ts.mean <= ts.max
            && ts.min <= ts.median <= ts.max)
  {
    var t := TravelTimes(f.rows);
    if |f.rows| > 0 && TravelTimeCol in f.columns && |t| > 0 {
      MeanBetween(t);
      QuantileBetween(t, 1, 2);
    }
  }

  /** observation_stats: the total is the sum of the counts, no road has more than the total,
      and roads_with_data never exceeds the number of rows. */
  lemma ObservationStatsBounds(f: RoadFrame)
    ensures var st := GenerateStatistics(f);
      st.observationStats.Some? ==>
        var os := st.observationStats.value;
        os.totalObservations == SumInts(ObservationCounts(f.rows))
        && 0 <= os.maxPerRoad <= os.totalObservations
        && (forall i :: 0 <= i < |f.rows| ==> f.rows[i].observationCount <= os.maxPerRoad)
        && (exists i :: 0 <= i < |f.rows| && f.rows[i].observationCount == os.maxPerRoad)
        && os.roadsWithData == |PositiveIndices(ObservationCounts(f.rows))| <= st.totalRoads
        && (st.totalRoads > 0 ==> os.meanPerRoad == os.totalObservations as real / st.totalRoads as real)
  {
    var s := ObservationCounts(f.rows);
    if |f.rows| > 0 && ObservationCountCol in f.columns {
      SumIntsOfNats(s);
      assert s[0] >= 0;
      PositiveCountIsIndices(s);
      var m := MaxInt(s);
      var k :| 0 <= k < |s| && s[k] == m;
      assert f.rows[k].observationCount == m;
    }
  }

  // ---------------------------------------------------------------- trends

  /** The road classes of the rows, null where absent. */
  function Classes(rows: seq<RoadRow>): (cs: seq<Option<string>>)
    ensures |cs| == |rows| && forall i {:trigger cs[i]} :: 0 <= i < |rows| ==> cs[i] == rows[i].roadClass
  {
    if |rows| == 0 then [] else [rows[0].roadClass] + Classes(rows[1..])
  }

  /** `gdf['road_class'].dropna().unique()` */
  function RoadClasses(f: RoadFrame): seq<string> {
    Distinct(Present(Classes(f.rows)))
  }

  function RowsOfClass(rows: seq<RoadRow>, c: string): (r: seq<RoadRow>)
    ensures |r| <= |rows|
    ensures forall i :: 0 <= i < |r| ==> r[i] in rows && r[i].roadClass == Some(c)
  {
    if |rows| == 0 then []
    else (if rows[0].roadClass == Some(c) then [rows[0]] else []) + RowsOfClass(rows[1..], c)
  }

  /** `gdf[gdf['road_class'] == road_class]` */
  function ClassFrame(f: RoadFrame, c: string): RoadFrame {
    RoadFrame(f.columns, RowsOfClass(f.rows, c))
  }

  datatype ClassEntry = ClassEntry(roadClass: string, stats: Statistics)

  /** The class analysis the loop builds over the classes ks, in order. */
  function ClassAnalysis(f: RoadFrame, ks: seq<string>): seq<ClassEntry> {
    if |ks| == 0 then [] else EntryFor(f, ks[0]) + ClassAnalysis(f, ks[1..])
  }

  /** The entry for one class, present when the class has rows. */
  function EntryFor(f: RoadFrame, c: string): seq<ClassEntry> {
    var sub := ClassFrame(f, c);
    if |sub.rows| > 0 then [ClassEntry(c, GenerateStatistics(sub))] else []
  }

  /** A speed band [lo, hi) in km/h; hi = None is infinity. */
  datatype SpeedRange = SpeedRange(lo: nat, hi: Option<nat>, name: string)

  const SpeedRanges: seq<SpeedRange> := [
    SpeedRange(0, Some(10), "極低速"),
    SpeedRange(10, Some(20), "低速"),
    SpeedRange(20, Some(30), "中速"),
    SpeedRange(30, Some(50), "高速"),
    SpeedRange(50, None, "極高速")
  ]

  predicate InRange(v: real, r: SpeedRange) {
    v >= r.lo as real && (r.hi.None? || v < r.hi.value as real)
  }

  /** The 'range' text, e.g. "10-20km/h" or "50-∞km/h". */
  function RangeText(r: SpeedRange): string {
    NatToString(r.lo) + "-" + (if r.hi.None? then "∞" else NatToString(r.hi.value)) + "km/h"
  }

  function CountInRange(s: seq<real>, r: SpeedRange): (n: nat)
    ensures n <= |s|
  {
    if |s| == 0 then 0 else (if InRange(s[0], r) then 1 else 0) + CountInRange(s[1..], r)
  }

  datatype RangeEntry = RangeEntry(name: string, count: nat, percentage: real, range: string)

  function RangeEntryFor(s: seq<real>, r: SpeedRange): RangeEntry
    requires |s| > 0
  {
    var c := CountInRange(s, r);
    RangeEntry(r.name, c, Round1(Share(c, |s|)), RangeText(r))
  }

  /** The range analysis the loop builds over the bands rs, in order. */
  function RangeAnalysis(s: seq<real>, rs: seq<SpeedRange>): (es: seq<RangeEntry>)
    requires |s| > 0
    ensures |es| == |rs|
    ensures forall i :: 0 <= i < |rs| ==> es[i] == RangeEntryFor(s, rs[i])
  {
    if |rs| == 0 then [] else [RangeEntryFor(s, rs[0])] + RangeAnalysis(s, rs[1..])
  }

  /** 'by_road_class' and 'by_speed_range'; None where the key is absent. */
  datatype Trends = Trends(byRoadClass: Option<seq<ClassEntry>>, bySpeedRange: Option<seq<RangeEntry>>)

  /** analyze_congestion_trends with the default road_class column. */
  method AnalyzeCongestionTrends(f: RoadFrame) returns (t: Trends)
    ensures |f.rows| == 0 || LevelCol !in f.columns ==> t == Trends(None, None)
    ensures |f.rows| > 0 && LevelCol in f.columns ==>
      t.byRoadClass == (if RoadClassCol in f.columns then Some(ClassAnalysis(f, RoadClasses(f))) else None)
      && t.bySpeedRange == (if SpeedCol in f.columns && |Speeds(f.rows)| > 0
                            then Some(RangeAnalysis(Speeds(f.rows), SpeedRanges)) else None)
  {
    if |f.rows| == 0 || LevelCol !in f.columns {
      return Trends(None, None);
    }
    t := Trends(None, None);
    if RoadClassCol in f.columns {
      var analysis := AnalyzeByClass(f, RoadClasses(f));
      t := t.(byRoadClass := Some(analysis));
    }
    if SpeedCol in f.columns {
      var speeds := Speeds(f.rows);
      if |speeds| > 0 {
        var analysis := AnalyzeBySpeedRange(speeds, SpeedRanges);
        t := t.(bySpeedRange := Some(analysis));
      }
    }
  }

  /** The loop over road classes: statistics of each class's rows. */
  method AnalyzeByClass(f: RoadFrame, classes: seq<string>) returns (analysis: seq<ClassEntry>)
    ensures analysis == ClassAnalysis(f, classes)
  {
    analysis := [];
    var i := 0;
    while i < |classes|
      invariant 0 <= i <= |classes|
      invariant analysis + ClassAnalysis(f, classes[i..]) == ClassAnalysis(f, classes)
    {
      ClassAnalysisStep(f, classes, i);
      var entry := AnalyzeClass(f, classes[i]);
      AppendStep(analysis, entry, ClassAnalysis(f, classes[i + 1..]), ClassAnalysis(f, classes));
      analysis := analysis + entry;
      i := i + 1;
    }
    assert classes[|classes|..] == [];
  }

  /** entry is the class's analysis: at most one entry, present exactly when the class occurs,
      naming the class and carrying the statistics of its rows, one road per occurrence. */
  predicate ClassEntryOf(f: RoadFrame, roadClass: string, entry: seq<ClassEntry>) {
    |entry| <= 1
    && (|entry| == 1 <==> Count(Present(Classes(f.rows)), roadClass) > 0)
    && (|entry| == 1 ==>
          entry[0].roadClass == roadClass
          && entry[0].stats.totalRoads == Count(Present(Classes(f.rows)), roadClass)
          && entry[0].stats == GenerateStatistics(ClassFrame(f, roadClass)))
  }

  /** One pass of the class loop: the statistics of the class's rows, when there are any. */
  method AnalyzeClass(f: RoadFrame, roadClass: string) returns (entry: seq<ClassEntry>)
    ensures ClassEntryOf(f, roadClass, entry)
    ensures entry == EntryFor(f, roadClass)
  {
    RowsOfClassCount(f.rows, roadClass);
    var classData := ClassFrame(f, roadClass);
    entry := [];
    if |classData.rows| > 0 {
      var classStats := GenerateStatistics(classData);
      entry := [ClassEntry(roadClass, classStats)];
    }
  }

  lemma AppendStep<T>(done: seq<T>, step: seq<T>, rest: seq<T>, whole: seq<T>)
    requires done + (step + rest) == whole
    ensures (done + step) + rest == whole
  {
    assert (done + step) + rest == done + (step + rest);
  }

  lemma ClassAnalysisStep(f: RoadFrame, ks: seq<string>, i: nat)
    requires i < |ks|
    ensures ClassAnalysis(f, ks[i..]) == EntryFor(f, ks[i]) + ClassAnalysis(f, ks[i + 1..])
  {
    assert ks[i..][1..] == ks[i + 1..];
  }

  /** The loop over speed bands: count and rounded share of the speeds in each band. */
  method AnalyzeBySpeedRange(speeds: seq<real>, ranges: seq<SpeedRange>) returns (analysis: seq<RangeEntry>)
    requires |speeds| > 0
    ensures analysis == RangeAnalysis(speeds, ranges)
  {
    analysis := [];
    var i := 0;
    while i < |ranges|
      invariant 0 <= i <= |ranges|
      invariant |analysis| == i
      invariant forall k :: 0 <= k < i ==> analysis[k] == RangeEntryFor(speeds, ranges[k])
    {
      var r := ranges[i];
      var count := CountInRange(speeds, r);
      var percentage := Share(count, |speeds|);
      analysis := analysis + [RangeEntry(r.name, count, Round1(percentage), RangeText(r))];
      i := i + 1;
    }
  }

  function SumTotals(es: seq<ClassEntry>): nat {
    if |es| == 0 then 0 else es[0].stats.totalRoads + SumTotals(es[1..])
  }

  lemma {:induction false} RowsOfClassCount(rows: seq<RoadRow>, c: string)
    ensures |RowsOfClass(rows, c)| == Count(Present(Classes(rows)), c)
  {
    if |rows| > 0 {
      RowsOfClassCount(rows[1..], c);
      assert Classes(rows)[1..] == Classes(rows[1..]);
      var p := Present(Classes(rows));
      var head: seq<string> := if rows[0].roadClass.Some? then [rows[0].roadClass.value] else [];
      assert p == head + Present(Classes(rows[1..]));
      CountAppend(head, Present(Classes(rows[1..])), c);
    }
  }

  lemma {:induction false} ClassAnalysisOver(f: RoadFrame, ks: seq<string>)
    requires forall k :: k in ks ==> Count(Present(Classes(f.rows)), k) > 0
    ensures |ClassAnalysis(f, ks)| == |ks|
    ensures forall i :: 0 <= i < |ks| ==>
      ClassAnalysis(f, ks)[i].roadClass == ks[i]
      && ClassAnalysis(f, ks)[i].stats.totalRoads == Count(Present(Classes(f.rows)), ks[i])
    ensures SumTotals(ClassAnalysis(f, ks)) == SumCounts(Present(Classes(f.rows)), ks)
  {
    if |ks| > 0 {
      RowsOfClassCount(f.rows, ks[0]);
      ClassAnalysisOver(f, ks[1..]);
      var e := ClassAnalysis(f, ks);
      assert e[1..] == ClassAnalysis(f, ks[1..]);
      forall i | 1 <= i < |ks|
        ensures e[i].roadClass == ks[i] && e[i].stats.totalRoads == Count(Present(Classes(f.rows)), ks[i])
      {
        assert e[i] == ClassAnalysis(f, ks[1..])[i - 1];
      }
    }
  }

  /** by_road_class has one entry per distinct non-null class, in order of first appearance, each
      over that class's rows; together they cover every row that has a class. */
  lemma ClassAnalysisCoversClasses(f: RoadFrame)
    ensures var es := ClassAnalysis(f, RoadClasses(f));
      |es| == |RoadClasses(f)|
      && (forall i :: 0 <= i < |es| ==>
            es[i].roadClass == RoadClasses(f)[i]
            && es[i].stats.totalRoads == |RowsOfClass(f.rows, es[i].roadClass)| > 0)
      && (forall i, j :: 0 <= i < j < |es| ==>
            FirstIndex(Present(Classes(f.rows)), es[i].roadClass) < FirstIndex(Present(Classes(f.rows)), es[j].roadClass))
      && SumTotals(es) == |Present(Classes(f.rows))|
  {
    ClassEntriesTotals(f);
    ClassEntriesInOrder(f);
  }

  lemma ClassEntriesTotals(f: RoadFrame)
    ensures var es := ClassAnalysis(f, RoadClasses(f));
      |es| == |RoadClasses(f)|
      && (forall i :: 0 <= i < |es| ==>
            es[i].roadClass == RoadClasses(f)[i]
            && es[i].stats.totalRoads == |RowsOfClass(f.rows, es[i].roadClass)| > 0)
      && SumTotals(es) == |Present(Classes(f.rows))|
  {
    var p := Present(Classes(f.rows));
    var ks := RoadClasses(f);
    DistinctCounts(p);
    ClassAnalysisOver(f, ks);
    forall i | 0 <= i < |ks| ensures |RowsOfClass(f.rows, ks[i])| == Count(p, ks[i]) {
      RowsOfClassCount(f.rows, ks[i]);
    }
  }

  lemma ClassEntriesInOrder(f: RoadFrame)
    ensures var es := ClassAnalysis(f, RoadClasses(f));
      (forall i :: 0 <= i < |es| ==> es[i].roadClass in Present(Classes(f.rows)))
      && forall i, j :: 0 <= i < j < |es| ==>
        FirstIndex(Present(Classes(f.rows)), es[i].roadClass) < FirstIndex(Present(Classes(f.rows)), es[j].roadClass)
  {
    ClassEntriesTotals(f);
    var p := Present(Classes(f.rows));
    var ks := Distinct(p);
    EntriesFollowKeys(ClassAnalysis(f, ks), ks, p);
  }

  /** Entries that name the keys one for one inherit the keys' first-appearance order. */
  lemma EntriesFollowKeys(es: seq<ClassEntry>, ks: seq<string>, p: seq<string>)
    requires |es| == |ks| && forall i :: 0 <= i < |ks| ==> es[i].roadClass == ks[i] && ks[i] in p
    requires forall i, j :: 0 <= i < j < |ks| ==> FirstIndex(p, ks[i]) < FirstIndex(p, ks[j])
    ensures forall i, j :: 0 <= i < j < |es| ==> FirstIndex(p, es[i].roadClass) < FirstIndex(p, es[j].roadClass)
  {
  }

  function NonNegCount(s: seq<real>): (n: nat)
    ensures n <= |s|
  {
    if |s| == 0 then 0 else (if s[0] >= 0.0 then 1 else 0) + NonNegCount(s[1..])
  }

  /** The bands are half-open and tile [0, ∞): a non-negative speed is in exactly one of them,
      a negative one in none. */
  lemma BandsTile(v: real)
    ensures v >= 0.0 ==> exists i :: 0 <= i < |SpeedRanges| && InRange(v, SpeedRanges[i])
    ensures forall i, j :: 0 <= i < j < |SpeedRanges| ==> !(InRange(v, SpeedRanges[i]) && InRange(v, SpeedRanges[j]))
    ensures v < 0.0 ==> forall i :: 0 <= i < |SpeedRanges| ==> !InRange(v, SpeedRanges[i])
  {
    if v >= 0.0 {
      if v < 10.0 { assert InRange(v, SpeedRanges[0]); }
      else if v < 20.0 { assert InRange(v, SpeedRanges[1]); }
      else if v < 30.0 { assert InRange(v, SpeedRanges[2]); }
      else if v < 50.0 { assert InRange(v, SpeedRanges[3]); }
      else { assert InRange(v, SpeedRanges[4]); }
    }
  }

  function BandTotal(s: seq<real>): nat {
    CountInRange(s, SpeedRanges[0]) + CountInRange(s, SpeedRanges[1]) + CountInRange(s, SpeedRanges[2])
      + CountInRange(s, SpeedRanges[3]) + CountInRange(s, SpeedRanges[4])
  }

  lemma {:induction false} BandTotalIsNonNeg(s: seq<real>)
    ensures BandTotal(s) == NonNegCount(s)
  {
    if |s| > 0 {
      BandTotalIsNonNeg(s[1..]);
      BandsTile(s[0]);
    }
  }

  function SumRangeCounts(es: seq<RangeEntry>): nat {
    if |es| == 0 then 0 else es[0].count + SumRangeCounts(es[1..])
  }

  lemma SumOfFive(es: seq<RangeEntry>)
    requires |es| == 5
    ensures SumRangeCounts(es) == es[0].count + es[1].count + es[2].count + es[3].count + es[4].count
  {
    var e1 := es[1..];
    var e2 := e1[1..];
    var e3 := e2[1..];
    var e4 := e3[1..];
    assert e4[1..] == [];
    assert SumRangeCounts(e4) == es[4].count + SumRangeCounts(e4[1..]);
    assert SumRangeCounts(e3) == es[3].count + SumRangeCounts(e4);
    assert SumRangeCounts(e2) == es[2].count + SumRangeCounts(e3);
    assert SumRangeCounts(e1) == es[1].count + SumRangeCounts(e2);
  }

  /** The by_speed_range counts add up to the number of non-negative speeds. */
  lemma RangeCountsSum(s: seq<real>)
    requires |s| > 0
    ensures SumRangeCounts(RangeAnalysis(s, SpeedRanges)) == NonNegCount(s)
  {
    var es := RangeAnalysis(s, SpeedRanges);
    SumOfFive(es);
    BandTotalIsNonNeg(s);
  }

  // ---------------------------------------------------------------- summary

  /** The Japanese summary parts: header, then each positive share of low, medium and high,
      then the mean speed when positive. */
  function SummaryParts(total: nat, low: real, medium: real, high: real, avg: real): seq<string> {
    [Labeled("対象道路数: ", NatToString(total) + "路線")]
      + (if low > 0.0 then [Labeled("空いている: ", Format1(low) + "%")] else [])
      + (if medium > 0.0 then [Labeled("やや混雑: ", Format1(medium) + "%")] else [])
      + (if high > 0.0 then [Labeled("混雑: ", Format1(high) + "%")] else [])
      + (if avg > 0.0 then [Labeled("平均速度: ", Format1(avg) + "km/h")] else [])
  }

  /** A summary part: a caption followed by its value. */
  function Labeled(caption: string, value: string): (r: string)
    ensures StartsWith(r, caption)
  {
    caption + value
  }

  /** `stats.get('speed_stats', {}).get('mean', 0)` */
  function MeanSpeed(st: Statistics): real {
    if st.speedStats.Some? && st.speedStats.value.SpeedSummary? then st.speedStats.value.mean else 0.0
  }

  /** get_congestion_summary */
  method CongestionSummary(f: RoadFrame) returns (s: string)
    ensures |f.rows| == 0 ==> s == "データがありません。"
    ensures |f.rows| > 0 && |GenerateStatistics(f).percentage| == 0 ==>
      s == "対象道路数: " + NatToString(|f.rows|) + "（混雑度データなし）"
    ensures |f.rows| > 0 && |GenerateStatistics(f).percentage| > 0 ==>
      var st := GenerateStatistics(f);
      s == Join(SummaryParts(|f.rows|, PctOf(st.percentage, Low), PctOf(st.percentage, Medium),
                             PctOf(st.percentage, High), MeanSpeed(st)), " | ")
  {
    if |f.rows| == 0 {
      return "データがありません。";
    }
    var stats := GenerateStatistics(f);
    var total := stats.totalRoads;
    var percentages := stats.percentage;
    if |percentages| == 0 {
      return "対象道路数: " + NatToString(total) + "（混雑度データなし）";
    }
    s := RenderSummary(total, PctOf(percentages, Low), PctOf(percentages, Medium),
                       PctOf(percentages, High), MeanSpeed(stats));
  }

  /** The part-by-part assembly of the summary line. */
  method RenderSummary(total: nat, lowPct: real, mediumPct: real, highPct: real, avgSpeed: real) returns (s: string)
    ensures s == Join(SummaryParts(total, lowPct, mediumPct, highPct, avgSpeed), " | ")
  {
    var parts := [Labeled("対象道路数: ", NatToString(total) + "路線")];
    if lowPct > 0.0 {
      parts := parts + [Labeled("空いている: ", Format1(lowPct) + "%")];
    }
    if mediumPct > 0.0 {
      parts := parts + [Labeled("やや混雑: ", Format1(mediumPct) + "%")];
    }
    if highPct > 0.0 {
      parts := parts + [Labeled("混雑: ", Format1(highPct) + "%")];
    }
    if avgSpeed > 0.0 {
      parts := parts + [Labeled("平均速度: ", Format1(avgSpeed) + "km/h")];
    }
    assert parts == SummaryParts(total, lowPct, mediumPct, highPct, avgSpeed);
    s := Join(parts, " | ");
  }

  predicate StartsWith(s: string, prefix: string) {
    |prefix| <= |s| && s[..|prefix|] == prefix
  }

  /** Some part of the summary opens with the given prefix. */
  predicate Mentions(parts: seq<string>, prefix: string) {
    exists p :: p in parts && StartsWith(p, prefix)
  }

  /** Every summary part opens with one of the five captions, each one present exactly when its
      value is positive (the header always). */
  lemma PartsByCaption(total: nat, low: real, medium: real, high: real, avg: real)
    ensures var parts := SummaryParts(total, low, medium, high, avg);
      (forall p :: p in parts ==>
         |p| > 0
         && (p[0] == '対' || (p[0] == '空' && low > 0.0) || (p[0] == 'や' && medium > 0.0)
             || (p[0] == '混' && high > 0.0) || (p[0] == '平' && avg > 0.0)))
      && (low > 0.0 ==> Labeled("空いている: ", Format1(low) + "%") in parts)
      && (medium > 0.0 ==> Labeled("やや混雑: ", Format1(medium) + "%") in parts)
      && (high > 0.0 ==> Labeled("混雑: ", Format1(high) + "%") in parts)
      && (avg > 0.0 ==> Labeled("平均速度: ", Format1(avg) + "km/h") in parts)
  {
  }

  /** A caption followed by a positive value is mentioned exactly when the value is positive. */
  lemma MentionedIff(parts: seq<string>, caption: string, v: real, suffix: string)
    requires |caption| > 0
    requires v > 0.0 ==> Labeled(caption, Format1(v) + suffix) in parts
    requires !(v > 0.0) ==> forall p :: p in parts ==> |p| > 0 && p[0] != caption[0]
    ensures v > 0.0 <==> Mentions(parts, caption)
  {
    if v > 0.0 {
      var part := Labeled(caption, Format1(v) + suffix);
      assert part in parts && StartsWith(part, caption);
    }
  }

  /** The summary opens with the road count. */
  lemma SummaryHeader(total: nat, low: real, medium: real, high: real, avg: real)
    ensures SummaryParts(total, low, medium, high, avg)[0] == "対象道路数: " + NatToString(total) + "路線"
  {
  }

  /** The summary names the share of low, medium or high, and the mean speed, exactly when that
      value is positive. */
  lemma SummaryMentionsPositive(total: nat, low: real, medium: real, high: real, avg: real)
    ensures var parts := SummaryParts(total, low, medium, high, avg);
      (low > 0.0 <==> Mentions(parts, "空いている: "))
      && (medium > 0.0 <==> Mentions(parts, "やや混雑: "))
      && (high > 0.0 <==> Mentions(parts, "混雑: "))
      && (avg > 0.0 <==> Mentions(parts, "平均速度: "))
  {
    LowMentioned(total, low, medium, high, avg);
    MediumMentioned(total, low, medium, high, avg);
    HighMentioned(total, low, medium, high, avg);
    AverageMentioned(total, low, medium, high, avg);
  }

  lemma LowMentioned(total: nat, low: real, medium: real, high: real, avg: real)
    ensures low > 0.0 <==> Mentions(SummaryParts(total, low, medium, high, avg), "空いている: ")
  {
    PartsByCaption(total, low, medium, high, avg);
    MentionedIff(SummaryParts(total, low, medium, high, avg), "空いている: ", low, "%");
  }

  lemma MediumMentioned(total: nat, low: real, medium: real, high: real, avg: real)
    ensures medium > 0.0 <==> Mentions(SummaryParts(total, low, medium, high, avg), "やや混雑: ")
  {
    PartsByCaption(total, low, medium, high, avg);
    MentionedIff(SummaryParts(total, low, medium, high, avg), "やや混雑: ", medium, "%");
  }

  lemma HighMentioned(total: nat, low: real, medium: real, high: real, avg: real)
    ensures high > 0.0 <==> Mentions(SummaryParts(total, low, medium, high, avg), "混雑: ")
  {
    PartsByCaption(total, low, medium, high, avg);
    MentionedIff(SummaryParts(total, low, medium, high, avg), "混雑: ", high, "%");
  }

  lemma AverageMentioned(total: nat, low: real, medium: real, high: real, avg: real)
    ensures avg > 0.0 <==> Mentions(SummaryParts(total, low, medium, high, avg), "平均速度: ")
  {
    PartsByCaption(total, low, medium, high, avg);
    MentionedIff(SummaryParts(total, low, medium, high, avg), "平均速度: ", avg, "km/h");
  }
}

=== FILE: counting.dfy ===
/** Counting occurrences and listing distinct values in first-appearance order
    (`Series.unique()`, `value_counts()`, `groupby(...).size()`). */
module Counting {

  predicate NoDups<T(==)>(xs: seq<T>) {
    forall i, j :: 0 <= i < j < |xs| ==> xs[i] != xs[j]
  }

  /** Number of occurrences of k in xs. */
  function Count<T(==)>(xs: seq<T>, k: T): nat
    ensures Count(xs, k) <= |xs|
    ensures k !in xs ==> Count(xs, k) == 0
  {
    if |xs| == 0 then 0 else (if xs[0] == k then 1 else 0) + Count(xs[1..], k)
  }

  lemma {:induction false} CountPositive<T>(xs: seq<T>, k: T)
    requires k in xs
    ensures Count(xs, k) > 0
  {
    if xs[0] != k {
      assert k in xs[1..];
      CountPositive(xs[1..], k);
    }
  }

  /** The position of the first occurrence of x in xs. */
  function FirstIndex<T(==)>(xs: seq<T>, x: T): (i: nat)
    requires x in xs
    ensures i < |xs| && xs[i] == x && forall j :: 0 <= j < i ==> xs[j] != x
  {
    if xs[0] == x then 0 else 1 + FirstIndex(xs[1..], x)
  }

  /** A value occurring in a prefix first occurs where it first occurs in the prefix. */
  lemma {:induction false} FirstIndexOfPrefix<T>(xs: seq<T>, m: nat, x: T)
    requires m <= |xs| && x in xs[..m]
    ensures x in xs && FirstIndex(xs, x) == FirstIndex(xs[..m], x)
  {
    var k := FirstIndex(xs[..m], x);
    assert xs[..m][k] == xs[k];
  }

  /** A value absent from the prefix before position n first occurs at n. */
  lemma {:induction false} FirstIndexAfterPrefix<T>(xs: seq<T>, n: nat)
    requires n < |xs| && xs[n] !in xs[..n]
    ensures FirstIndex(xs, xs[n]) == n
  {
  }

  /** The distinct values of xs in order of first appearance (`Series.unique()`). */
  function Distinct<T(==,!new)>(xs: seq<T>): (d: seq<T>)
    ensures NoDups(d)
    ensures forall x :: x in d <==> x in xs
    ensures |d| <= |xs|
    ensures forall i, j :: 0 <= i < j < |d| ==> FirstIndex(xs, d[i]) < FirstIndex(xs, d[j])
  {
    if |xs| == 0 then []
    else
      var n := |xs| - 1;
      var prev := Distinct(xs[..n]);
      assert forall x :: x in xs <==> x in xs[..n] || x == xs[n] by {
        assert xs == xs[..n] + [xs[n]];
      }
      DistinctStep(xs, prev);
      if xs[n] in prev then prev else prev + [xs[n]]
  }

  /** Extending the distinct values of all but the last element keeps first-appearance order. */
  lemma {:induction false} DistinctStep<T>(xs: seq<T>, prev: seq<T>)
    requires |xs| > 0
    requires forall x :: x in prev <==> x in xs[..|xs| - 1]
    requires forall k :: 0 <= k < |prev| ==> prev[k] in xs[..|xs| - 1]
    requires forall i, j :: 0 <= i < j < |prev| ==> FirstIndex(xs[..|xs| - 1], prev[i]) < FirstIndex(xs[..|xs| - 1], prev[j])
    ensures forall x :: x in prev ==> x in xs
    ensures xs[|xs| - 1] in prev ==>
      forall i, j :: 0 <= i < j < |prev| ==> FirstIndex(xs, prev[i]) < FirstIndex(xs, prev[j])
    ensures xs[|xs| - 1] !in prev ==>
      var d := prev + [xs[|xs| - 1]];
      forall i, j :: 0 <= i < j < |d| ==> FirstIndex(xs, d[i]) < FirstIndex(xs, d[j])
  {
    var n := |xs| - 1;
    forall y | y in prev ensures y in xs && FirstIndex(xs, y) == FirstIndex(xs[..n], y) {
      FirstIndexOfPrefix(xs, n, y);
    }
    if xs[n] !in prev {
      FirstIndexAfterPrefix(xs, n);
      var d := prev + [xs[n]];
      forall i, j | 0 <= i < j < |d| ensures FirstIndex(xs, d[i]) < FirstIndex(xs, d[j]) {
        assert d[i] == prev[i];
        if j < |prev| { assert d[j] == prev[j]; }
      }
    }
  }

  /** Σ_{k in ks} Count(xs, k) */
  function SumCounts<T(==)>(xs: seq<T>, ks: seq<T>): nat {
    if |ks| == 0 then 0 else Count(xs, ks[0]) + SumCounts(xs, ks[1..])
  }

  lemma {:induction false} SumCountsCons<T>(x: T, xs: seq<T>, ks: seq<T>)
    requires NoDups(ks)
    ensures SumCounts([x] + xs, ks) == (if x in ks then 1 else 0) + SumCounts(xs, ks)
  {
    if |ks| > 0 {
      assert ([x] + xs)[1..] == xs;
      assert x in ks ==> (x == ks[0] <==> x !in ks[1..]) by {
        if x in ks && x == ks[0] {
          forall j | 1 <= j < |ks| ensures ks[j] != x { assert ks[0] != ks[j]; }
        }
      }
      assert x in ks <==> x == ks[0] || x in ks[1..];
      SumCountsCons(x, xs, ks[1..]);
    }
  }

  /** Counting every element under a list of distinct keys that covers them counts each once. */
  lemma {:induction false} SumCountsCover<T>(xs: seq<T>, ks: seq<T>)
    requires NoDups(ks)
    requires forall x :: x in xs ==> x in ks
    ensures SumCounts(xs, ks) == |xs|
  {
    if |xs| == 0 {
      SumCountsEmpty(xs, ks);
    } else {
      assert xs == [xs[0]] + xs[1..];
      SumCountsCons(xs[0], xs[1..], ks);
      SumCountsCover(xs[1..], ks);
    }
  }

  lemma {:induction false} SumCountsEmpty<T>(xs: seq<T>, ks: seq<T>)
    requires |xs| == 0
    ensures SumCounts(xs, ks) == 0
  {
    if |ks| > 0 { SumCountsEmpty(xs, ks[1..]); }
  }

  /** Every distinct value occurs at least once, and the occurrences of all of them add up to |xs|. */
  lemma DistinctCounts<T(!new)>(xs: seq<T>)
    ensures forall k :: k in Distinct(xs) ==> Count(xs, k) > 0
    ensures SumCounts(xs, Distinct(xs)) == |xs|
  {
    forall k | k in Distinct(xs) ensures Count(xs, k) > 0 { CountPositive(xs, k); }
    SumCountsCover(xs, Distinct(xs));
  }

  /** A set drawn from a sequence has at most as many elements as the sequence. */
  lemma {:induction false} CardOfSeqSet<T>(xs: seq<T>)
    ensures |set x | x in xs| <= |xs|
  {
    if |xs| > 0 {
      var rest := set x | x in xs[1..];
      assert (set x | x in xs) == rest + {xs[0]};
      CardOfSeqSet(xs[1..]);
    }
  }

  /** A duplicate-free sequence has as many elements as its set. */
  lemma {:induction false} CardOfNoDups<T>(xs: seq<T>)
    requires NoDups(xs)
    ensures |set x | x in xs| == |xs|
  {
    if |xs| > 0 {
      var rest := set x | x in xs[1..];
      assert (set x | x in xs) == rest + {xs[0]};
      assert xs[0] !in rest;
      CardOfNoDups(xs[1..]);
    }
  }
  lemma {:induction false} CountAppend<T>(xs: seq<T>, ys: seq<T>, k: T)
    ensures Count(xs + ys, k) == Count(xs, k) + Count(ys, k)
  {
    if |xs| > 0 {
      assert (xs + ys)[1..] == xs[1..] + ys;
      CountAppend(xs[1..], ys, k);
    } else {
      assert xs + ys == ys;
    }
  }

  /** A duplicate-free sequence holds each value at most once. */
  lemma {:induction false} NoDupsCount<T>(a: seq<T>, x: T)
    requires NoDups(a)
    ensures multiset(a)[x] <= 1
  {
    if |a| > 0 {
      assert a == [a[0]] + a[1..];
      assert NoDups(a[1..]) by {
        forall i, j | 0 <= i < j < |a[1..]| ensures a[1..][i] != a[1..][j] {
          assert a[i + 1] != a[j + 1];
        }
      }
      NoDupsCount(a[1..], x);
      if a[0] == x {
        forall i | 0 <= i < |a[1..]| ensures a[1..][i] != x { assert a[0] != a[i + 1]; }
        assert x !in a[1..];
      }
    }
  }

  lemma PairCount<T>(b: seq<T>, i: nat, j: nat)
    requires i < j < |b|
    ensures b[i] == b[j] ==> multiset(b)[b[i]] >= 2
  {
    assert b == b[..j] + b[j..];
    assert b[i] in b[..j];
    assert b[j] == b[j..][0];
    assert multiset(b)[b[j]] == multiset(b[..j])[b[j]] + multiset(b[j..])[b[j]];
  }

  /** Reordering keeps a sequence duplicate-free. */
  lemma PermNoDups<T>(a: seq<T>, b: seq<T>)
    requires multiset(a) == multiset(b) && NoDups(a)
    ensures NoDups(b)
  {
    forall i, j | 0 <= i < j < |b| ensures b[i] != b[j] {
      PairCount(b, i, j);
      NoDupsCount(a, b[i]);
    }
  }

  /** A subset is no larger than its superset. */
  lemma {:induction false} SubsetCard<T>(a: set<T>, b: set<T>)
    requires a <= b
    ensures |a| <= |b|
    decreases |a|
  {
    if a != {} {
      var x :| x in a;
      SubsetCard(a - {x}, b - {x});
    }
  }
}

=== FILE: geo.dfy ===
/** Geometry values as the pipeline sees them: points, road polylines and bounding boxes.
    Geometric predicates that the source delegates to shapely/geopandas (intersection, validity,
    metric distance) are not computed here; they enter the model as oracles. */
module Geo {
  import opened Wrappers

  /** A point in EPSG:4326, longitude first as shapely stores it. */
  datatype Point = Point(lon: real, lat: real)

  /** A road geometry: a single polyline, several polylines, or another shape (a polygon or a
      collection), of which only the vertices are kept. */
  datatype Geometry =
    | LineString(coords: seq<Point>)
    | MultiLineString(parts: seq<seq<Point>>)
    | OtherShape(vertices: seq<Point>)

  /** (minLon, minLat, maxLon, maxLat), the tuple order used throughout the source. */
  datatype BBox = BBox(minLon: real, minLat: real, maxLon: real, maxLat: real)

  /** Concatenation of the parts of a multi-line, in order. */
  function Concat(parts: seq<seq<Point>>): (r: seq<Point>)
    ensures |parts| > 0 ==> r == parts[0] + Concat(parts[1..])
  {
    if |parts| == 0 then [] else parts[0] + Concat(parts[1..])
  }

  /** Extending the flattened parts by one more part. */
  lemma {:induction false} ConcatAppend(parts: seq<seq<Point>>, p: seq<Point>)
    ensures Concat(parts + [p]) == Concat(parts) + p
  {
    if |parts| == 0 {
      assert parts + [p] == [p];
      assert Concat([p]) == p + Concat([]);
    } else {
      assert (parts + [p])[1..] == parts[1..] + [p];
      ConcatAppend(parts[1..], p);
    }
  }

  /** The flattening of a prefix one part longer. */
  lemma ConcatPrefix(parts: seq<seq<Point>>, k: nat)
    requires k < |parts|
    ensures Concat(parts[..k + 1]) == Concat(parts[..k]) + parts[k]
  {
    assert parts[..k + 1] == parts[..k] + [parts[k]];
    ConcatAppend(parts[..k], parts[k]);
  }

  function Vertices(g: Geometry): seq<Point> {
    match g
    case LineString(cs) => cs
    case MultiLineString(ps) => Concat(ps)
    case OtherShape(vs) => vs
  }

  function MinLon(ps: seq<Point>): (m: real)
    requires |ps| > 0
    ensures forall i :: 0 <= i < |ps| ==> m <= ps[i].lon
    ensures exists i :: 0 <= i < |ps| && m == ps[i].lon
  {
    if |ps| == 1 then ps[0].lon
    else var r := MinLon(ps[1..]); if ps[0].lon <= r then ps[0].lon else r
  }

  function MaxLon(ps: seq<Point>): (m: real)
    requires |ps| > 0
    ensures forall i :: 0 <= i < |ps| ==> ps[i].lon <= m
    ensures exists i :: 0 <= i < |ps| && m == ps[i].lon
  {
    if |ps| == 1 then ps[0].lon
    else var r := MaxLon(ps[1..]); if ps[0].lon >= r then ps[0].lon else r
  }

  function MinLat(ps: seq<Point>): (m: real)
    requires |ps| > 0
    ensures forall i :: 0 <= i < |ps| ==> m <= ps[i].lat
    ensures exists i :: 0 <= i < |ps| && m == ps[i].lat
  {
    if |ps| == 1 then ps[0].lat
    else var r := MinLat(ps[1..]); if ps[0].lat <= r then ps[0].lat else r
  }

  function MaxLat(ps: seq<Point>): (m: real)
    requires |ps| > 0
    ensures forall i :: 0 <= i < |ps| ==> ps[i].lat <= m
    ensures exists i :: 0 <= i < |ps| && m == ps[i].lat
  {
    if |ps| == 1 then ps[0].lat
    else var r := MaxLat(ps[1..]); if ps[0].lat >= r then ps[0].lat else r
  }

  /** GeoSeries.bounds for one geometry; an empty geometry has NaN bounds, modelled as None. */
  function BoundsOf(g: Geometry): (b: Option<BBox>)
    ensures b.None? <==> |Vertices(g)| == 0
    ensures b.Some? ==> forall i :: 0 <= i < |Vertices(g)| ==>
              b.value.minLon <= Vertices(g)[i].lon <= b.value.maxLon &&
              b.value.minLat <= Vertices(g)[i].lat <= b.value.maxLat
  {
    var vs := Vertices(g);
    if |vs| == 0 then None
    else Some(BBox(MinLon(vs), MinLat(vs), MaxLon(vs), MaxLat(vs)))
  }

  predicate InBox(p: Point, b: BBox) {
    b.minLon <= p.lon <= b.maxLon && b.minLat <= p.lat <= b.maxLat
  }
}

=== FILE: pydeck_app.dfy ===
/** The PyDeck front end's data preparation: the RGBA and width tables, the flattening of road
    geometries into [lon, lat] paths, the seeded mock roads, and the choice between real and mock
    data with its status record. */
module PydeckApp {
  import opened Wrappers
  import opened Geo
  import opened Tables
  import opened Text
  import Config
  import Congestion
  import Spatial
  import Traffic

  // ---------------------------------------------------------------- colour and width tables

  const LowRgb: seq<int> := [0, 255, 0, 160]
  const MediumRgb: seq<int> := [255, 255, 0, 160]
  const HighRgb: seq<int> := [255, 0, 0, 160]
  const UnknownRgb: seq<int> := [128, 128, 128, 160]

  /** get_color_rgb: the level's RGBA list, the unknown grey for any other value. */
  function ColorRgb(level: string): (c: seq<int>)
    ensures |c| == 4 && c[3] == 160 && forall i :: 0 <= i < 4 ==> 0 <= c[i] <= 255
    ensures level != "low" && level != "medium" && level != "high" ==> c == UnknownRgb
  {
    if level == "low" then LowRgb
    else if level == "medium" then MediumRgb
    else if level == "high" then HighRgb
    else UnknownRgb
  }

  /** get_width_by_congestion: 3, 4 and 5 for low, medium and high, 2 otherwise. */
  function WidthFor(level: string): (w: nat)
    ensures 2 <= w <= 5
    ensures level != "low" && level != "medium" && level != "high" ==> w == 2
  {
    if level == "low" then 3
    else if level == "medium" then 4
    else if level == "high" then 5
    else 2
  }

  /** The four levels get four different colours. */
  lemma ColorsDistinguishLevels(l1: Level, l2: Level)
    ensures ColorRgb(LevelName(l1)) == ColorRgb(LevelName(l2)) ==> l1 == l2
  {
    assert LowRgb[0] != MediumRgb[0] && LowRgb[0] != HighRgb[0] && LowRgb[0] != UnknownRgb[0];
    assert MediumRgb[1] != HighRgb[1] && MediumRgb[0] != UnknownRgb[0] && HighRgb[1] != UnknownRgb[1];
  }

  /** A more congested level is drawn wider; unknown is the narrowest. */
  lemma WidthFollowsSeverity(l1: Level, l2: Level)
    ensures Congestion.Severity(l1) < Congestion.Severity(l2) ==> WidthFor(LevelName(l1)) < WidthFor(LevelName(l2))
    ensures Congestion.Severity(l1) == Congestion.Severity(l2) ==> WidthFor(LevelName(l1)) == WidthFor(LevelName(l2))
  {
  }

  /** Value of one hexadecimal digit. */
  function HexValue(c: char): Option<int> {
    if '0' <= c <= '9' then Some(c as int - '0' as int)
    else if 'a' <= c <= 'f' then Some(c as int - 'a' as int + 10)
    else if 'A' <= c <= 'F' then Some(c as int - 'A' as int + 10)
    else None
  }

  function HexByte(hi: char, lo: char): Option<int> {
    if HexValue(hi).Some? && HexValue(lo).Some? then Some(16 * HexValue(hi).value + HexValue(lo).value) else None
  }

  /** The red, green and blue components of a '#rrggbb' colour. */
  function HexRgb(s: string): Option<seq<int>> {
    if |s| == 7 && s[0] == '#' && HexByte(s[1], s[2]).Some? && HexByte(s[3], s[4]).Some? && HexByte(s[5], s[6]).Some?
    then Some([HexByte(s[1], s[2]).value, HexByte(s[3], s[4]).value, HexByte(s[5], s[6]).value])
    else None
  }

  /** The PyDeck palette draws each level in the same colour as the analyzer's hex palette. */
  lemma PaletteAgrees(l: Level)
    ensures HexRgb(Congestion.ColorOf(l)) == Some(ColorRgb(LevelName(l))[..3])
  {
    assert HexByte('0', '0') == Some(0) && HexByte('f', 'f') == Some(255) && HexByte('8', '0') == Some(128);
    match l
    case Low =>
      assert Congestion.ColorOf(l) == ['#', '0', '0', 'f', 'f', '0', '0'];
      assert LowRgb[..3] == [0, 255, 0];
    case Medium =>
      assert Congestion.ColorOf(l) == ['#', 'f', 'f', 'f', 'f', '0', '0'];
      assert MediumRgb[..3] == [255, 255, 0];
    case High =>
      assert Congestion.ColorOf(l) == ['#', 'f', 'f', '0', '0', '0', '0'];
      assert HighRgb[..3] == [255, 0, 0];
    case Unknown =>
      assert Congestion.ColorOf(l) == ['#', '8', '0', '8', '0', '8', '0'];
      assert UnknownRgb[..3] == [128, 128, 128];
  }

  // ---------------------------------------------------------------- paths

  /** One entry of roads_data. */
  datatype PathRow = PathRow(
    path: seq<seq<real>>,
    roadId: string,
    roadName: Option<string>,
    speed: Option<real>,
    congestion: string,
    color: seq<int>,
    width: nat)

  /** `[[lon, lat] for lon, lat in coords]` */
  function PathPoints(ps: seq<Point>): (path: seq<seq<real>>)
    ensures |path| == |ps| && forall i :: 0 <= i < |ps| ==> |path[i]| == 2
  {
    seq(|ps|, i requires 0 <= i < |ps| => [ps[i].lon, ps[i].lat])
  }

  /** Reading a path back as points. */
  function PointsOfPath(path: seq<seq<real>>): seq<Point>
    requires forall i :: 0 <= i < |path| ==> |path[i]| == 2
  {
    seq(|path|, i requires 0 <= i < |path| => Point(path[i][0], path[i][1]))
  }

  /** Each path point is [lon, lat] in the stored order: reading the path back gives the points. */
  lemma PathRoundTrip(ps: seq<Point>)
    ensures PointsOfPath(PathPoints(ps)) == ps
  {
    var back := PointsOfPath(PathPoints(ps));
    forall i | 0 <= i < |ps| ensures back[i] == ps[i] {
      assert PathPoints(ps)[i] == [ps[i].lon, ps[i].lat];
    }
  }

  /** The coordinates a geometry contributes: a line's own, a multi-line's parts in order;
      other shapes have none. */
  function Coordinates(g: Geometry): (r: Option<seq<Point>>)
    ensures r.Some? <==> !g.OtherShape?
    ensures r.Some? ==> r.value == Vertices(g)
  {
    match g
    case LineString(cs) => Some(cs)
    case MultiLineString(parts) => Some(Concat(parts))
    case OtherShape(_) => None
  }

  /** The MultiLineString branch: the parts' coordinates extended one part at a time. */
  method FlattenParts(parts: seq<seq<Point>>) returns (coords: seq<Point>)
    ensures coords == Concat(parts)
  {
    coords := [];
    var k := 0;
    while k < |parts|
      invariant 0 <= k <= |parts|
      invariant coords == Concat(parts[..k])
    {
      ConcatPrefix(parts, k);
      coords := coords + parts[k];
      k := k + 1;
    }
    assert parts[..k] == parts;
  }

  /** A row is drawn when it has a geometry with coordinates. */
  predicate Drawable(row: RoadRow) {
    row.geometry.Some? && !row.geometry.value.OtherShape?
  }

  function RowPoints(row: RoadRow): (r: Option<seq<Point>>)
    ensures r.Some? <==> Drawable(row)
  {
    if row.geometry.None? then None else Coordinates(row.geometry.value)
  }

  /** `getattr(row, 'congestion_level', 'unknown')` */
  function LevelCell(cols: set<Column>, row: RoadRow): string {
    if LevelCol in cols && row.classification.Some? then LevelName(row.classification.value.level) else "unknown"
  }

  /** The entry for row `idx` with the given coordinates; missing columns take the getattr
      defaults ('road_<idx>', '不明', 0). */
  function MakePathRow(cols: set<Column>, row: RoadRow, idx: nat, pts: seq<Point>): PathRow {
    var level := LevelCell(cols, row);
    PathRow(PathPoints(pts),
      if RoadIdCol in cols then row.roadId else "road_" + NatToString(idx),
      if RoadNameCol in cols then row.roadName else Some("不明"),
      if SpeedCol in cols then row.speed else Some(0.0),
      level, ColorRgb(level), WidthFor(level))
  }

  /** What `mk` yields for the first n elements, in order, leaving out those it yields nothing
      for: a loop that appends to a list, or skips with `continue`. */
  function Gather<T, U>(xs: seq<T>, n: nat, mk: (nat, T) -> Option<U>): (r: seq<U>)
    requires n <= |xs|
    ensures |r| <= n
  {
    if n == 0 then []
    else Gather(xs, n - 1, mk) + (if mk(n - 1, xs[n - 1]).Some? then [mk(n - 1, xs[n - 1]).value] else [])
  }

  /** e is what `mk` yields for one of the first n elements. */
  ghost predicate YieldedBy<T, U>(xs: seq<T>, n: nat, mk: (nat, T) -> Option<U>, e: U)
    requires n <= |xs|
  {
    exists i :: 0 <= i < n && mk(i, xs[i]) == Some(e)
  }

  /** Everything gathered was yielded by some element. */
  lemma {:induction false} GatherFrom<T, U>(xs: seq<T>, n: nat, mk: (nat, T) -> Option<U>)
    requires n <= |xs|
    ensures forall k :: 0 <= k < |Gather(xs, n, mk)| ==> YieldedBy(xs, n, mk, Gather(xs, n, mk)[k])
  {
    if n > 0 {
      GatherFrom(xs, n - 1, mk);
      var prev, r := Gather(xs, n - 1, mk), Gather(xs, n, mk);
      forall k | 0 <= k < |r| ensures YieldedBy(xs, n, mk, r[k]) {
        if k < |prev| {
          assert YieldedBy(xs, n - 1, mk, prev[k]);
          var i :| 0 <= i < n - 1 && mk(i, xs[i]) == Some(prev[k]);
          assert r[k] == prev[k];
        } else {
          assert mk(n - 1, xs[n - 1]) == Some(r[k]);
        }
      }
    }
  }

  /** When every element yields something, the i-th value gathered is the i-th element's. */
  lemma {:induction false} GatherAll<T, U>(xs: seq<T>, n: nat, mk: (nat, T) -> Option<U>)
    requires n <= |xs|
    requires forall i :: 0 <= i < n ==> mk(i, xs[i]).Some?
    ensures |Gather(xs, n, mk)| == n
    ensures forall i :: 0 <= i < n ==> Some(Gather(xs, n, mk)[i]) == mk(i, xs[i])
  {
    if n > 0 {
      GatherAll(xs, n - 1, mk);
      var prev, r := Gather(xs, n - 1, mk), Gather(xs, n, mk);
      assert r == prev + [mk(n - 1, xs[n - 1]).value];
    }
  }

  lemma GatherStep<T, U>(xs: seq<T>, n: nat, mk: (nat, T) -> Option<U>)
    requires n < |xs|
    ensures Gather(xs, n + 1, mk)
      == Gather(xs, n, mk) + (if mk(n, xs[n]).Some? then [mk(n, xs[n]).value] else [])
  {
  }

  /** The positions among the first n elements for which `mk` yields something, ascending. */
  function Yielding<T, U>(xs: seq<T>, n: nat, mk: (nat, T) -> Option<U>): (ys: seq<nat>)
    requires n <= |xs|
    ensures forall k :: 0 <= k < |ys| ==> ys[k] < n && mk(ys[k], xs[ys[k]]).Some?
    ensures forall k, l :: 0 <= k < l < |ys| ==> ys[k] < ys[l]
    ensures forall i :: 0 <= i < n && mk(i, xs[i]).Some? ==> i in ys
  {
    if n == 0 then []
    else Yielding(xs, n - 1, mk) + (if mk(n - 1, xs[n - 1]).Some? then [n - 1] else [])
  }

  /** The k-th value gathered is what the k-th yielding element yields. */
  lemma {:induction false} GatherYielding<T, U>(xs: seq<T>, n: nat, mk: (nat, T) -> Option<U>)
    requires n <= |xs|
    ensures |Gather(xs, n, mk)| == |Yielding(xs, n, mk)|
    ensures forall k :: 0 <= k < |Gather(xs, n, mk)| ==>
      Some(Gather(xs, n, mk)[k]) == mk(Yielding(xs, n, mk)[k], xs[Yielding(xs, n, mk)[k]])
  {
    if n > 0 {
      GatherYielding(xs, n - 1, mk);
      var prev, r := Gather(xs, n - 1, mk), Gather(xs, n, mk);
      var py, ys := Yielding(xs, n - 1, mk), Yielding(xs, n, mk);
      forall k | 0 <= k < |r| ensures Some(r[k]) == mk(ys[k], xs[ys[k]]) {
        if k < |prev| {
          assert r[k] == prev[k] && ys[k] == py[k];
        }
      }
    }
  }

  /** Gather whose step may raise: the first error ends the loop. */
  function GatherOrFail<T, U, E>(xs: seq<T>, n: nat, step: (nat, T) -> Result<Option<U>, E>): Result<seq<U>, E>
    requires n <= |xs|
  {
    if n == 0 then Ok([])
    else
      var prev := GatherOrFail(xs, n - 1, step);
      var o := step(n - 1, xs[n - 1]);
      if prev.Err? then prev
      else if o.Err? then Err(o.error)
      else Ok(prev.value + (if o.value.Some? then [o.value.value] else []))
  }

  /** A raising loop whose steps agree with `mk` wherever they do not raise succeeds exactly
      when no step raises, and then gathers what `mk` yields. */
  lemma {:induction false} GatherOrFailAgrees<T, U, E>(xs: seq<T>, n: nat, step: (nat, T) -> Result<Option<U>, E>,
                                                       mk: (nat, T) -> Option<U>)
    requires n <= |xs|
    requires forall i :: 0 <= i < n && step(i, xs[i]).Ok? ==> step(i, xs[i]).value == mk(i, xs[i])
    ensures GatherOrFail(xs, n, step).Ok? <==> forall i :: 0 <= i < n ==> step(i, xs[i]).Ok?
    ensures GatherOrFail(xs, n, step).Ok? ==> GatherOrFail(xs, n, step).value == Gather(xs, n, mk)
  {
    if n > 0 {
      GatherOrFailAgrees(xs, n - 1, step, mk);
      if GatherOrFail(xs, n - 1, step).Err? {
        var i :| 0 <= i < n - 1 && !step(i, xs[i]).Ok?;
        assert !step(i, xs[i]).Ok?;
      }
    }
  }

  /** The entry the loop appends for row i, if the row is drawn. */
  function Entry(cols: set<Column>): (nat, RoadRow) -> Option<PathRow> {
    (i: nat, row: RoadRow) => if RowPoints(row).Some? then Some(MakePathRow(cols, row, i, RowPoints(row).value)) else None
  }

  function PathRows(f: RoadFrame): (r: seq<PathRow>)
    ensures |r| <= |f.rows|
  {
    Gather(f.rows, |f.rows|, Entry(f.columns))
  }

  /** e is the entry built from some drawable row of the frame. */
  predicate FromDrawableRow(f: RoadFrame, e: PathRow) {
    exists i :: 0 <= i < |f.rows| && Drawable(f.rows[i]) && e == MakePathRow(f.columns, f.rows[i], i, RowPoints(f.rows[i]).value)
  }

  /** Every entry comes from a drawable row, with that row's coordinates; rows without
      coordinates give none. */
  lemma PathRowsFromRows(f: RoadFrame)
    ensures forall k :: 0 <= k < |PathRows(f)| ==> FromDrawableRow(f, PathRows(f)[k])
  {
    var r := PathRows(f);
    GatherFrom(f.rows, |f.rows|, Entry(f.columns));
    forall k | 0 <= k < |r| ensures FromDrawableRow(f, r[k]) {
      assert YieldedBy(f.rows, |f.rows|, Entry(f.columns), r[k]);
      var i :| 0 <= i < |f.rows| && Entry(f.columns)(i, f.rows[i]) == Some(r[k]);
      assert Drawable(f.rows[i]);
    }
  }

  /** When every row is drawable, there is exactly one entry per row, at the row's position. */
  lemma AllDrawnInOrder(f: RoadFrame)
    requires forall i :: 0 <= i < |f.rows| ==> Drawable(f.rows[i])
    ensures |PathRows(f)| == |f.rows|
    ensures forall i :: 0 <= i < |f.rows| ==>
      PathRows(f)[i] == MakePathRow(f.columns, f.rows[i], i, RowPoints(f.rows[i]).value)
  {
    forall i | 0 <= i < |f.rows| ensures Entry(f.columns)(i, f.rows[i]).Some? {
      assert RowPoints(f.rows[i]).Some?;
    }
    GatherAll(f.rows, |f.rows|, Entry(f.columns));
    var r := PathRows(f);
    forall i | 0 <= i < |f.rows|
      ensures r[i] == MakePathRow(f.columns, f.rows[i], i, RowPoints(f.rows[i]).value)
    {
      assert Some(r[i]) == Entry(f.columns)(i, f.rows[i]);
    }
  }

  /** The positions of the drawable rows, ascending: every drawable row, each once. */
  function DrawnRows(f: RoadFrame): (d: seq<nat>)
    ensures forall k :: 0 <= k < |d| ==> d[k] < |f.rows| && Drawable(f.rows[d[k]])
    ensures forall k, l :: 0 <= k < l < |d| ==> d[k] < d[l]
    ensures forall i :: 0 <= i < |f.rows| && Drawable(f.rows[i]) ==> i in d
  {
    var d := Yielding(f.rows, |f.rows|, Entry(f.columns));
    assert forall i :: 0 <= i < |f.rows| ==> (Entry(f.columns)(i, f.rows[i]).Some? <==> Drawable(f.rows[i]));
    d
  }

  /** The path rows are, in order, the entries of exactly the drawable rows: a skipped row
      takes nothing from the others, and every drawable row yields its own entry. */
  lemma PathRowsOfDrawnRows(f: RoadFrame)
    ensures |PathRows(f)| == |DrawnRows(f)|
    ensures forall k :: 0 <= k < |PathRows(f)| ==>
      var i := DrawnRows(f)[k];
      PathRows(f)[k] == MakePathRow(f.columns, f.rows[i], i, RowPoints(f.rows[i]).value)
  {
    var r, d := PathRows(f), DrawnRows(f);
    GatherYielding(f.rows, |f.rows|, Entry(f.columns));
    forall k | 0 <= k < |r|
      ensures r[k] == MakePathRow(f.columns, f.rows[d[k]], d[k], RowPoints(f.rows[d[k]]).value)
    {
      assert Some(r[k]) == Entry(f.columns)(d[k], f.rows[d[k]]);
    }
  }

  /** Message of the AttributeError raised by `row.geometry` when there is no geometry column. */
  const NoGeometryAttribute: string := "'Series' object has no attribute 'geometry'"

  /** prepare_pydeck_data, with multi-lines flattened: an empty frame gives no entries; rows
      without coordinates are skipped; the only failure is a non-empty frame without geometry. */
  method PreparePydeckData(f: RoadFrame) returns (r: Result<seq<PathRow>, string>)
    ensures r.Err? <==> |f.rows| > 0 && GeometryCol !in f.columns
    ensures r.Err? ==> r.error == NoGeometryAttribute
    ensures r.Ok? ==> r.value == PathRows(f) && |r.value| <= |f.rows|
    ensures r.Ok? ==> |r.value| == |DrawnRows(f)|
    ensures r.Ok? ==> forall k :: 0 <= k < |r.value| ==>
      var i := DrawnRows(f)[k];
      r.value[k] == MakePathRow(f.columns, f.rows[i], i, RowPoints(f.rows[i]).value)
  {
    if |f.rows| == 0 {
      PathRowsOfDrawnRows(f);
      return Ok([]);
    }
    if GeometryCol !in f.columns {
      return Err(NoGeometryAttribute);
    }
    var rows: seq<PathRow> := [];
    var i := 0;
    while i < |f.rows|
      invariant 0 <= i <= |f.rows|
      invariant rows == Gather(f.rows, i, Entry(f.columns))
    {
      var row := f.rows[i];
      GatherStep(f.rows, i, Entry(f.columns));
      if row.geometry.Some? {
        var coords: seq<Point>;
        var drawn := true;
        match row.geometry.value {
          case LineString(cs) =>
            coords := cs;
          case MultiLineString(parts) =>
            coords := FlattenParts(parts);
          case OtherShape(_) =>
            drawn := false;
        }
        if drawn {
          assert RowPoints(row) == Some(coords);
          assert Entry(f.columns)(i, row) == Some(MakePathRow(f.columns, row, i, coords));
          rows := rows + [MakePathRow(f.columns, row, i, coords)];
        }
      }
      i := i + 1;
    }
    r := Ok(rows);
    PathRowsOfDrawnRows(f);
  }

  // ---------------------------------------------------------------- as written

  /** The NotImplementedError shapely raises for `coords` on a multi-part geometry (its message
      text varies between shapely releases and is not modelled). */
  const MultiPartCoords: string := "NotImplementedError"

  /** A geometry whose `coords` attribute raises rather than being absent. */
  predicate MultiPart(row: RoadRow) {
    row.geometry.Some? && !row.geometry.value.LineString?
  }

  /** One pass of the loop as written: `hasattr(row.geometry, 'coords')` raises on every
      geometry that is not a single line. */
  function AsWrittenStep(cols: set<Column>): (nat, RoadRow) -> Result<Option<PathRow>, string> {
    (i: nat, row: RoadRow) =>
      if row.geometry.None? then Ok(None)
      else if row.geometry.value.LineString? then Ok(Some(MakePathRow(cols, row, i, row.geometry.value.coords)))
      else Err(MultiPartCoords)
  }

  /** prepare_pydeck_data as written: the first multi-part row aborts the whole call. */
  function PreparedAsWritten(f: RoadFrame): Result<seq<PathRow>, string> {
    if |f.rows| == 0 then Ok([])
    else if GeometryCol !in f.columns then Err(NoGeometryAttribute)
    else GatherOrFail(f.rows, |f.rows|, AsWrittenStep(f.columns))
  }

  /** As written, a frame with geometry is prepared exactly when no row holds a multi-part
      geometry, and then the result is the flattening version's. */
  lemma AsWrittenAgreesOnLines(f: RoadFrame)
    requires GeometryCol in f.columns
    ensures PreparedAsWritten(f).Ok? <==> forall i :: 0 <= i < |f.rows| ==> !MultiPart(f.rows[i])
    ensures PreparedAsWritten(f).Ok? ==> PreparedAsWritten(f).value == PathRows(f)
  {
    var step, mk := AsWrittenStep(f.columns), Entry(f.columns);
    forall i | 0 <= i < |f.rows|
      ensures step(i, f.rows[i]).Ok? <==> !MultiPart(f.rows[i])
      ensures step(i, f.rows[i]).Ok? ==> step(i, f.rows[i]).value == mk(i, f.rows[i])
    {
      var row := f.rows[i];
      if row.geometry.Some? && row.geometry.value.LineString? {
        assert RowPoints(row) == Some(row.geometry.value.coords);
      }
    }
    GatherOrFailAgrees(f.rows, |f.rows|, step, mk);
  }

  /** A one-road frame whose geometry is a two-part MultiLineString: the code as written raises,
      while the flattening version draws the three points of both parts in order. */
  lemma MultiLineAborts()
    ensures var p0, p1, p2 := Point(139.76, 35.70), Point(139.77, 35.71), Point(139.78, 35.72);
      var row := RoadRow("R1", None, None, None, None, None, None, 1,
                         Some(MultiLineString([[p0, p1], [p2]])), None);
      var f := RoadFrame({RoadIdCol, GeometryCol}, [row]);
      PreparedAsWritten(f) == Err(MultiPartCoords)
      && PathRows(f) == [PathRow([[139.76, 35.70], [139.77, 35.71], [139.78, 35.72]],
                                 "R1", Some("不明"), Some(0.0), "unknown", UnknownRgb, 2)]
  {
    var p0, p1, p2 := Point(139.76, 35.70), Point(139.77, 35.71), Point(139.78, 35.72);
    var row := RoadRow("R1", None, None, None, None, None, None, 1, Some(MultiLineString([[p0, p1], [p2]])), None);
    var f := RoadFrame({RoadIdCol, GeometryCol}, [row]);
    assert GatherOrFail(f.rows, 0, AsWrittenStep(f.columns)) == Ok([]);
    assert AsWrittenStep(f.columns)(0, row) == Err(MultiPartCoords);
    assert Concat([[p0, p1], [p2]]) == [p0, p1] + Concat([[p2]]);
    assert [[p0, p1], [p2]][1..] == [[p2]] && [[p2]][1..] == [];
    assert Concat([[p2]]) == [p2] + Concat([]);
    assert Concat([[p0, p1], [p2]]) == [p0, p1, p2];
    assert Gather(f.rows, 0, Entry(f.columns)) == [];
    var path := PathPoints([p0, p1, p2]);
    assert path == [[139.76, 35.70], [139.77, 35.71], [139.78, 35.72]] by {
      assert path[0] == [p0.lon, p0.lat] && path[1] == [p1.lon, p1.lat] && path[2] == [p2.lon, p2.lat];
    }
    assert RowPoints(row) == Some([p0, p1, p2]);
    assert Entry(f.columns)(0, row) == Some(MakePathRow(f.columns, row, 0, [p0, p1, p2]));
    assert PathRows(f) == [MakePathRow(f.columns, row, 0, [p0, p1, p2])];
  }

  // ---------------------------------------------------------------- mock roads

  /** The standard normal draws np.random.normal scales for one mock road, in call order. */
  datatype MockDraw = MockDraw(startLat: real, startLon: real, endLat: real, endLon: real, speed: real)

  const MockRoadCount: nat := 30

  /** The mock data's own 30/20 rule. */
  function MockLevel(speed: real): (l: string)
    ensures l == LevelName(Congestion.LevelFor(Some(speed), Congestion.DefaultThresholds))
  {
    if speed >= 30.0 then "low" else if speed >= 20.0 then "medium" else "high"
  }

  /** Road i of create_mock_data: a two-point segment near the campus, a clipped speed and its
      level, colour and width. */
  function MockRow(i: nat, d: MockDraw): (r: PathRow)
    ensures |r.path| == 2 && |r.path[0]| == 2 && |r.path[1]| == 2
    ensures r.speed.Some? && 5.0 <= r.speed.value <= 60.0
    ensures r.congestion == MockLevel(r.speed.value) && r.congestion in {"low", "medium", "high"}
    ensures r.color == ColorRgb(r.congestion) && r.width == WidthFor(r.congestion)
  {
    var startLat := Config.CenterLat + 0.005 * d.startLat;
    var startLon := Config.CenterLon + 0.005 * d.startLon;
    var endLat := startLat + 0.003 * d.endLat;
    var endLon := startLon + 0.003 * d.endLon;
    var speed := Traffic.Clip(25.0 + 10.0 * d.speed, 5.0, 60.0);
    var level := MockLevel(speed);
    PathRow([[startLon, startLat], [endLon, endLat]], "mock_road_" + NatToString(i),
      Some("道路_" + NatToString(i + 1)), Some(speed), level, ColorRgb(level), WidthFor(level))
  }

  function MockRows(draw: nat -> MockDraw): (r: seq<PathRow>)
    ensures |r| == MockRoadCount
  {
    seq(MockRoadCount, i requires 0 <= i < MockRoadCount => MockRow(i, draw(i)))
  }

  /** create_mock_data: the loop appending the 30 mock roads. */
  method CreateMockData(draw: nat -> MockDraw) returns (rows: seq<PathRow>)
    ensures rows == MockRows(draw)
  {
    rows := [];
    var i := 0;
    while i < MockRoadCount
      invariant 0 <= i <= MockRoadCount
      invariant rows == MockRows(draw)[..i]
    {
      rows := rows + [MockRow(i, draw(i))];
      i := i + 1;
    }
  }

  /** The mock road ids 'mock_road_<i>' are pairwise different. */
  lemma MockIdsDistinct(draw: nat -> MockDraw, i: nat, j: nat)
    requires i < j < MockRoadCount
    ensures MockRows(draw)[i].roadId != MockRows(draw)[j].roadId
  {
    var prefix := "mock_road_";
    var a, b := prefix + NatToString(i), prefix + NatToString(j);
    assert MockRows(draw)[i] == MockRow(i, draw(i)) && MockRows(draw)[i].roadId == a;
    assert MockRows(draw)[j] == MockRow(j, draw(j)) && MockRows(draw)[j].roadId == b;
    if a == b {
      assert a[|prefix|..] == NatToString(i);
      assert b[|prefix|..] == NatToString(j);
      ParseNatToString(i);
      ParseNatToString(j);
      assert false;
    }
  }

  // ---------------------------------------------------------------- real or mock

  /** status_info: the counts of a real run, or the error behind a fallback to mock data. */
  datatype Status =
    | Real(roadCount: nat, trafficCount: nat, matchedCount: nat, finalRoads: nat)
    | Mock(error: string)

  const ModulesMissing: string := "モジュール不可"
  const RoadsFailed: string := "道路データの読み込みに失敗"
  const TrafficFailed: string := "交通データの取得に失敗"
  const JoinFailed: string := "空間結合に失敗"
  const AggregateFailed: string := "道路別集約に失敗"
  /** str() of the AttributeError raised by `loader.load_road_data`. */
  const MissingLoaderMethod: string := "'RoadDataLoader' object has no attribute 'load_road_data'"

  /** The first stage of the real path that comes back empty, if any. */
  function PipelineFailure(roads: RoadTable, traffic: TrafficFrame, dist: (Point, Geometry) -> real): Option<string> {
    if |roads.rows| == 0 then Some(RoadsFailed)
    else if |traffic.rows| == 0 then Some(TrafficFailed)
    else
      var joined := Spatial.JoinResult(traffic, roads, Spatial.DefaultMaxDistance, dist);
      if |joined.rows| == 0 then Some(JoinFailed)
      else if |Spatial.Aggregated(joined, Some(roads)).rows| == 0 then Some(AggregateFailed)
      else None
  }

  /** The classified per-road frame of a run whose stages all succeed. */
  function FinalFrame(roads: RoadTable, traffic: TrafficFrame, dist: (Point, Geometry) -> real): RoadFrame {
    var joined := Spatial.JoinResult(traffic, roads, Spatial.DefaultMaxDistance, dist);
    Congestion.CalculateCongestionLevel(Congestion.NewAnalyzer(None), Spatial.Aggregated(joined, Some(roads)))
  }

  /** Aggregating against a stored road table always yields the geometry column. */
  lemma AggregatedHasGeometry(j: JoinedTable, roads: RoadTable)
    requires Spatial.Aggregated(j, Some(roads)).rows != []
    ensures GeometryCol in Spatial.Aggregated(j, Some(roads)).columns
  {
  }

  /** load_and_process_data with the loader's load_road_network: road_gdf and traffic_gdf are the
      loader's and the fetcher's results. Real data with its counts exactly when every stage
      succeeds; otherwise the mock roads and the failing stage's message. The real branch
      prepares the paths with PreparePydeckData, which flattens multi-line roads (the intended
      behaviour of line 98, not the code as written). */
  method LoadAndProcessData(modulesAvailable: bool, roads: RoadTable, traffic: TrafficFrame,
                            dist: (Point, Geometry) -> real, draw: nat -> MockDraw)
    returns (data: seq<PathRow>, status: Status)
    ensures status.Real? <==> modulesAvailable && PipelineFailure(roads, traffic, dist).None?
    ensures !modulesAvailable ==> status == Mock(ModulesMissing)
    ensures modulesAvailable && PipelineFailure(roads, traffic, dist).Some? ==>
      status == Mock(PipelineFailure(roads, traffic, dist).value)
    ensures status.Mock? ==> data == MockRows(draw)
    ensures status.Real? ==>
      var joined := Spatial.JoinResult(traffic, roads, Spatial.DefaultMaxDistance, dist);
      var final := FinalFrame(roads, traffic, dist);
      status == Real(|roads.rows|, |traffic.rows|, |Spatial.Matched(joined.rows)|, |final.rows|)
      && data == PathRows(final) && |data| <= status.finalRoads
  {
    if !modulesAvailable {
      data := CreateMockData(draw);
      return data, Mock(ModulesMissing);
    }
    var processor := new Spatial.SpatialProcessor(Spatial.DefaultMaxDistance);
    var analyzer := Congestion.NewAnalyzer(None);
    if |roads.rows| == 0 {
      data := CreateMockData(draw);
      return data, Mock(RoadsFailed);
    }
    if |traffic.rows| == 0 {
      data := CreateMockData(draw);
      return data, Mock(TrafficFailed);
    }
    var joined := processor.JoinTrafficRoads(traffic, roads, dist);
    if |joined.rows| == 0 {
      data := CreateMockData(draw);
      return data, Mock(JoinFailed);
    }
    var roadStats := processor.AggregateByRoad(joined);
    if |roadStats.rows| == 0 {
      data := CreateMockData(draw);
      return data, Mock(AggregateFailed);
    }
    var final := Congestion.CalculateCongestionLevel(analyzer, roadStats);
    AggregatedHasGeometry(joined, roads);
    var prepared := PreparePydeckData(final);
    data := prepared.value;
    status := Real(|roads.rows|, |traffic.rows|, |Spatial.Matched(joined.rows)|, |final.rows|);
  }

  /** load_and_process_data as written: the first call inside the try block,
      `loader.load_road_data`, does not exist on RoadDataLoader, so every run with the modules
      available falls back to mock data with the AttributeError's message. */
  function LoadedAsWritten(modulesAvailable: bool, draw: nat -> MockDraw): (r: (seq<PathRow>, Status))
    ensures r.1.Mock? && r.0 == MockRows(draw)
    ensures r.1.error == (if modulesAvailable then MissingLoaderMethod else ModulesMissing)
  {
    (MockRows(draw), Mock(if modulesAvailable then MissingLoaderMethod else ModulesMissing))
  }

  /** One road and one traffic point 10 m from it: a run whose stages all succeed. */
  const WitnessRoads: RoadTable :=
    RoadTable({RoadIdCol, GeometryCol}, [Road("001", None, None, LineString([Point(139.76, 35.70), Point(139.77, 35.70)]))])
  const WitnessTraffic: TrafficFrame :=
    TrafficFrame({SpeedCol, GeometryCol}, [Observation(None, None, Some(25.0), None, None, Some(Point(139.765, 35.70)))])
  function WitnessDistance(p: Point, g: Geometry): real { 10.0 }

  /** The witness point is within the cutoff of the witness road, so its join row is matched. */
  lemma WitnessPointMatches()
    ensures Spatial.JoinPoint(WitnessTraffic.rows[0], WitnessRoads, Spatial.DefaultMaxDistance, WitnessDistance)[0].roadId.Some?
  {
    assert WitnessRoads.rows[0] in WitnessRoads.rows;
  }

  /** The corrected pipeline does reach real data, whereas the code as written never does. */
  lemma RealReachable()
    ensures PipelineFailure(WitnessRoads, WitnessTraffic, WitnessDistance) == None
  {
    var roads, traffic := WitnessRoads, WitnessTraffic;
    var joined := Spatial.JoinResult(traffic, roads, Spatial.DefaultMaxDistance, WitnessDistance);
    var r0 := Spatial.JoinPoint(traffic.rows[0], roads, Spatial.DefaultMaxDistance, WitnessDistance);
    WitnessPointMatches();
    assert joined.rows == r0 + Spatial.NearestJoin(traffic.rows[1..], roads, Spatial.DefaultMaxDistance, WitnessDistance);
    assert r0[0] in Spatial.Matched(joined.rows);
  }
}

=== FILE: road_data.dfy ===
/** RoadDataLoader: reading the KSJ (National Land Numerical Information) road archive once,
    bbox filtering, and normalising the road schema to road_id / road_class / road_name /
    geometry. Archive access, shapefile decoding, the `.cx` indexer and shapely's validity test
    are inputs. */
module RoadData {
  import opened Wrappers
  import opened Geo
  import opened Tables
  import opened Text

  // ---------------------------------------------------------------- raw tables

  /** A raw attribute value: a null, a text value, or an integer. */
  datatype Cell = Null | Text(s: string) | Whole(n: int)

  /** A raw road record: its index label, its attribute cells by column name, its geometry. */
  datatype RawRoad = RawRoad(index: nat, cells: map<string, Cell>, geometry: Option<Geometry>)

  /** A frame as read from the shapefile: column names, rows, and whether the index is named. */
  datatype RawTable = RawTable(columns: set<string>, rows: seq<RawRoad>, indexNamed: bool)

  /** A cell of a present column; one the record does not carry is null. */
  function CellAt(row: RawRoad, column: string): Cell {
    if column in row.cells then row.cells[column] else Null
  }

  /** `astype(str)` of one cell. */
  function CellText(c: Cell): string {
    match c
    case Null => "None"
    case Text(s) => s
    case Whole(n) => IntToString(n)
  }

  // ---------------------------------------------------------------- shapefile selection

  /** The archive at the road-data path: whether it exists, its member names, and the frame
      read (and reprojected to EPSG:4326) from a member, None where reading raises. */
  datatype Archive = Archive(present: bool, names: seq<string>, read: string -> Option<RawTable>)

  /** The members ending in '.shp', in archive order. */
  function ShpFiles(names: seq<string>): (r: seq<string>)
    ensures |r| <= |names|
    ensures forall n :: n in r <==> n in names && EndsWith(n, ".shp")
    ensures r == Where(names, IsShp)
  {
    if |names| == 0 then []
    else (if EndsWith(names[0], ".shp") then [names[0]] else []) + ShpFiles(names[1..])
  }

  /** `name.endswith('.shp')` */
  predicate IsShp(name: string) {
    EndsWith(name, ".shp")
  }

  /** `'Road' in name or 'road' in name.lower()` */
  predicate RoadLike(name: string) {
    Contains(name, "Road") || Contains(Lower(name), "road")
  }

  predicate NoRoadBefore(shp: seq<string>, k: nat)
    requires k <= |shp|
  {
    forall j :: 0 <= j < k ==> !RoadLike(shp[j])
  }

  /** Position of the first road-like name, |shp| when there is none. */
  function FirstRoadLike(shp: seq<string>): (k: nat)
    ensures k <= |shp| && NoRoadBefore(shp, k)
    ensures k < |shp| ==> RoadLike(shp[k])
  {
    if |shp| == 0 then 0
    else if RoadLike(shp[0]) then 0
    else 1 + FirstRoadLike(shp[1..])
  }

  /** The shapefile to read: the first road-like one, else the first; None when there is none
      (the source raises FileNotFoundError). */
  function ChosenShapefile(shp: seq<string>): (r: Option<string>)
    ensures r.None? <==> |shp| == 0
    ensures r.Some? ==> r.value in shp
    ensures r.Some? && !RoadLike(r.value) ==> r.value == shp[0] && NoRoadBefore(shp, |shp|)
    ensures r.Some? && RoadLike(r.value) ==>
      exists k :: 0 <= k < |shp| && shp[k] == r.value && NoRoadBefore(shp, k)
  {
    if |shp| == 0 then None
    else
      var k := FirstRoadLike(shp);
      if k < |shp| then Some(shp[k]) else Some(shp[0])
  }

  /** The scan of _load_from_zip: stop at the first road-like name, else take the first. */
  method SelectShapefile(names: seq<string>) returns (r: Option<string>)
    ensures r == ChosenShapefile(ShpFiles(names))
  {
    var shp := ShpFiles(names);
    if |shp| == 0 {
      return None;
    }
    r := None;
    var i := 0;
    while i < |shp|
      invariant 0 <= i <= |shp| && NoRoadBefore(shp, i) && r.None?
    {
      if RoadLike(shp[i]) {
        r := Some(shp[i]);
        break;
      }
      i := i + 1;
    }
    if r.None? {
      r := Some(shp[0]);
    }
  }

  /** _load_from_zip: None where it raises (no archive, no shapefile, unreadable member). */
  function ZipContents(archive: Archive): Option<RawTable> {
    if !archive.present then None
    else
      match ChosenShapefile(ShpFiles(archive.names))
      case None => None
      case Some(n) => archive.read(n)
  }

  method LoadFromZip(archive: Archive) returns (r: Option<RawTable>)
    ensures r == ZipContents(archive)
  {
    if !archive.present {
      return None;
    }
    var chosen := SelectShapefile(archive.names);
    if chosen.None? {
      return None;
    }
    r := archive.read(chosen.value);
  }

  // ---------------------------------------------------------------- bbox filter

  /** The bounds-based test: the record's bounds meet the query box, closed on both axes.
      A record without geometry, or with an empty one, has NaN bounds and fails. */
  predicate BoundsMeet(row: RawRoad, b: BBox) {
    row.geometry.Some? && BoundsOf(row.geometry.value).Some?
    && var g := BoundsOf(row.geometry.value).value;
    g.minLon <= b.maxLon && g.maxLon >= b.minLon && g.minLat <= b.maxLat && g.maxLat >= b.minLat
  }

  /** _filter_by_bbox. `cx` is the `.cx` indexer's decision on a geometry, None where it raises
      and the bounds test takes over. */
  function FilterByBbox(t: RawTable, b: BBox, cx: Option<Geometry -> bool>): (r: RawTable)
    ensures r.columns == t.columns && r.indexNamed == t.indexNamed && |r.rows| <= |t.rows|
    ensures cx.None? ==> forall row :: row in r.rows <==> row in t.rows && BoundsMeet(row, b)
    ensures cx.Some? ==> forall row :: row in r.rows <==>
      row in t.rows && row.geometry.Some? && cx.value(row.geometry.value)
  {
    match cx
    case Some(inside) => t.(rows := Where(t.rows, (row: RawRoad) => row.geometry.Some? && inside(row.geometry.value)))
    case None => t.(rows := Where(t.rows, (row: RawRoad) => BoundsMeet(row, b)))
  }

  /** Under the bounds fallback, a record with a vertex inside the box is always kept. */
  lemma FallbackKeepsTouching(t: RawTable, b: BBox, row: RawRoad, i: nat)
    requires row in t.rows && row.geometry.Some?
    requires i < |Vertices(row.geometry.value)| && InBox(Vertices(row.geometry.value)[i], b)
    ensures row in FilterByBbox(t, b, None).rows
  {
    assert BoundsOf(row.geometry.value).Some?;
  }

  // ---------------------------------------------------------------- schema

  /** The KSJ source column for each standard name. */
  const KsjSource: map<string, string> :=
    map["road_id" := "N01_002", "road_class" := "N01_001", "road_name" := "N01_003", "road_number" := "N01_004"]

  /** The column mapping of _standardize_road_schema. */
  function RenameColumn(c: string): string {
    if c == "N01_002" then "road_id"
    else if c == "N01_001" then "road_class"
    else if c == "N01_003" then "road_name"
    else if c == "N01_004" then "road_number"
    else c
  }

  function RenamedColumns(cols: set<string>): set<string> {
    set c | c in cols :: RenameColumn(c)
  }

  /** A standard name is present after renaming iff it or its KSJ source was; the KSJ names are
      gone; any other column is untouched. */
  lemma RenameOnlyPresent(cols: set<string>, name: string)
    ensures name in KsjSource ==>
      (name in RenamedColumns(cols) <==> name in cols || KsjSource[name] in cols)
    ensures name in KsjSource ==> KsjSource[name] !in RenamedColumns(cols)
    ensures name !in KsjSource && name !in {"N01_001", "N01_002", "N01_003", "N01_004"} ==>
      (name in RenamedColumns(cols) <==> name in cols)
  {
    if name in KsjSource && KsjSource[name] in cols {
      assert RenameColumn(KsjSource[name]) == name;
    }
    if name !in KsjSource && name !in {"N01_001", "N01_002", "N01_003", "N01_004"} && name in cols {
      assert RenameColumn(name) == name;
    }
  }

  /** The raw column whose cells a standard column holds after renaming. */
  function SourceOf(cols: set<string>, name: string): string {
    if name in KsjSource && KsjSource[name] in cols then KsjSource[name] else name
  }

  const UnnamedRoad: string := "未分類道路"
  const GenericRoad: string := "道路"

  /** road_id: the id text zero-filled to 3, or, without an id column and with an unnamed
      index, the index zero-filled to 6; "" where the column stays absent (never read). */
  function RoadIdOf(t: RawTable, row: RawRoad): (id: string)
    ensures "road_id" in RenamedColumns(t.columns) ==>
      var s := CellText(CellAt(row, SourceOf(t.columns, "road_id")));
      id == ZFill(s, 3)
      && |id| >= 3 && |id| >= |s| && (AllDigits(s) ==> AllDigits(id) && ParseNat(id) == ParseNat(s))
    ensures "road_id" !in RenamedColumns(t.columns) && !t.indexNamed ==>
      id == ZFill(NatToString(row.index), 6)
      && |id| >= 6 && AllDigits(id) && ParseNat(id) == row.index
  {
    if "road_id" in RenamedColumns(t.columns) then
      var s := CellText(CellAt(row, SourceOf(t.columns, "road_id")));
      ZFillKeepsValue(s, 3);
      ZFill(s, 3)
    else if !t.indexNamed then
      ZFillKeepsValue(NatToString(row.index), 6);
      ParseNatToString(row.index);
      ZFill(NatToString(row.index), 6)
    else ""
  }

  /** road_name: nulls become '未分類道路'; without the column every road is '道路'. */
  function RoadNameOf(t: RawTable, row: RawRoad): (name: string)
    ensures "road_name" !in RenamedColumns(t.columns) ==> name == GenericRoad
    ensures "road_name" in RenamedColumns(t.columns) ==>
      var c := CellAt(row, SourceOf(t.columns, "road_name"));
      (c.Null? ==> name == UnnamedRoad) && (!c.Null? ==> name == CellText(c))
  {
    if "road_name" in RenamedColumns(t.columns) then
      var c := CellAt(row, SourceOf(t.columns, "road_name"));
      if c.Null? then UnnamedRoad else CellText(c)
    else GenericRoad
  }

  /** road_class as kept: null stays null. */
  function RoadClassOf(t: RawTable, row: RawRoad): Option<string> {
    var c := CellAt(row, SourceOf(t.columns, "road_class"));
    if c.Null? then None else Some(CellText(c))
  }

  /** A record that survives the geometry check: present and valid. */
  predicate KeepsGeometry(row: RawRoad, valid: Geometry -> bool) {
    row.geometry.Some? && valid(row.geometry.value)
  }

  function StandardRoad(t: RawTable, row: RawRoad): Road
    requires row.geometry.Some?
  {
    Road(RoadIdOf(t, row), RoadClassOf(t, row), Some(RoadNameOf(t, row)), row.geometry.value)
  }

  /** The standardised record of every row, one for one. */
  function StandardRoads(t: RawTable, rows: seq<RawRoad>): (r: seq<Road>)
    requires forall i :: 0 <= i < |rows| ==> rows[i].geometry.Some?
    ensures |r| == |rows| && forall i :: 0 <= i < |rows| ==> r[i] == StandardRoad(t, rows[i])
  {
    seq(|rows|, i requires 0 <= i < |rows| => StandardRoad(t, rows[i]))
  }

  /** The rows with valid geometry, in order: `gdf[gdf.geometry.notna() & gdf.geometry.is_valid]`. */
  function GeometryKept(rows: seq<RawRoad>, valid: Geometry -> bool): (kept: seq<RawRoad>)
    ensures forall i :: 0 <= i < |kept| ==> kept[i] in rows && KeepsGeometry(kept[i], valid)
  {
    var kept := Where(rows, (row: RawRoad) => KeepsGeometry(row, valid));
    assert forall i :: 0 <= i < |kept| ==> kept[i] in kept;
    kept
  }

  /** The standardised records of the rows with valid geometry, in order. */
  function StandardRows(t: RawTable, rows: seq<RawRoad>, valid: Geometry -> bool): (r: seq<Road>)
    ensures |r| <= |rows|
    ensures forall x :: x in r ==> exists row :: row in rows && KeepsGeometry(row, valid) && x == StandardRoad(t, row)
    ensures forall row :: row in rows && KeepsGeometry(row, valid) ==> StandardRoad(t, row) in r
  {
    var kept := GeometryKept(rows, valid);
    var r := StandardRoads(t, kept);
    assert forall x :: x in r ==> exists i :: 0 <= i < |kept| && x == StandardRoad(t, kept[i]);
    assert forall row :: row in rows && KeepsGeometry(row, valid) ==> row in kept;
    r
  }

  /** The standardised records keep the input order: the k-th is the record of the row at the
      k-th position whose geometry is present and valid, and every such row has one. */
  lemma StandardRowsInOrder(t: RawTable, rows: seq<RawRoad>, valid: Geometry -> bool)
    ensures var ix := Selected(rows, (row: RawRoad) => KeepsGeometry(row, valid), |rows|);
      |StandardRows(t, rows, valid)| == |ix|
      && (forall k :: 0 <= k < |ix| ==>
            KeepsGeometry(rows[ix[k]], valid) && StandardRows(t, rows, valid)[k] == StandardRoad(t, rows[ix[k]]))
      && (forall i :: 0 <= i < |rows| && KeepsGeometry(rows[i], valid) ==> i in ix)
  {
    WhereKeepsOrder(rows, (row: RawRoad) => KeepsGeometry(row, valid));
  }

  /** The columns kept, among road_id, road_class, road_name and geometry. */
  function StandardColumns(t: RawTable): set<Column> {
    var renamed := RenamedColumns(t.columns);
    (if "road_id" in renamed || !t.indexNamed then {RoadIdCol} else {})
    + (if "road_class" in renamed then {RoadClassCol} else {})
    + {RoadNameCol, GeometryCol}
  }

  /** The columns an empty frame already has, among those the pipeline reads. */
  function KnownColumns(cols: set<string>): set<Column> {
    (if "road_id" in cols then {RoadIdCol} else {})
    + (if "road_class" in cols then {RoadClassCol} else {})
    + (if "road_name" in cols then {RoadNameCol} else {})
    + (if "geometry" in cols then {GeometryCol} else {})
  }

  /** _standardize_road_schema, with `valid` as shapely's is_valid. */
  function StandardizeRoadSchema(t: RawTable, valid: Geometry -> bool): (r: RoadTable)
    ensures |t.rows| == 0 ==> r == RoadTable(KnownColumns(t.columns), [])
    ensures |t.rows| > 0 && "geometry" !in t.columns ==> r == EmptyRoads
    ensures |t.rows| > 0 && "geometry" in t.columns ==>
      r.columns == StandardColumns(t) && RoadNameCol in r.columns && GeometryCol in r.columns
      && r.rows == StandardRows(t, t.rows, valid)
  {
    if |t.rows| == 0 then RoadTable(KnownColumns(t.columns), [])
    else if "geometry" !in t.columns then EmptyRoads
    else RoadTable(StandardColumns(t), StandardRows(t, t.rows, valid))
  }

  /** Every standardised road has a valid geometry and a name, and comes from an input row. */
  lemma StandardizedRoadsValid(t: RawTable, valid: Geometry -> bool, x: Road)
    requires x in StandardizeRoadSchema(t, valid).rows
    ensures valid(x.geometry) && x.roadName.Some? && |StandardizeRoadSchema(t, valid).rows| <= |t.rows|
    ensures RoadIdCol in StandardizeRoadSchema(t, valid).columns ==> |x.roadId| >= 3
  {
    var row :| row in t.rows && KeepsGeometry(row, valid) && x == StandardRoad(t, row);
  }

  // ---------------------------------------------------------------- loader

  /** The loader; its only state is the cached, unfiltered table of the first successful read. */
  class RoadDataLoader {
    var cachedRoads: Option<RawTable>

    constructor()
      ensures cachedRoads.None?
    {
      cachedRoads := None;
    }

    /** load_road_network. The cache, once filled, is reused whatever archive is named; bbox
        filtering and standardisation work on a copy and never reach the cache. A failed read
        returns an empty frame and leaves the cache empty. */
    method LoadRoadNetwork(archive: Archive, bbox: Option<BBox>, cx: Option<Geometry -> bool>, valid: Geometry -> bool)
      returns (r: RoadTable)
      modifies this
      ensures old(cachedRoads).Some? ==> cachedRoads == old(cachedRoads)
      ensures old(cachedRoads).None? ==> cachedRoads == ZipContents(archive)
      ensures cachedRoads.None? ==> r == EmptyRoads
      ensures cachedRoads.Some? ==>
        var roads := cachedRoads.value;
        var filtered := if bbox.Some? then FilterByBbox(roads, bbox.value, cx) else roads;
        r == StandardizeRoadSchema(filtered, valid)
    {
      var roads: RawTable;
      if cachedRoads.Some? {
        roads := cachedRoads.value;
      } else {
        var loaded := LoadFromZip(archive);
        if loaded.None? {
          return EmptyRoads;
        }
        roads := loaded.value;
        cachedRoads := loaded;
      }
      if bbox.Some? {
        roads := FilterByBbox(roads, bbox.value, cx);
      }
      r := StandardizeRoadSchema(roads, valid);
    }
  }
}

=== FILE: spatial.dfy ===
/** SpatialProcessor: the nearest-road join of traffic points, per-road aggregation, and road
    coverage. The metric distance between a point and a road (computed by geopandas in
    EPSG:3857) is an oracle. */
module Spatial {
  import opened Wrappers
  import opened Geo
  import opened Tables
  import opened Text
  import opened Counting
  import Stats
  import Congestion

  /** The constructor's default cutoff, in metres. */
  const DefaultMaxDistance: real := 50.0

  // ---------------------------------------------------------------- nearest join

  /** The smallest distance from p to any of the roads. */
  function MinDist(p: Point, roads: seq<Road>, dist: (Point, Geometry) -> real): (m: real)
    requires |roads| > 0
    ensures forall i :: 0 <= i < |roads| ==> m <= dist(p, roads[i].geometry)
    ensures exists i :: 0 <= i < |roads| && m == dist(p, roads[i].geometry)
  {
    if |roads| == 1 then dist(p, roads[0].geometry)
    else
      var rest := MinDist(p, roads[1..], dist);
      var here := dist(p, roads[0].geometry);
      if here <= rest then here else rest
  }

  /** A traffic row no road was found for: the road columns are null. */
  function Unmatched(o: Observation): JoinedRow {
    JoinedRow(o, None, None, None, None)
  }

  /** A traffic row joined to `road` at distance d; name and class only if the road table has them. */
  function MatchRow(o: Observation, road: Road, d: real, cols: set<Column>): JoinedRow {
    JoinedRow(o, Some(road.roadId),
      if RoadNameCol in cols then road.roadName else None,
      if RoadClassCol in cols then road.roadClass else None,
      Some(d))
  }

  /** One joined row per road at exactly the nearest distance m, in road order. */
  function NearestRoads(o: Observation, p: Point, roads: seq<Road>, m: real, cols: set<Column>,
                        dist: (Point, Geometry) -> real): (r: seq<JoinedRow>)
    ensures forall x :: x in r ==> exists road :: road in roads && dist(p, road.geometry) == m && x == MatchRow(o, road, m, cols)
    ensures forall road :: road in roads && dist(p, road.geometry) == m ==> MatchRow(o, road, m, cols) in r
  {
    if |roads| == 0 then []
    else
      var rest := NearestRoads(o, p, roads[1..], m, cols, dist);
      assert forall road :: road in roads <==> road == roads[0] || road in roads[1..];
      if dist(p, roads[0].geometry) == m then [MatchRow(o, roads[0], m, cols)] + rest else rest
  }

  /** The rows sjoin_nearest(how='left', max_distance) produces for one traffic point: every road at
      the nearest distance when that distance is within the cutoff, else the point alone. */
  function JoinPoint(o: Observation, roads: RoadTable, maxDistance: real, dist: (Point, Geometry) -> real): (r: seq<JoinedRow>)
    requires |roads.rows| > 0
    ensures |r| >= 1
    ensures forall x :: x in r ==> x.obs == o
    ensures forall x :: x in r && x.roadId.Some? ==>
      o.location.Some? && x.distance.Some? && x.distance.value <= maxDistance
      && (forall road :: road in roads.rows ==> x.distance.value <= dist(o.location.value, road.geometry))
      && (exists road :: road in roads.rows && road.roadId == x.roadId.value && dist(o.location.value, road.geometry) == x.distance.value)
    ensures forall x :: x in r && x.roadId.None? ==>
      r == [Unmatched(o)]
      && (o.location.None? || forall road :: road in roads.rows ==> dist(o.location.value, road.geometry) > maxDistance)
  {
    if o.location.None? then [Unmatched(o)]
    else
      var p := o.location.value;
      var m := MinDist(p, roads.rows, dist);
      if m > maxDistance then [Unmatched(o)]
      else
        var i :| 0 <= i < |roads.rows| && m == dist(p, roads.rows[i].geometry);
        assert roads.rows[i] in roads.rows;
        assert forall road :: road in roads.rows ==> m <= dist(p, road.geometry);
        NearestRoads(o, p, roads.rows, m, roads.columns, dist)
  }

  /** The joined rows of all traffic points, in traffic order. */
  function NearestJoin(obs: seq<Observation>, roads: RoadTable, maxDistance: real, dist: (Point, Geometry) -> real): (r: seq<JoinedRow>)
    requires |roads.rows| > 0
    ensures |r| >= |obs|
  {
    if |obs| == 0 then []
    else JoinPoint(obs[0], roads, maxDistance, dist) + NearestJoin(obs[1..], roads, maxDistance, dist)
  }

  /** The join is a left join with a cutoff: each joined row comes from one traffic point, every
      traffic point appears, a matched row is at the nearest distance and within the cutoff, and
      an unmatched point had no road within it. */
  lemma {:induction false} JoinIsLeftWithCutoff(obs: seq<Observation>, roads: RoadTable, maxDistance: real, dist: (Point, Geometry) -> real)
    requires |roads.rows| > 0
    ensures forall o :: o in obs ==> exists x :: x in NearestJoin(obs, roads, maxDistance, dist) && x.obs == o
    ensures forall x :: x in NearestJoin(obs, roads, maxDistance, dist) ==>
      x.obs in obs && x in JoinPoint(x.obs, roads, maxDistance, dist)
  {
    if |obs| > 0 {
      JoinIsLeftWithCutoff(obs[1..], roads, maxDistance, dist);
      var head := JoinPoint(obs[0], roads, maxDistance, dist);
      assert head[0] in head;
      assert forall o :: o in obs <==> o == obs[0] || o in obs[1..];
    }
  }

  /** Matched rows are within the cutoff and at a road's own distance; unmatched rows carry no
      distance. */
  lemma JoinedDistances(obs: seq<Observation>, roads: RoadTable, maxDistance: real, dist: (Point, Geometry) -> real, x: JoinedRow)
    requires |roads.rows| > 0 && x in NearestJoin(obs, roads, maxDistance, dist)
    ensures x.roadId.Some? ==>
      x.distance.Some? && x.distance.value <= maxDistance
      && (exists road :: road in roads.rows && road.roadId == x.roadId.value)
    ensures x.roadId.None? ==> x.distance.None?
  {
    JoinIsLeftWithCutoff(obs, roads, maxDistance, dist);
    assert x in JoinPoint(x.obs, roads, maxDistance, dist);
  }

  /** The columns of the joined frame. */
  function JoinedColumns(traffic: set<Column>, roads: set<Column>): set<Column> {
    traffic + {RoadIdCol, DistanceCol} + (roads * {RoadNameCol, RoadClassCol})
  }

  /** join_traffic_roads: empty on empty input, and empty when the road table has no road_id
      column (the column selection raises and the error is caught). */
  function JoinResult(traffic: TrafficFrame, roads: RoadTable, maxDistance: real, dist: (Point, Geometry) -> real): JoinedTable {
    if |traffic.rows| == 0 || |roads.rows| == 0 then EmptyJoined
    else if RoadIdCol !in roads.columns then EmptyJoined
    else JoinedTable(JoinedColumns(traffic.columns, roads.columns), NearestJoin(traffic.rows, roads, maxDistance, dist))
  }

  // ---------------------------------------------------------------- aggregation

  function RoadIds(rows: seq<JoinedRow>): (r: seq<Option<string>>)
    ensures |r| == |rows| && forall i :: 0 <= i < |rows| ==> r[i] == rows[i].roadId
  {
    if |rows| == 0 then [] else [rows[0].roadId] + RoadIds(rows[1..])
  }

  predicate IsMatched(x: JoinedRow) {
    x.roadId.Some?
  }

  /** `joined[joined['road_id'].notna()]` */
  function Matched(rows: seq<JoinedRow>): seq<JoinedRow> {
    Where(rows, IsMatched)
  }

  /** The matched rows with road_id == id, in order (one groupby group). */
  function GroupRows(rows: seq<JoinedRow>, id: string): (g: seq<JoinedRow>)
    ensures forall x :: x in g <==> x in rows && x.roadId == Some(id)
    ensures g == Where(rows, (x: JoinedRow) => x.roadId == Some(id))
  {
    if |rows| == 0 then []
    else (if rows[0].roadId == Some(id) then [rows[0]] else []) + GroupRows(rows[1..], id)
  }

  lemma {:induction false} GroupSize(rows: seq<JoinedRow>, id: string)
    ensures |GroupRows(rows, id)| == Count(Present(RoadIds(rows)), id)
  {
    if |rows| > 0 {
      GroupSize(rows[1..], id);
      assert RoadIds(rows)[1..] == RoadIds(rows[1..]);
      var head: seq<string> := if rows[0].roadId.Some? then [rows[0].roadId.value] else [];
      assert Present(RoadIds(rows)) == head + Present(RoadIds(rows[1..]));
      CountAppend(head, Present(RoadIds(rows[1..])), id);
    }
  }

  lemma {:induction false} MatchedSize(rows: seq<JoinedRow>)
    ensures |Matched(rows)| == |Present(RoadIds(rows))|
  {
    if |rows| > 0 {
      MatchedSize(rows[1..]);
      assert RoadIds(rows)[1..] == RoadIds(rows[1..]);
    }
  }

  /** groupby 'mean': the mean of the non-null values, null when there are none. */
  function MeanOf(xs: seq<Option<real>>): (r: Option<real>)
    ensures r.None? <==> |Present(xs)| == 0
    ensures r.Some? ==> Stats.Min(Present(xs)) <= r.value <= Stats.Max(Present(xs))
  {
    var p := Present(xs);
    if |p| == 0 then None
    else
      Stats.MeanBetween(p);
      Some(Stats.Mean(p))
  }

  /** Position of the first non-null value, |xs| when there is none. */
  function FirstPresentIndex<T>(xs: seq<Option<T>>): (k: nat)
    ensures k <= |xs| && (forall j :: 0 <= j < k ==> xs[j].None?) && (k < |xs| ==> xs[k].Some?)
  {
    if |xs| == 0 || xs[0].Some? then 0 else 1 + FirstPresentIndex(xs[1..])
  }

  /** groupby 'first': the first non-null value. */
  function FirstPresent<T>(xs: seq<Option<T>>): (r: Option<T>)
    ensures r.None? <==> forall i :: 0 <= i < |xs| ==> xs[i].None?
    ensures r.Some? ==> exists i :: 0 <= i < |xs| && xs[i] == r && forall j :: 0 <= j < i ==> xs[j].None?
  {
    var k := FirstPresentIndex(xs);
    if k < |xs| then xs[k] else None
  }

  function GroupSpeeds(g: seq<JoinedRow>): seq<Option<real>> { seq(|g|, i requires 0 <= i < |g| => g[i].obs.speed) }
  function GroupTravelTimes(g: seq<JoinedRow>): seq<Option<real>> { seq(|g|, i requires 0 <= i < |g| => g[i].obs.travelTime) }
  function GroupLengths(g: seq<JoinedRow>): seq<Option<real>> { seq(|g|, i requires 0 <= i < |g| => g[i].obs.linkLength) }
  function GroupDistances(g: seq<JoinedRow>): seq<Option<real>> { seq(|g|, i requires 0 <= i < |g| => g[i].distance) }
  function GroupNames(g: seq<JoinedRow>): seq<Option<string>> { seq(|g|, i requires 0 <= i < |g| => g[i].roadName) }
  function GroupClasses(g: seq<JoinedRow>): seq<Option<string>> { seq(|g|, i requires 0 <= i < |g| => g[i].roadClass) }

  /** One aggregated road: means of the present numeric columns, first name and class, and the
      group size; geometry is attached afterwards. */
  function GroupRow(cols: set<Column>, rows: seq<JoinedRow>, id: string): RoadRow {
    var g := GroupRows(rows, id);
    RoadRow(id,
      if SpeedCol in cols then MeanOf(GroupSpeeds(g)) else None,
      if TravelTimeCol in cols then MeanOf(GroupTravelTimes(g)) else None,
      if LinkLengthCol in cols then MeanOf(GroupLengths(g)) else None,
      if RoadNameCol in cols then FirstPresent(GroupNames(g)) else None,
      if RoadClassCol in cols then FirstPresent(GroupClasses(g)) else None,
      if DistanceCol in cols then MeanOf(GroupDistances(g)) else None,
      |g|, None, None)
  }

  function GroupRowsFor(cols: set<Column>, rows: seq<JoinedRow>, ids: seq<string>): (r: seq<RoadRow>)
    ensures |r| == |ids| && forall k :: 0 <= k < |ids| ==> r[k] == GroupRow(cols, rows, ids[k]) && r[k].roadId == ids[k]
  {
    if |ids| == 0 then [] else [GroupRow(cols, rows, ids[0])] + GroupRowsFor(cols, rows, ids[1..])
  }

  /** The group keys in groupby order: the distinct non-null road ids, sorted. */
  function GroupKeys(rows: seq<JoinedRow>): (keys: seq<string>)
    ensures LexSorted(keys) && NoDups(keys)
    ensures forall id :: id in keys <==> Some(id) in RoadIds(rows)
  {
    var d := Distinct(Present(RoadIds(rows)));
    var keys := SortStrings(d);
    PermNoDups(d, keys);
    SameElements(d, keys);
    keys
  }

  lemma SameElements(a: seq<string>, b: seq<string>)
    requires multiset(a) == multiset(b)
    ensures forall x :: x in a <==> x in b
  {
    forall x ensures x in a <==> x in b {
      assert x in a <==> multiset(a)[x] > 0;
      assert x in b <==> multiset(b)[x] > 0;
    }
  }

  /** Position of the first road with this id, |roads| when there is none. */
  function FirstRoadIndex(roads: seq<Road>, id: string): (k: nat)
    ensures k <= |roads| && (forall j :: 0 <= j < k ==> roads[j].roadId != id)
    ensures k < |roads| ==> roads[k].roadId == id
  {
    if |roads| == 0 || roads[0].roadId == id then 0 else 1 + FirstRoadIndex(roads[1..], id)
  }

  /** The geometry of the first stored road with this id. */
  function FirstGeometry(roads: seq<Road>, id: string): (g: Option<Geometry>)
    ensures g.None? <==> forall i :: 0 <= i < |roads| ==> roads[i].roadId != id
    ensures g.Some? ==>
      exists i :: 0 <= i < |roads| && roads[i].roadId == id && roads[i].geometry == g.value
        && (forall j :: 0 <= j < i ==> roads[j].roadId != id)
  {
    var k := FirstRoadIndex(roads, id);
    if k < |roads| then Some(roads[k].geometry) else None
  }

  /** The aggregated rows with their geometry looked up in the stored road table. */
  function WithGeometry(rows: seq<RoadRow>, stored: RoadTable): (r: seq<RoadRow>)
    ensures |r| == |rows|
    ensures forall k :: 0 <= k < |r| ==> r[k] == rows[k].(geometry := r[k].geometry)
  {
    seq(|rows|, k requires 0 <= k < |rows| => rows[k].(geometry := FirstGeometry(stored.rows, rows[k].roadId)))
  }

  function AggregatedColumns(cols: set<Column>, hasGeometry: bool): (r: set<Column>)
    ensures RoadIdCol in r && ObservationCountCol in r && (GeometryCol in r <==> hasGeometry)
  {
    {RoadIdCol, ObservationCountCol}
    + (cols * {SpeedCol, TravelTimeCol, LinkLengthCol, RoadNameCol, RoadClassCol, DistanceCol})
    + (if hasGeometry then {GeometryCol} else {})
  }

  /** At least one of the averaged traffic columns is present. */
  predicate HasNumeric(cols: set<Column>) {
    SpeedCol in cols || TravelTimeCol in cols || LinkLengthCol in cols
  }

  /** aggregate_by_road against the road table stored by the last completed join. */
  function Aggregated(j: JoinedTable, stored: Option<RoadTable>): (r: RoadFrame)
    ensures |j.rows| == 0 || RoadIdCol !in j.columns || |Matched(j.rows)| == 0 || !HasNumeric(j.columns)
      ==> r == EmptyFrame
    ensures |j.rows| > 0 && RoadIdCol in j.columns && |Matched(j.rows)| > 0 && HasNumeric(j.columns)
      ==> |r.rows| == |GroupKeys(j.rows)| > 0
  {
    if |j.rows| == 0 || RoadIdCol !in j.columns then EmptyFrame
    else if |Matched(j.rows)| == 0 then EmptyFrame
    else if !HasNumeric(j.columns) then EmptyFrame
    else
      MatchedSize(j.rows);
      assert Present(RoadIds(j.rows))[0] in GroupKeys(j.rows);
      var base := GroupRowsFor(j.columns, j.rows, GroupKeys(j.rows));
      match stored
      case None => RoadFrame(AggregatedColumns(j.columns, false), base)
      case Some(roads) => RoadFrame(AggregatedColumns(j.columns, true), WithGeometry(base, roads))
  }

  /** `road_stats['geometry'] = road_stats['road_id'].map(road_geom_dict)` */
  function AttachGeometry(rows: seq<RoadRow>, keys: seq<string>, dict: map<string, Geometry>): seq<RoadRow>
    requires |rows| == |keys|
  {
    seq(|rows|, k requires 0 <= k < |rows| =>
      rows[k].(geometry := if keys[k] in dict then Some(dict[keys[k]]) else None))
  }

  /** Mapping the ids through the filled dictionary is the first-stored-road lookup. */
  lemma AttachMatchesLookup(rows: seq<RoadRow>, keys: seq<string>, dict: map<string, Geometry>, stored: RoadTable)
    requires |rows| == |keys| && forall k :: 0 <= k < |keys| ==> rows[k].roadId == keys[k]
    requires forall id :: id in dict <==> id in keys && FirstGeometry(stored.rows, id).Some?
    requires forall id :: id in dict ==> dict[id] == FirstGeometry(stored.rows, id).value
    ensures AttachGeometry(rows, keys, dict) == WithGeometry(rows, stored)
  {
    var a, w := AttachGeometry(rows, keys, dict), WithGeometry(rows, stored);
    forall k | 0 <= k < |rows| ensures a[k] == w[k] {
      assert keys[k] in keys;
    }
  }

  /** The loop filling road_geom_dict: for each aggregated id, the first stored road's geometry. */
  method GeometryLookup(roads: seq<Road>, ids: seq<string>) returns (dict: map<string, Geometry>)
    ensures forall id :: id in dict <==> id in ids && FirstGeometry(roads, id).Some?
    ensures forall id :: id in dict ==> dict[id] == FirstGeometry(roads, id).value
  {
    dict := map[];
    var i := 0;
    while i < |ids|
      invariant 0 <= i <= |ids|
      invariant forall id :: id in dict <==> id in ids[..i] && FirstGeometry(roads, id).Some?
      invariant forall id :: id in dict ==> dict[id] == FirstGeometry(roads, id).value
    {
      var g := FirstGeometry(roads, ids[i]);
      if g.Some? {
        dict := dict[ids[i] := g.value];
      }
      assert ids[..i + 1] == ids[..i] + [ids[i]];
      i := i + 1;
    }
    assert ids[..i] == ids;
  }

  // ---------------------------------------------------------------- aggregation properties

  /** The rows of a non-empty aggregation follow the group keys one by one. */
  lemma AggregatedShape(j: JoinedTable, stored: Option<RoadTable>)
    requires Aggregated(j, stored).rows != []
    ensures var rows := Aggregated(j, stored).rows; var keys := GroupKeys(j.rows);
      |rows| == |keys|
      && forall k :: 0 <= k < |rows| ==>
           rows[k] == GroupRow(j.columns, j.rows, keys[k]).(geometry := rows[k].geometry)
           && rows[k].roadId == keys[k] && rows[k].observationCount == |GroupRows(j.rows, keys[k])|
           && rows[k].speed == GroupRow(j.columns, j.rows, keys[k]).speed
  {
  }

  /** Each aggregated road carries the null-skipping means of travel time, link length and
      distance over its group, and its first non-null name and class, each only where the joined
      table has that column. */
  lemma AggregatedFields(j: JoinedTable, stored: Option<RoadTable>, k: nat)
    requires k < |Aggregated(j, stored).rows|
    ensures var row := Aggregated(j, stored).rows[k];
      var g := GroupRows(j.rows, row.roadId);
      row.travelTime == (if TravelTimeCol in j.columns then MeanOf(GroupTravelTimes(g)) else None)
      && row.linkLength == (if LinkLengthCol in j.columns then MeanOf(GroupLengths(g)) else None)
      && row.distance == (if DistanceCol in j.columns then MeanOf(GroupDistances(g)) else None)
      && row.roadName == (if RoadNameCol in j.columns then FirstPresent(GroupNames(g)) else None)
      && row.roadClass == (if RoadClassCol in j.columns then FirstPresent(GroupClasses(g)) else None)
  {
    AggregatedShape(j, stored);
  }

  /** The aggregated roads are the distinct matched road ids, sorted, each once. */
  lemma AggregatedRoadIds(j: JoinedTable, stored: Option<RoadTable>)
    requires Aggregated(j, stored).rows != []
    ensures var rows := Aggregated(j, stored).rows;
      (forall k :: 0 <= k < |rows| - 1 ==> LexLeq(rows[k].roadId, rows[k + 1].roadId))
      && (forall k, l :: 0 <= k < l < |rows| ==> rows[k].roadId != rows[l].roadId)
      && (forall id :: (exists k :: 0 <= k < |rows| && rows[k].roadId == id) <==> Some(id) in RoadIds(j.rows))
  {
    AggregatedShape(j, stored);
    var keys := GroupKeys(j.rows);
    var rows := Aggregated(j, stored).rows;
    forall id | Some(id) in RoadIds(j.rows) ensures exists k :: 0 <= k < |rows| && rows[k].roadId == id {
      var k :| 0 <= k < |keys| && keys[k] == id;
      assert rows[k].roadId == id;
    }
  }

  /** Each road's observation_count is its number of matched rows (at least one), and the counts
      add up to the number of matched rows. */
  lemma AggregatedCounts(j: JoinedTable, stored: Option<RoadTable>)
    requires Aggregated(j, stored).rows != []
    ensures var rows := Aggregated(j, stored).rows;
      (forall k :: 0 <= k < |rows| ==>
         rows[k].observationCount == |GroupRows(j.rows, rows[k].roadId)| && rows[k].observationCount > 0)
      && Stats.SumInts(Congestion.ObservationCounts(rows)) == |Matched(j.rows)|
  {
    AggregatedShape(j, stored);
    var ids := Present(RoadIds(j.rows));
    var keys := GroupKeys(j.rows);
    var rows := Aggregated(j, stored).rows;
    forall k | 0 <= k < |rows|
      ensures rows[k].observationCount == |GroupRows(j.rows, rows[k].roadId)| && rows[k].observationCount > 0
    {
      GroupSize(j.rows, keys[k]);
      assert keys[k] in keys;
      CountPositive(ids, keys[k]);
    }
    CountsOverKeys(j.rows, keys, rows);
    SumCountsCover(ids, keys);
    MatchedSize(j.rows);
  }

  lemma {:induction false} CountsOverKeys(rows: seq<JoinedRow>, keys: seq<string>, agg: seq<RoadRow>)
    requires |agg| == |keys|
    requires forall k :: 0 <= k < |keys| ==> agg[k].observationCount == |GroupRows(rows, keys[k])|
    ensures Stats.SumInts(Congestion.ObservationCounts(agg)) == SumCounts(Present(RoadIds(rows)), keys)
  {
    if |keys| > 0 {
      GroupSize(rows, keys[0]);
      CountsOverKeys(rows, keys[1..], agg[1..]);
      assert Congestion.ObservationCounts(agg)[1..] == Congestion.ObservationCounts(agg[1..]);
      assert Congestion.ObservationCounts(agg) == [Congestion.ObservationCounts(agg)[0]] + Congestion.ObservationCounts(agg[1..]);
    }
  }

  /** Each aggregated speed lies between the smallest and largest speed observed on that road. */
  lemma AggregatedSpeedBetween(j: JoinedTable, stored: Option<RoadTable>, k: nat)
    requires k < |Aggregated(j, stored).rows|
    ensures var row := Aggregated(j, stored).rows[k];
      var speeds := Present(GroupSpeeds(GroupRows(j.rows, row.roadId)));
      row.speed.Some? ==> |speeds| > 0 && Stats.Min(speeds) <= row.speed.value <= Stats.Max(speeds)
  {
    AggregatedShape(j, stored);
    var row := Aggregated(j, stored).rows[k];
    var g := GroupRows(j.rows, row.roadId);
    assert row.speed == if SpeedCol in j.columns then MeanOf(GroupSpeeds(g)) else None;
  }

  /** Geometry is copied from the first stored road with the same id; ids with no stored road
      get none, and without a stored table there is no geometry at all. */
  lemma AggregatedGeometry(j: JoinedTable, stored: Option<RoadTable>, k: nat)
    requires k < |Aggregated(j, stored).rows|
    ensures var row := Aggregated(j, stored).rows[k];
      (stored.None? ==> row.geometry.None? && GeometryCol !in Aggregated(j, stored).columns)
      && (stored.Some? ==> row.geometry == FirstGeometry(stored.value.rows, row.roadId))
  {
    var keys := GroupKeys(j.rows);
    var base := GroupRowsFor(j.columns, j.rows, keys);
    assert base[k] == GroupRow(j.columns, j.rows, keys[k]);
    assert base[k].geometry.None?;
  }

  // ---------------------------------------------------------------- coverage

  /** Distance summary: mean, median and maximum (the standard deviation is not modelled). */
  datatype DistanceStats = DistanceStats(mean: real, median: real, max: real)

  /** calculate_road_coverage's dictionary: {} on empty input, the three-key form when the join
      came back empty, and the full report otherwise. */
  datatype Coverage =
    | NoInput
    | JoinFailed(totalRoads: nat)
    | Report(coverageRate: real, matchedRoads: nat, totalRoads: nat, trafficPoints: nat,
             matchedPoints: nat, distanceStats: Option<DistanceStats>)

  /** `joined['road_id'].nunique()` */
  function MatchedIds(rows: seq<JoinedRow>): set<string> {
    set id | id in Present(RoadIds(rows))
  }

  function Distances(rows: seq<JoinedRow>): (r: seq<Option<real>>)
    ensures |r| == |rows| && forall i :: 0 <= i < |rows| ==> r[i] == rows[i].distance
  {
    if |rows| == 0 then [] else [rows[0].distance] + Distances(rows[1..])
  }

  function SummarizeDistances(ds: seq<real>): Option<DistanceStats> {
    if |ds| == 0 then None else Some(DistanceStats(Stats.Mean(ds), Stats.Quantile(ds, 1, 2), Stats.Max(ds)))
  }

  /** The coverage figures of a completed join. */
  function CoverageOf(traffic: TrafficFrame, roads: RoadTable, joined: JoinedTable): Coverage {
    if |joined.rows| == 0 then JoinFailed(|roads.rows|)
    else
      var matched := |MatchedIds(joined.rows)|;
      var total := |roads.rows|;
      Report(if total > 0 then matched as real / total as real else 0.0, matched, total, |traffic.rows|,
        |Matched(joined.rows)|,
        if DistanceCol in joined.columns then SummarizeDistances(Present(Distances(joined.rows))) else None)
  }

  lemma RatioAtMostOne(a: nat, b: nat)
    requires a <= b && b > 0
    ensures 0.0 <= a as real / b as real <= 1.0
  {
    Stats.DivMono(a as real, b as real, b as real);
    Stats.DivMono(0.0, a as real, b as real);
  }

  /** Coverage of a non-empty input: the join fails only without a road_id column; otherwise the
      rate is matched / total in [0, 1], at most every road is matched, the distance summary
      exists exactly when some point matched, and it stays within the cutoff. */
  lemma CoverageBounds(traffic: TrafficFrame, roads: RoadTable, maxDistance: real, dist: (Point, Geometry) -> real)
    requires |traffic.rows| > 0 && |roads.rows| > 0
    ensures var c := CoverageOf(traffic, roads, JoinResult(traffic, roads, maxDistance, dist));
      (c.JoinFailed? <==> RoadIdCol !in roads.columns)
      && (c.Report? ==>
            c.matchedRoads <= c.totalRoads == |roads.rows| && c.trafficPoints == |traffic.rows|
            && 0.0 <= c.coverageRate <= 1.0
            && c.coverageRate == c.matchedRoads as real / c.totalRoads as real
            && (c.distanceStats.Some? <==> c.matchedPoints > 0))
      && (c.Report? && c.distanceStats.Some? ==>
            c.distanceStats.value.max <= maxDistance
            && c.distanceStats.value.mean <= c.distanceStats.value.max
            && c.distanceStats.value.median <= c.distanceStats.value.max)
  {
    if RoadIdCol in roads.columns {
      var rows := NearestJoin(traffic.rows, roads, maxDistance, dist);
      MatchedRoadsBound(traffic.rows, roads, maxDistance, dist);
      RatioAtMostOne(|MatchedIds(rows)|, |roads.rows|);
      DistanceSummaryBounds(traffic.rows, roads, maxDistance, dist);
      var ds := Present(Distances(rows));
      if |ds| > 0 {
        Stats.MeanBetween(ds);
        Stats.QuantileBetween(ds, 1, 2);
      }
    }
  }

  /** Every matched id names a road, so no more roads are matched than there are. */
  lemma MatchedRoadsBound(obs: seq<Observation>, roads: RoadTable, maxDistance: real, dist: (Point, Geometry) -> real)
    requires |roads.rows| > 0
    ensures |MatchedIds(NearestJoin(obs, roads, maxDistance, dist))| <= |roads.rows|
  {
    var rows := NearestJoin(obs, roads, maxDistance, dist);
    var roadIdSet := set road | road in roads.rows :: road.roadId;
    forall id | id in MatchedIds(rows) ensures id in roadIdSet {
      var i :| 0 <= i < |rows| && RoadIds(rows)[i] == Some(id);
      JoinedDistances(obs, roads, maxDistance, dist, rows[i]);
    }
    SubsetCard(MatchedIds(rows), roadIdSet);
    RoadIdSetSize(roads.rows);
  }

  /** The distances left after dropna: there is one exactly when some row matched, and each is
      within the cutoff. */
  lemma DistanceSummaryBounds(obs: seq<Observation>, roads: RoadTable, maxDistance: real, dist: (Point, Geometry) -> real)
    requires |roads.rows| > 0
    ensures var rows := NearestJoin(obs, roads, maxDistance, dist);
      var ds := Present(Distances(rows));
      (|ds| > 0 <==> |Matched(rows)| > 0) && forall d :: d in ds ==> d <= maxDistance
  {
    var rows := NearestJoin(obs, roads, maxDistance, dist);
    var ds := Present(Distances(rows));
    forall d | d in ds ensures d <= maxDistance {
      var i :| 0 <= i < |rows| && Distances(rows)[i] == Some(d);
      JoinedDistances(obs, roads, maxDistance, dist, rows[i]);
    }
    if |Matched(rows)| > 0 {
      var x := Matched(rows)[0];
      assert x in Matched(rows);
      DistancesPresent(obs, roads, maxDistance, dist, x);
    }
    if |ds| > 0 {
      var d := ds[0];
      assert d in ds;
      var i :| 0 <= i < |rows| && Distances(rows)[i] == Some(d);
      JoinedDistances(obs, roads, maxDistance, dist, rows[i]);
      assert rows[i] in Matched(rows);
    }
  }

  lemma {:induction false} RoadIdSetSize(roads: seq<Road>)
    ensures |set road | road in roads :: road.roadId| <= |roads|
  {
    if |roads| > 0 {
      RoadIdSetSize(roads[1..]);
      assert (set road | road in roads :: road.roadId)
        == (set road | road in roads[1..] :: road.roadId) + {roads[0].roadId};
    }
  }

  /** Some joined row carries a distance: either it matched, or no distance was found and the
      rows are all unmatched, in which case the summary is empty; with a match it is non-empty. */
  lemma DistancesPresent(obs: seq<Observation>, roads: RoadTable, maxDistance: real, dist: (Point, Geometry) -> real, x: JoinedRow)
    requires |roads.rows| > 0 && x in NearestJoin(obs, roads, maxDistance, dist)
    ensures x.roadId.Some? ==> |Present(Distances(NearestJoin(obs, roads, maxDistance, dist)))| > 0
  {
    var rows := NearestJoin(obs, roads, maxDistance, dist);
    if x.roadId.Some? {
      JoinedDistances(obs, roads, maxDistance, dist, x);
      var i :| 0 <= i < |rows| && rows[i] == x;
      assert Distances(rows)[i] == Some(x.distance.value);
      assert x.distance.value in Present(Distances(rows));
    }
  }

  // ---------------------------------------------------------------- the processor

  /** The processor: a fixed cutoff, and the road table of the last completed join. */
  class SpatialProcessor {
    const maxDistance: real
    var roadTable: Option<RoadTable>

    constructor(maxDistance: real)
      ensures this.maxDistance == maxDistance && roadTable.None?
    {
      this.maxDistance := maxDistance;
      roadTable := None;
    }

    /** join_traffic_roads: a completed join stores the road table for aggregation; an early
        exit or a failure leaves the stored table as it was. */
    method JoinTrafficRoads(traffic: TrafficFrame, roads: RoadTable, dist: (Point, Geometry) -> real)
      returns (r: JoinedTable)
      modifies this
      ensures r == JoinResult(traffic, roads, maxDistance, dist)
      ensures r != EmptyJoined ==> roadTable == Some(roads)
      ensures r == EmptyJoined ==> roadTable == old(roadTable)
      ensures |traffic.rows| > 0 && |roads.rows| > 0 && RoadIdCol in roads.columns ==> roadTable == Some(roads)
      ensures |traffic.rows| == 0 || |roads.rows| == 0 || RoadIdCol !in roads.columns ==> roadTable == old(roadTable)
    {
      if |traffic.rows| == 0 || |roads.rows| == 0 {
        return EmptyJoined;
      }
      if RoadIdCol !in roads.columns {
        return EmptyJoined;
      }
      var rows := NearestJoin(traffic.rows, roads, maxDistance, dist);
      r := JoinedTable(JoinedColumns(traffic.columns, roads.columns), rows);
      roadTable := Some(roads);
    }

    /** aggregate_by_road: the group reductions, then the geometry lookup loop against the stored
        road table. */
    method AggregateByRoad(joined: JoinedTable) returns (r: RoadFrame)
      ensures r == Aggregated(joined, roadTable)
    {
      if |joined.rows| == 0 || RoadIdCol !in joined.columns {
        return EmptyFrame;
      }
      if |Matched(joined.rows)| == 0 {
        return EmptyFrame;
      }
      if !HasNumeric(joined.columns) {
        return EmptyFrame;
      }
      var keys := GroupKeys(joined.rows);
      var aggregated := GroupRowsFor(joined.columns, joined.rows, keys);
      if roadTable.Some? {
        var dict := GeometryLookup(roadTable.value.rows, keys);
        AttachMatchesLookup(aggregated, keys, dict, roadTable.value);
        r := RoadFrame(AggregatedColumns(joined.columns, true), AttachGeometry(aggregated, keys, dict));
      } else {
        r := RoadFrame(AggregatedColumns(joined.columns, false), aggregated);
      }
    }

    /** calculate_road_coverage: runs the join (which may store the road table) and reports. */
    method CalculateRoadCoverage(traffic: TrafficFrame, roads: RoadTable, dist: (Point, Geometry) -> real)
      returns (c: Coverage)
      modifies this
      ensures |traffic.rows| == 0 || |roads.rows| == 0 ==> c == NoInput && roadTable == old(roadTable)
      ensures |traffic.rows| > 0 && |roads.rows| > 0 ==>
        c == CoverageOf(traffic, roads, JoinResult(traffic, roads, maxDistance, dist))
      ensures |traffic.rows| > 0 && |roads.rows| > 0 ==>
        roadTable == (if RoadIdCol in roads.columns then Some(roads) else old(roadTable))
    {
      if |traffic.rows| == 0 || |roads.rows| == 0 {
        return NoInput;
      }
      var joined := JoinTrafficRoads(traffic, roads, dist);
      c := CoverageOf(traffic, roads, joined);
    }
  }
}

=== FILE: stats.dfy ===
/** The numeric reductions the source takes from pandas/numpy, over exact reals:
    sum, mean, min, max, linear-interpolation quantiles (pandas' default) and round(x, 1). */
module Stats {

  function Sum(s: seq<real>): real {
    if |s| == 0 then 0.0 else s[0] + Sum(s[1..])
  }

  function Mean(s: seq<real>): real
    requires |s| > 0
  {
    Sum(s) / |s| as real
  }

  function Min(s: seq<real>): (m: real)
    requires |s| > 0
    ensures forall i :: 0 <= i < |s| ==> m <= s[i]
    ensures m in s
  {
    if |s| == 1 then s[0]
    else var r := Min(s[1..]); if s[0] <= r then s[0] else r
  }

  function Max(s: seq<real>): (m: real)
    requires |s| > 0
    ensures forall i :: 0 <= i < |s| ==> s[i] <= m
    ensures m in s
  {
    if |s| == 1 then s[0]
    else var r := Max(s[1..]); if s[0] >= r then s[0] else r
  }

  lemma {:induction false} SumBounds(s: seq<real>, lo: real, hi: real)
    requires forall i :: 0 <= i < |s| ==> lo <= s[i] <= hi
    ensures |s| as real * lo <= Sum(s) <= |s| as real * hi
  {
    if |s| > 0 {
      SumBounds(s[1..], lo, hi);
      assert |s| as real * lo == lo + (|s| - 1) as real * lo;
      assert |s| as real * hi == hi + (|s| - 1) as real * hi;
    }
  }

  lemma DivMono(a: real, b: real, n: real)
    requires a <= b && n > 0.0
    ensures a / n <= b / n
  {
  }

  /** The mean lies between the minimum and the maximum. */
  lemma MeanBetween(s: seq<real>)
    requires |s| > 0
    ensures Min(s) <= Mean(s) <= Max(s)
  {
    var lo, hi := Min(s), Max(s);
    assert forall i :: 0 <= i < |s| ==> lo <= s[i] <= hi;
    SumBounds(s, lo, hi);
    MeanFromSumBounds(s, lo, hi);
  }

  lemma MeanFromSumBounds(s: seq<real>, lo: real, hi: real)
    requires |s| > 0
    requires |s| as real * lo <= Sum(s) <= |s| as real * hi
    ensures lo <= Mean(s) <= hi
  {
    QuotientBetween(Sum(s), |s| as real, lo, hi);
  }

  lemma QuotientBetween(total: real, n: real, lo: real, hi: real)
    requires n > 0.0 && n * lo <= total <= n * hi
    ensures lo <= total / n <= hi
  {
    DivMono(n * lo, total, n);
    DivMono(total, n * hi, n);
    MulDivCancel(lo, n);
    MulDivCancel(hi, n);
  }

  lemma MulDivCancel(x: real, n: real)
    requires n > 0.0
    ensures (n * x) / n == x
  {
  }

  predicate Sorted(s: seq<real>) {
    forall i, j :: 0 <= i < j < |s| ==> s[i] <= s[j]
  }

  /** Where x goes in a sorted sequence: after every smaller element. */
  function InsertPos(x: real, s: seq<real>): (k: nat)
    ensures k <= |s|
    ensures forall i :: 0 <= i < k ==> s[i] < x
    ensures Sorted(s) ==> forall i :: k <= i < |s| ==> x <= s[i]
  {
    if |s| == 0 || x <= s[0] then 0 else 1 + InsertPos(x, s[1..])
  }

  function Insert(x: real, s: seq<real>): (r: seq<real>)
    requires Sorted(s)
    ensures Sorted(r) && multiset(r) == multiset(s) + multiset{x} && |r| == |s| + 1
  {
    var k := InsertPos(x, s);
    InsertAt(x, s, k);
    s[..k] + [x] + s[k..]
  }

  lemma InsertAt(x: real, s: seq<real>, k: nat)
    requires Sorted(s) && k <= |s|
    requires forall i :: 0 <= i < k ==> s[i] < x
    requires forall i :: k <= i < |s| ==> x <= s[i]
    ensures Sorted(s[..k] + [x] + s[k..])
    ensures multiset(s[..k] + [x] + s[k..]) == multiset(s) + multiset{x}
  {
    var r := s[..k] + [x] + s[k..];
    assert s == s[..k] + s[k..];
    forall i, j | 0 <= i < j < |r| ensures r[i] <= r[j] {
      if j < k {
        assert r[i] == s[i] && r[j] == s[j];
      } else if j == k {
        assert r[j] == x;
      } else if i > k {
        assert r[i] == s[i - 1] && r[j] == s[j - 1];
      } else if i == k {
        assert r[i] == x && r[j] == s[j - 1];
      } else {
        assert r[i] == s[i] && r[j] == s[j - 1];
      }
    }
  }

  /** The ascending arrangement of a sample (what pandas sorts before taking quantiles). */
  function Sort(s: seq<real>): (r: seq<real>)
    ensures Sorted(r) && multiset(r) == multiset(s) && |r| == |s|
  {
    if |s| == 0 then []
    else
      assert s == [s[0]] + s[1..];
      Insert(s[0], Sort(s[1..]))
  }

  /** The sorted sample starts at the minimum and ends at the maximum. */
  lemma SortEnds(s: seq<real>)
    requires |s| > 0
    ensures Sort(s)[0] == Min(s) && Sort(s)[|s| - 1] == Max(s)
  {
    SortedFirstIsMin(Sort(s), s);
    SortedLastIsMax(Sort(s), s);
  }

  lemma SortedFirstIsMin(r: seq<real>, s: seq<real>)
    requires |s| > 0 && |r| == |s| && Sorted(r) && multiset(r) == multiset(s)
    ensures r[0] == Min(s)
  {
    assert r[0] in multiset(s) by { assert r[0] in multiset(r); }
    assert Min(s) in multiset(r) by { assert Min(s) in multiset(s); }
    var i :| 0 <= i < |r| && r[i] == Min(s);
    assert r[0] <= r[i];
  }

  lemma SortedLastIsMax(r: seq<real>, s: seq<real>)
    requires |s| > 0 && |r| == |s| && Sorted(r) && multiset(r) == multiset(s)
    ensures r[|r| - 1] == Max(s)
  {
    assert r[|r| - 1] in multiset(s) by { assert r[|r| - 1] in multiset(r); }
    assert Max(s) in multiset(r) by { assert Max(s) in multiset(s); }
    var i :| 0 <= i < |r| && r[i] == Max(s);
    assert r[i] <= r[|r| - 1];
  }

  /** Linear interpolation between position lo and lo + 1 of a sorted sample. */
  function Interpolate(r: seq<real>, lo: nat, frac: real): real
    requires lo < |r|
  {
    if lo + 1 < |r| then Lerp(r[lo], r[lo + 1], frac) else r[lo]
  }

  /** a + f·(b - a), numpy's linear interpolation step. */
  function Lerp(a: real, b: real, f: real): (r: real)
    ensures a <= b && 0.0 <= f <= 1.0 ==> a <= r <= b
  {
    InterpBound(f, b - a);
    a + f * (b - a)
  }

  /** pandas' quantile(num/den) with linear interpolation: position h = (n-1)·q in the sorted
      sample, value s[⌊h⌋] + (h - ⌊h⌋)·(s[⌊h⌋+1] - s[⌊h⌋]). */
  function Quantile(s: seq<real>, num: nat, den: nat): real
    requires |s| > 0 && 0 < den && num <= den
  {
    Interpolate(Sort(s), QuantileIndex(|s|, num, den), QuantileFraction(|s|, num, den))
  }

  /** ⌊(n-1)·num/den⌋ */
  function QuantileIndex(n: nat, num: nat, den: nat): (lo: nat)
    requires n > 0 && 0 < den && num <= den
    ensures lo < n
  {
    DivBound(n - 1, num, den);
    (n - 1) * num / den
  }

  /** The fractional part of (n-1)·num/den. */
  function QuantileFraction(n: nat, num: nat, den: nat): (f: real)
    requires n > 0 && 0 < den && num <= den
    ensures 0.0 <= f <= 1.0
  {
    var m := (n - 1) * num % den;
    DivMono(m as real, den as real, den as real);
    m as real / den as real
  }

  lemma DivBound(a: nat, num: nat, den: nat)
    requires 0 < den && num <= den
    ensures a * num / den <= a
  {
    assert a * num <= a * den by { MulMono(a, num, den); }
    assert (a * den) / den == a;
  }

  lemma MulMono(a: nat, x: nat, y: nat)
    requires x <= y
    ensures a * x <= a * y
  {
  }

  lemma InterpolateBetween(r: seq<real>, lo: nat, frac: real)
    requires Sorted(r) && lo < |r| && 0.0 <= frac <= 1.0
    ensures r[0] <= Interpolate(r, lo, frac) <= r[|r| - 1]
  {
    assert r[0] <= r[lo] <= r[|r| - 1];
    if lo + 1 < |r| {
      assert r[lo] <= r[lo + 1] <= r[|r| - 1];
    }
  }

  /** Every quantile lies between the minimum and the maximum of the sample. */
  lemma QuantileBetween(s: seq<real>, num: nat, den: nat)
    requires |s| > 0 && 0 < den && num <= den
    ensures Min(s) <= Quantile(s, num, den) <= Max(s)
  {
    SortEnds(s);
    InterpolateBetween(Sort(s), QuantileIndex(|s|, num, den), QuantileFraction(|s|, num, den));
  }

  lemma InterpBound(f: real, d: real)
    ensures 0.0 <= f <= 1.0 && d >= 0.0 ==> 0.0 <= f * d <= d
  {
  }

  /** The middle element of a sorted sample, or the mean of the two middle elements. */
  function Middle(r: seq<real>): real
    requires |r| > 0
  {
    var n := |r|;
    if n % 2 == 1 then r[n / 2] else (r[n / 2 - 1] + r[n / 2]) / 2.0
  }

  /** The median (quantile 1/2) is the middle element, or the mean of the two middle elements. */
  lemma MedianIsMiddle(s: seq<real>)
    requires |s| > 0
    ensures Quantile(s, 1, 2) == Middle(Sort(s))
  {
    var r := Sort(s);
    assert Quantile(s, 1, 2) == Interpolate(r, QuantileIndex(|r|, 1, 2), QuantileFraction(|r|, 1, 2));
    MiddleInterpolation(r);
  }

  lemma MiddleInterpolation(r: seq<real>)
    requires |r| > 0
    ensures Interpolate(r, QuantileIndex(|r|, 1, 2), QuantileFraction(|r|, 1, 2)) == Middle(r)
  {
    var n := |r|;
    MiddlePosition(n);
    if n % 2 == 0 {
      assert Lerp(r[n / 2 - 1], r[n / 2], 0.5) == (r[n / 2 - 1] + r[n / 2]) / 2.0;
    }
  }

  lemma MiddlePosition(n: nat)
    requires n > 0
    ensures n % 2 == 1 ==> QuantileIndex(n, 1, 2) == n / 2 && QuantileFraction(n, 1, 2) == 0.0
    ensures n % 2 == 0 ==> QuantileIndex(n, 1, 2) == n / 2 - 1 && QuantileFraction(n, 1, 2) == 0.5
  {
    assert (n - 1) * 1 == n - 1;
  }

  /** round(x, 1) on exact reals, ties rounded up. */
  function Round1(x: real): (r: real)
    ensures -0.05 < r - x <= 0.05
  {
    ((x * 10.0 + 0.5).Floor as real) / 10.0
  }

  /** A value that is already a whole number of tenths is unchanged by rounding. */
  lemma Round1Tenths(k: int)
    ensures Round1(k as real / 10.0) == k as real / 10.0
  {
    var y := k as real / 10.0 * 10.0 + 0.5;
    assert y == k as real + 0.5;
    assert y.Floor == k;
  }

  function SumInts(s: seq<int>): int {
    if |s| == 0 then 0 else s[0] + SumInts(s[1..])
  }

  /** The maximum of integer counts (`int(obs_data.max())`); kept apart from Max so the
      observation statistics stay integers without a round trip through `real`. */
  function MaxInt(s: seq<int>): (m: int)
    requires |s| > 0
    ensures forall i :: 0 <= i < |s| ==> s[i] <= m
    ensures m in s
  {
    if |s| == 1 then s[0]
    else var r := MaxInt(s[1..]); if s[0] >= r then s[0] else r
  }

  lemma {:induction false} SumIntsOfNats(s: seq<int>)
    requires forall i :: 0 <= i < |s| ==> s[i] >= 0
    ensures SumInts(s) >= 0
    ensures |s| > 0 ==> MaxInt(s) <= SumInts(s)
  {
    if |s| > 1 {
      SumIntsOfNats(s[1..]);
    }
  }
}

=== FILE: tables.dfy ===
/** The typed rows and frames that flow through the pipeline.
    A pandas frame is a set of present columns plus a sequence of rows; a row field whose column
    is absent is never read. NaN and None cells are `None`. */
module Tables {
  import opened Wrappers
  import opened Geo

  /** The congestion levels written into 'congestion_level'. */
  datatype Level = Low | Medium | High | Unknown

  /** The level as the string stored in the frame. */
  function LevelName(l: Level): string {
    match l
    case Low => "low"
    case Medium => "medium"
    case High => "high"
    case Unknown => "unknown"
  }

  /** Column names the core tests for: '平均速度', '旅行時間', 'リンク長', '道路種別', '時間コード',
      'road_id', 'road_name', 'road_class', 'distance_to_road', 'observation_count', 'geometry',
      and the three columns written by the classifier. */
  datatype Column =
    | SpeedCol | TravelTimeCol | LinkLengthCol | RoadTypeCol | TimeCodeCol
    | RoadIdCol | RoadNameCol | RoadClassCol | DistanceCol | ObservationCountCol
    | GeometryCol | LevelCol

  /** One traffic observation (a row of the traffic frame). */
  datatype Observation = Observation(
    roadType: Option<int>,
    timeCode: Option<int>,
    speed: Option<real>,
    travelTime: Option<real>,
    linkLength: Option<real>,
    location: Option<Point>)

  datatype TrafficFrame = TrafficFrame(columns: set<Column>, rows: seq<Observation>)

  /** `gpd.GeoDataFrame()`: no columns, no rows. */
  const EmptyTraffic: TrafficFrame := TrafficFrame({}, [])

  /** One road segment after schema standardisation. */
  datatype Road = Road(roadId: string, roadClass: Option<string>, roadName: Option<string>, geometry: Geometry)

  datatype RoadTable = RoadTable(columns: set<Column>, rows: seq<Road>)

  const EmptyRoads: RoadTable := RoadTable({}, [])

  /** An observation after the nearest-road join: the road columns are null when unmatched. */
  datatype JoinedRow = JoinedRow(
    obs: Observation,
    roadId: Option<string>,
    roadName: Option<string>,
    roadClass: Option<string>,
    distance: Option<real>)

  datatype JoinedTable = JoinedTable(columns: set<Column>, rows: seq<JoinedRow>)

  const EmptyJoined: JoinedTable := JoinedTable({}, [])

  /** The three columns the classifier writes: level, colour and Japanese label. */
  datatype Classification = Classification(level: Level, color: string, category: string)

  /** One row per road: the aggregation output, later classified. */
  datatype RoadRow = RoadRow(
    roadId: string,
    speed: Option<real>,
    travelTime: Option<real>,
    linkLength: Option<real>,
    roadName: Option<string>,
    roadClass: Option<string>,
    distance: Option<real>,
    observationCount: nat,
    geometry: Option<Geometry>,
    classification: Option<Classification>)

  datatype RoadFrame = RoadFrame(columns: set<Column>, rows: seq<RoadRow>)

  const EmptyFrame: RoadFrame := RoadFrame({}, [])

  /** The values of the present cells, in row order (`series.dropna()`). */
  function Present<T(!new)>(xs: seq<Option<T>>): (r: seq<T>)
    ensures |r| <= |xs|
    ensures forall x :: x in r <==> Some(x) in xs
  {
    if |xs| == 0 then []
    else (if xs[0].Some? then [xs[0].value] else []) + Present(xs[1..])
  }

  /** Boolean-mask row selection (`frame[mask]`): the rows satisfying p, order kept. */
  function Where<T(==,!new)>(xs: seq<T>, p: T -> bool): (r: seq<T>)
    ensures |r| <= |xs|
    ensures forall x :: x in r <==> x in xs && p(x)
  {
    if |xs| == 0 then []
    else (if p(xs[0]) then [xs[0]] else []) + Where(xs[1..], p)
  }

  /** The positions among the first n rows that pass the mask, ascending. */
  function Selected<T>(xs: seq<T>, p: T -> bool, n: nat): (ix: seq<nat>)
    requires n <= |xs|
    ensures forall k :: 0 <= k < |ix| ==> ix[k] < n && p(xs[ix[k]])
    ensures forall k, l :: 0 <= k < l < |ix| ==> ix[k] < ix[l]
    ensures forall i :: 0 <= i < n && p(xs[i]) ==> i in ix
  {
    if n == 0 then [] else Selected(xs, p, n - 1) + (if p(xs[n - 1]) then [n - 1] else [])
  }

  lemma {:induction false} WhereAppend<T(!new)>(a: seq<T>, b: seq<T>, p: T -> bool)
    ensures Where(a + b, p) == Where(a, p) + Where(b, p)
  {
    if |a| > 0 {
      assert (a + b)[1..] == a[1..] + b;
      WhereAppend(a[1..], b, p);
    } else {
      assert a + b == b;
    }
  }

  lemma {:induction false} WherePrefix<T(!new)>(xs: seq<T>, p: T -> bool, n: nat)
    requires n <= |xs|
    ensures |Where(xs[..n], p)| == |Selected(xs, p, n)|
    ensures forall k :: 0 <= k < |Selected(xs, p, n)| ==> Where(xs[..n], p)[k] == xs[Selected(xs, p, n)[k]]
  {
    if n > 0 {
      WherePrefix(xs, p, n - 1);
      assert xs[..n] == xs[..n - 1] + [xs[n - 1]];
      WhereAppend(xs[..n - 1], [xs[n - 1]], p);
      assert Where([xs[n - 1]], p) == if p(xs[n - 1]) then [xs[n - 1]] else [] by {
        assert [xs[n - 1]][1..] == [];
      }
    }
  }

  /** A mask keeps row order: the k-th row kept is the row at the k-th passing position, and
      every passing row is kept. */
  lemma WhereKeepsOrder<T(!new)>(xs: seq<T>, p: T -> bool)
    ensures |Where(xs, p)| == |Selected(xs, p, |xs|)|
    ensures forall k :: 0 <= k < |Where(xs, p)| ==> Where(xs, p)[k] == xs[Selected(xs, p, |xs|)[k]]
  {
    WherePrefix(xs, p, |xs|);
    assert xs[..|xs|] == xs;
  }

  /** `notna()`: the cell holds a value. */
  predicate IsSome<T>(o: Option<T>) {
    o.Some?
  }

  lemma {:induction false} PresentAppend<T(!new)>(a: seq<Option<T>>, b: seq<Option<T>>)
    ensures Present(a + b) == Present(a) + Present(b)
  {
    if |a| > 0 {
      assert (a + b)[1..] == a[1..] + b;
      PresentAppend(a[1..], b);
    } else {
      assert a + b == b;
    }
  }

  lemma {:induction false} PresentPrefix<T(!new)>(xs: seq<Option<T>>, n: nat)
    requires n <= |xs|
    ensures |Present(xs[..n])| == |Selected(xs, IsSome, n)|
    ensures forall k :: 0 <= k < |Selected(xs, IsSome, n)| ==> xs[Selected(xs, IsSome, n)[k]] == Some(Present(xs[..n])[k])
  {
    if n > 0 {
      PresentPrefix(xs, n - 1);
      assert xs[..n] == xs[..n - 1] + [xs[n - 1]];
      PresentAppend(xs[..n - 1], [xs[n - 1]]);
      assert Present([xs[n - 1]]) == if xs[n - 1].Some? then [xs[n - 1].value] else [] by {
        assert [xs[n - 1]][1..] == [];
      }
    }
  }

  /** dropna() keeps order and repeats: the k-th value kept is the value at the k-th present
      position, and every present cell is kept. */
  lemma PresentKeepsOrder<T(!new)>(xs: seq<Option<T>>)
    ensures |Present(xs)| == |Selected(xs, IsSome, |xs|)|
    ensures forall k :: 0 <= k < |Present(xs)| ==> xs[Selected(xs, IsSome, |xs|)[k]] == Some(Present(xs)[k])
  {
    PresentPrefix(xs, |xs|);
    assert xs[..|xs|] == xs;
  }

  /** Two masks applied in turn select what their conjunction selects. */
  lemma {:induction false} WhereFuse<T(!new)>(xs: seq<T>, p: T -> bool, q: T -> bool, pq: T -> bool)
    requires forall x :: pq(x) == (p(x) && q(x))
    ensures Where(Where(xs, p), q) == Where(xs, pq)
  {
    if |xs| > 0 {
      WhereFuse(xs[1..], p, q, pq);
      if p(xs[0]) {
        assert Where(xs, p) == [xs[0]] + Where(xs[1..], p);
        assert Where(xs, p)[1..] == Where(xs[1..], p);
      } else {
        assert Where(xs, p) == Where(xs[1..], p);
      }
    }
  }

  lemma {:induction false} WhereSame<T(!new)>(xs: seq<T>, p: T -> bool, q: T -> bool)
    requires forall x :: p(x) == q(x)
    ensures Where(xs, p) == Where(xs, q)
  {
    if |xs| > 0 { WhereSame(xs[1..], p, q); }
  }

  /** A mask every row passes keeps the frame as it is. */
  lemma {:induction false} WhereAll<T(!new)>(xs: seq<T>, p: T -> bool)
    requires forall x :: x in xs ==> p(x)
    ensures Where(xs, p) == xs
  {
    if |xs| > 0 {
      assert xs[0] in xs;
      assert forall x :: x in xs[1..] ==> x in xs;
      WhereAll(xs[1..], p);
    }
  }
}

=== FILE: text.dfy ===
/** String helpers that the source gets from Python's str type:
    decimal rendering of integers, zfill, lower-casing, substring tests and joining. */
module Text {

  predicate IsDigit(c: char) {
    '0' <= c <= '9'
  }

  predicate AllDigits(s: string) {
    forall i :: 0 <= i < |s| ==> IsDigit(s[i])
  }

  function DigitChar(d: nat): (c: char)
    requires d < 10
    ensures IsDigit(c) && c as int - '0' as int == d
  {
    (('0' as int) + d) as char
  }

  function DigitValue(c: char): (d: nat)
    requires IsDigit(c)
    ensures d < 10 && DigitChar(d) == c
  {
    c as int - '0' as int
  }

  /** str(n) for a non-negative int: decimal digits without leading zeros. */
  function NatToString(n: nat): (s: string)
    ensures |s| >= 1 && AllDigits(s)
    ensures s[0] == '0' ==> n == 0 && s == "0"
    decreases n
  {
    if n < 10 then [DigitChar(n)] else NatToString(n / 10) + [DigitChar(n % 10)]
  }

  /** str(i) for any int: a minus sign before the digits of a negative number. */
  function IntToString(i: int): (s: string)
    ensures |s| >= 1
    ensures i < 0 <==> s[0] == '-'
  {
    if i < 0 then "-" + NatToString(-i) else NatToString(i)
  }

  /** int(s) for a string of decimal digits (leading zeros allowed; "" reads as 0). */
  function ParseNat(s: string): nat
    requires AllDigits(s)
  {
    if |s| == 0 then 0 else ParseNat(s[..|s| - 1]) * 10 + DigitValue(s[|s| - 1])
  }

  /** Reading back the rendering of a number gives the number. */
  lemma {:induction false} ParseNatToString(n: nat)
    ensures ParseNat(NatToString(n)) == n
    decreases n
  {
    if n >= 10 {
      var s := NatToString(n);
      assert s[..|s| - 1] == NatToString(n / 10);
      ParseNatToString(n / 10);
    }
  }

  function Zeros(k: nat): (z: string)
    ensures |z| == k && AllDigits(z)
    ensures forall i :: 0 <= i < k ==> z[i] == '0'
  {
    seq(k, _ => '0')
  }

  predicate IsSign(c: char) {
    c == '+' || c == '-'
  }

  /** Python's str.zfill: pads with '0' on the left up to `width`, keeping a leading sign in front. */
  function ZFill(s: string, width: nat): (r: string)
    ensures |r| == if |s| >= width then |s| else width
    ensures |s| >= width ==> r == s
    ensures (|s| == 0 || !IsSign(s[0])) ==>
              r[|r| - |s|..] == s && forall i :: 0 <= i < |r| - |s| ==> r[i] == '0'
    ensures |s| > 0 && IsSign(s[0]) ==>
              r[0] == s[0] && r[|r| - |s| + 1..] == s[1..] &&
              forall i :: 1 <= i < |r| - |s| + 1 ==> r[i] == '0'
  {
    if |s| >= width then s
    else if |s| > 0 && IsSign(s[0]) then [s[0]] + Zeros(width - |s|) + s[1..]
    else Zeros(width - |s|) + s
  }

  lemma {:induction false} ParseNatZerosPrefix(k: nat, s: string)
    requires AllDigits(s)
    ensures AllDigits(Zeros(k) + s) && ParseNat(Zeros(k) + s) == ParseNat(s)
    decreases |s|
  {
    if |s| == 0 {
      assert Zeros(k) + s == Zeros(k);
      ParseNatZeros(k);
    } else {
      var t := Zeros(k) + s;
      assert t[..|t| - 1] == Zeros(k) + s[..|s| - 1];
      ParseNatZerosPrefix(k, s[..|s| - 1]);
    }
  }

  lemma {:induction false} ParseNatZeros(k: nat)
    ensures ParseNat(Zeros(k)) == 0
  {
    if k > 0 {
      assert Zeros(k)[..k - 1] == Zeros(k - 1);
      ParseNatZeros(k - 1);
    }
  }

  /** Zero-padding a string of digits keeps the number it denotes. */
  lemma ZFillKeepsValue(s: string, width: nat)
    ensures AllDigits(s) ==> AllDigits(ZFill(s, width)) && ParseNat(ZFill(s, width)) == ParseNat(s)
  {
    if AllDigits(s) && |s| < width {
      if |s| > 0 { assert !IsSign(s[0]); }
      ParseNatZerosPrefix(width - |s|, s);
    }
  }

  function LowerChar(c: char): (l: char)
    ensures !('A' <= l <= 'Z')
  {
    if 'A' <= c <= 'Z' then (c as int + 32) as char else c
  }

  /** str.lower, restricted to the ASCII letters. */
  function Lower(s: string): (r: string)
    ensures |r| == |s| && forall i :: 0 <= i < |s| ==> r[i] == LowerChar(s[i])
  {
    seq(|s|, i requires 0 <= i < |s| => LowerChar(s[i]))
  }

  predicate EndsWith(s: string, suffix: string) {
    |suffix| <= |s| && s[|s| - |suffix|..] == suffix
  }

  lemma EndsWithConcat(a: string, b: string)
    ensures EndsWith(a + b, b)
  {
    assert (a + b)[|a + b| - |b|..] == b;
  }

  /** `sub in s` */
  predicate Contains(s: string, sub: string)
    decreases |s|
  {
    if |sub| > |s| then false
    else s[..|sub|] == sub || (|s| > 0 && Contains(s[1..], sub))
  }

  lemma {:induction false} ContainsAt(s: string, sub: string, i: nat)
    requires i + |sub| <= |s| && s[i..i + |sub|] == sub
    ensures Contains(s, sub)
    decreases i
  {
    if i > 0 {
      assert s[1..][i - 1..i - 1 + |sub|] == sub;
      ContainsAt(s[1..], sub, i - 1);
    }
  }

  /** `sep.join(parts)` */
  function Join(parts: seq<string>, sep: string): string
  {
    if |parts| == 0 then ""
    else if |parts| == 1 then parts[0]
    else parts[0] + sep + Join(parts[1..], sep)
  }

  /** Rendering of a non-negative real with one decimal, rounding half up ("{:.1f}"). */
  function Format1(x: real): (s: string)
    requires x >= 0.0
  {
    var t: int := (x * 10.0 + 0.5).Floor;
    assert t >= 0;
    NatToString(t / 10) + "." + [DigitChar(t % 10)]
  }

  /** A value that is already a whole number of tenths is rendered exactly. */
  lemma Format1Tenths(k: nat)
    ensures Format1(k as real / 10.0) == NatToString(k / 10) + "." + [DigitChar(k % 10)]
  {
    var t: int := (k as real / 10.0 * 10.0 + 0.5).Floor;
    assert k as real / 10.0 * 10.0 == k as real;
    assert t == k;
  }

  /** Python's `a <= b` on strings: lexicographic by code point. */
  predicate LexLeq(a: string, b: string) {
    |a| == 0 || (|b| > 0 && (a[0] < b[0] || (a[0] == b[0] && LexLeq(a[1..], b[1..]))))
  }

  lemma {:induction false} LexTotal(a: string, b: string)
    ensures LexLeq(a, b) || LexLeq(b, a)
  {
    if |a| > 0 && |b| > 0 && a[0] == b[0] {
      LexTotal(a[1..], b[1..]);
    }
  }

  /** Each string is at most its successor. */
  predicate LexSorted(s: seq<string>) {
    forall i :: 0 <= i < |s| - 1 ==> LexLeq(s[i], s[i + 1])
  }

  function InsertString(x: string, s: seq<string>): (r: seq<string>)
    requires LexSorted(s)
    ensures LexSorted(r) && |r| == |s| + 1 && multiset(r) == multiset(s) + multiset{x}
    ensures r[0] == x || (|s| > 0 && r[0] == s[0])
  {
    if |s| == 0 then [x]
    else if LexLeq(x, s[0]) then [x] + s
    else
      LexTotal(x, s[0]);
      var rest := InsertString(x, s[1..]);
      assert s == [s[0]] + s[1..];
      [s[0]] + rest
  }

  /** `sorted(strings)` */
  function SortStrings(s: seq<string>): (r: seq<string>)
    ensures LexSorted(r) && multiset(r) == multiset(s) && |r| == |s|
  {
    if |s| == 0 then []
    else
      assert s == [s[0]] + s[1..];
      InsertString(s[0], SortStrings(s[1..]))
  }
}

=== FILE: traffic.dfy ===
/** TrafficDataFetcher: where traffic observations come from (the JARTIC open-traffic WFS
    endpoint or the mock generator), the five-minute time code and query URL, GeoJSON parsing
    and the validation filters. The network, the clock and the random generator are inputs. */
module Traffic {
  import opened Wrappers
  import opened Geo
  import opened Tables
  import opened Text
  import opened Clock
  import Stats
  import Config

  /** USE_MOCK_DATA */
  const UseMockData: bool := true

  /** A fetcher: endpoint, timeout in seconds and the mock switch, fixed at construction. */
  datatype Fetcher = Fetcher(apiUrl: string, timeout: nat, useMock: bool)

  const DefaultFetcher: Fetcher := Fetcher(Config.JarticApiUrl, Config.ApiTimeout, UseMockData)

  // ---------------------------------------------------------------- time code

  /** int(strftime("%Y%m%d%H%M")) */
  function TimeCodeOf(d: DateTime): (c: int)
    ensures Valid(d) ==> c > 0
  {
    d.year * 100000000 + d.month * 1000000 + d.day * 10000 + d.hour * 100 + d.minute
  }

  /** Reading a two-digit field back: linear facts about division by a constant. */
  lemma Shift2(a: int, b: int)
    requires 0 <= b < 100
    ensures (a * 100 + b) / 100 == a && (a * 100 + b) % 100 == b
  {
  }

  lemma Shift4(a: int, b: int)
    requires 0 <= b < 10000
    ensures (a * 10000 + b) / 10000 == a
  {
  }

  lemma Shift6(a: int, b: int)
    requires 0 <= b < 1000000
    ensures (a * 1000000 + b) / 1000000 == a
  {
  }

  lemma Shift8(a: int, b: int)
    requires 0 <= b < 100000000
    ensures (a * 100000000 + b) / 100000000 == a
  {
  }

  /** The time code spells out its instant: each field can be read back by division. */
  lemma TimeCodeDecodes(d: DateTime)
    requires Valid(d)
    ensures var c := TimeCodeOf(d);
      c / 100000000 == d.year && c / 1000000 % 100 == d.month && c / 10000 % 100 == d.day
      && c / 100 % 100 == d.hour && c % 100 == d.minute
  {
    var ymdh := ((d.year * 100 + d.month) * 100 + d.day) * 100 + d.hour;
    var ymd := (d.year * 100 + d.month) * 100 + d.day;
    var ym := d.year * 100 + d.month;
    var c := TimeCodeOf(d);
    assert c == ymdh * 100 + d.minute;
    Shift2(ymdh, d.minute);
    Shift2(ymd, d.hour);
    assert c == ymd * 10000 + (d.hour * 100 + d.minute);
    Shift4(ymd, d.hour * 100 + d.minute);
    Shift2(ym, d.day);
    assert c == ym * 1000000 + (d.day * 10000 + d.hour * 100 + d.minute);
    Shift6(ym, d.day * 10000 + d.hour * 100 + d.minute);
    Shift2(d.year, d.month);
    assert c == d.year * 100000000 + (d.month * 1000000 + d.day * 10000 + d.hour * 100 + d.minute);
    Shift8(d.year, d.month * 1000000 + d.day * 10000 + d.hour * 100 + d.minute);
  }

  /** The instant whose code is requested: five minutes ago, minute floored to a multiple of 5. */
  function QueryInstant(now: DateTime): Option<DateTime>
    requires Valid(now)
  {
    match FiveMinutesEarlier(now)
    case None => None
    case Some(t) => Some(t.(minute := t.minute / 5 * 5))
  }

  /** _get_current_time_code; None where the subtraction overflows (Python raises). */
  function CurrentTimeCode(now: DateTime): (code: Option<nat>)
    requires Valid(now)
    ensures code.None? <==> now.year == 1 && now.month == 1 && now.day == 1 && now.hour == 0 && now.minute < 5
  {
    match QueryInstant(now)
    case None => None
    case Some(t) => Some(TimeCodeOf(t))
  }

  /** The requested instant is a valid time on a five-minute mark, between nine and five minutes
      before now. */
  lemma TimeCodeWindow(now: DateTime)
    requires Valid(now) && CurrentTimeCode(now).Some?
    ensures var t := QueryInstant(now).value;
      Valid(t) && t.minute % 5 == 0 && CurrentTimeCode(now).value == TimeCodeOf(t)
      && AbsMinutes(now) - 9 <= AbsMinutes(t) <= AbsMinutes(now) - 5
  {
    var e := FiveMinutesEarlier(now).value;
    var t := QueryInstant(now).value;
    assert AbsMinutes(t) == AbsMinutes(e) - e.minute % 5;
  }

  // ---------------------------------------------------------------- query URL

  const QueryHead: string :=
    "?service=WFS&version=2.0.0&request=GetFeature&typeNames=t_travospublic_measure_5m"
    + "&srsName=EPSG:4326&outputFormat=application/json&exceptions=application/json"
    + "&cql_filter=道路種別="

  /** _build_api_url; `coord` renders one coordinate as Python prints a float. */
  function BuildApiUrl(apiUrl: string, bbox: BBox, timeCode: nat, coord: real -> string): string {
    UrlBeforeCode(apiUrl) + NatToString(timeCode) + BboxClause(bbox, coord)
  }

  /** The text of the URL before the time code. */
  function UrlBeforeCode(apiUrl: string): string {
    apiUrl + QueryHead + NatToString(Config.RoadType) + " AND 時間コード="
  }

  /** The spatial filter after the time code. */
  function BboxClause(bbox: BBox, coord: real -> string): (s: string)
    ensures |s| > 0 && s[0] == ' '
  {
    " AND " + BboxFilter(bbox, coord)
  }

  /** The BBOX condition: min lon, min lat, max lon, max lat, in EPSG:4326. */
  function BboxFilter(bbox: BBox, coord: real -> string): string {
    "BBOX(\"ジオメトリ\"," + coord(bbox.minLon) + "," + coord(bbox.minLat) + ","
      + coord(bbox.maxLon) + "," + coord(bbox.maxLat) + ",'EPSG:4326')"
  }

  /** The longest run of digits at the front of s. */
  function LeadingDigits(s: string): (d: string)
    ensures AllDigits(d) && |d| <= |s| && d == s[..|d|]
  {
    if |s| == 0 || !IsDigit(s[0]) then [] else [s[0]] + LeadingDigits(s[1..])
  }

  lemma {:induction false} LeadingDigitsOfConcat(a: string, b: string)
    requires AllDigits(a) && (|b| == 0 || !IsDigit(b[0]))
    ensures LeadingDigits(a + b) == a
  {
    if |a| > 0 {
      assert (a + b)[1..] == a[1..] + b;
      LeadingDigitsOfConcat(a[1..], b);
    } else {
      assert a + b == b;
    }
  }

  /** The URL asks for road type 3, and the digits after '時間コード=' read back as the time code. */
  lemma UrlCarriesQuery(apiUrl: string, bbox: BBox, code: nat, coord: real -> string)
    ensures var url := BuildApiUrl(apiUrl, bbox, code, coord);
      var head := UrlBeforeCode(apiUrl);
      head == apiUrl + QueryHead + "3 AND 時間コード="
      && |head| <= |url| && url[..|head|] == head
      && ParseNat(LeadingDigits(url[|head|..])) == code
  {
    var head := UrlBeforeCode(apiUrl);
    var digits := NatToString(code);
    var rest := BboxClause(bbox, coord);
    assert NatToString(3) == "3";
    assert BuildApiUrl(apiUrl, bbox, code, coord) == head + (digits + rest);
    LeadingDigitsOfConcat(digits, rest);
    ParseNatToString(code);
  }

  /** The URL ends with the spatial filter, whose corners come in the order min lon, min lat,
      max lon, max lat. */
  lemma UrlListsCorners(apiUrl: string, bbox: BBox, code: nat, coord: real -> string)
    ensures EndsWith(BuildApiUrl(apiUrl, bbox, code, coord),
      "BBOX(\"ジオメトリ\"," + coord(bbox.minLon) + "," + coord(bbox.minLat) + ","
        + coord(bbox.maxLon) + "," + coord(bbox.maxLat) + ",'EPSG:4326')")
  {
    var front := UrlBeforeCode(apiUrl) + NatToString(code);
    assert BuildApiUrl(apiUrl, bbox, code, coord) == (front + " AND ") + BboxFilter(bbox, coord);
    EndsWithConcat(front + " AND ", BboxFilter(bbox, coord));
  }

  // ---------------------------------------------------------------- GeoJSON

  /** A decoded response body: its 'features' list (None when the key is absent), the property
      columns those features carry, and whether GeoDataFrame.from_features accepts them. */
  datatype GeoJsonBody = GeoJsonBody(features: Option<seq<Observation>>, columns: set<Column>, convertible: bool)

  /** _parse_geojson_response: a missing or empty feature list, or features that cannot be
      converted, give an empty frame; a missing required column is only logged. */
  function ParseGeoJson(body: GeoJsonBody): (f: TrafficFrame)
    ensures |f.rows| == 0 <==> body.features.None? || |body.features.value| == 0 || !body.convertible
    ensures |f.rows| > 0 ==> f.rows == body.features.value && GeometryCol in f.columns
    ensures |f.rows| == 0 ==> f == EmptyTraffic
  {
    if body.features.None? || |body.features.value| == 0 then EmptyTraffic
    else if !body.convertible then EmptyTraffic
    else TrafficFrame(body.columns + {GeometryCol}, body.features.value)
  }

  // ---------------------------------------------------------------- validation

  /** `(speed >= 0) & (speed <= 150)`: a NaN speed fails both comparisons. */
  predicate SpeedInRange(o: Observation) {
    o.speed.Some? && 0.0 <= o.speed.value <= 150.0
  }

  predicate TravelTimeNonNegative(o: Observation) {
    o.travelTime.Some? && o.travelTime.value >= 0.0
  }

  predicate HasGeometry(o: Observation) {
    o.location.Some?
  }

  /** A row that validation keeps, given the frame's columns. */
  predicate Acceptable(cols: set<Column>, o: Observation) {
    (SpeedCol in cols ==> SpeedInRange(o)) && (TravelTimeCol in cols ==> TravelTimeNonNegative(o)) && HasGeometry(o)
  }

  /** The rows validation keeps: exactly the acceptable ones, in their order. */
  function ValidRows(f: TrafficFrame): (r: seq<Observation>)
    ensures |r| <= |f.rows|
    ensures forall o :: o in r <==> o in f.rows && Acceptable(f.columns, o)
  {
    Where(f.rows, o => Acceptable(f.columns, o))
  }

  /** The positions of the rows validation keeps, ascending: every acceptable row, each once. */
  function AcceptedRows(f: TrafficFrame): (ix: seq<nat>)
    ensures forall k :: 0 <= k < |ix| ==> ix[k] < |f.rows| && Acceptable(f.columns, f.rows[ix[k]])
    ensures forall k, l :: 0 <= k < l < |ix| ==> ix[k] < ix[l]
    ensures forall i :: 0 <= i < |f.rows| && Acceptable(f.columns, f.rows[i]) ==> i in ix
  {
    Selected(f.rows, o => Acceptable(f.columns, o), |f.rows|)
  }

  /** The valid rows keep their order: the k-th one is the row at the k-th accepted position. */
  lemma ValidRowsInOrder(f: TrafficFrame)
    ensures |ValidRows(f)| == |AcceptedRows(f)|
    ensures forall k :: 0 <= k < |ValidRows(f)| ==> ValidRows(f)[k] == f.rows[AcceptedRows(f)[k]]
  {
    WhereKeepsOrder(f.rows, o => Acceptable(f.columns, o));
  }

  /** `dropna(subset=['geometry'])` on a frame without that column raises KeyError. */
  const MissingGeometryKey: string := "KeyError: ['geometry']"

  /** validate_traffic_data: successive filters on speed, travel time and geometry; a non-empty
      frame without a geometry column raises at the last one. */
  method ValidateTrafficData(f: TrafficFrame) returns (r: Result<TrafficFrame, string>)
    ensures |f.rows| == 0 ==> r == Ok(f)
    ensures |f.rows| > 0 && GeometryCol !in f.columns ==> r == Err(MissingGeometryKey)
    ensures |f.rows| > 0 && GeometryCol in f.columns ==> r == Ok(TrafficFrame(f.columns, ValidRows(f)))
    ensures |f.rows| > 0 && r.Ok? ==>
      |r.value.rows| == |AcceptedRows(f)|
      && forall k :: 0 <= k < |r.value.rows| ==> r.value.rows[k] == f.rows[AcceptedRows(f)[k]]
  {
    if |f.rows| == 0 {
      return Ok(f);
    }
    var cols := f.columns;
    var rows := f.rows;
    ghost var kept: Observation -> bool := o => true;
    WhereSame(rows, o => true, kept);
    WhereAll(rows, kept);
    if SpeedCol in cols {
      var next: Observation -> bool := o => kept(o) && SpeedInRange(o);
      WhereFuse(f.rows, kept, SpeedInRange, next);
      rows := Where(rows, SpeedInRange);
      kept := next;
    }
    if TravelTimeCol in cols {
      var next: Observation -> bool := o => kept(o) && TravelTimeNonNegative(o);
      WhereFuse(f.rows, kept, TravelTimeNonNegative, next);
      rows := Where(rows, TravelTimeNonNegative);
      kept := next;
    }
    if GeometryCol !in cols {
      return Err(MissingGeometryKey);
    }
    var next: Observation -> bool := o => kept(o) && HasGeometry(o);
    WhereFuse(f.rows, kept, HasGeometry, next);
    rows := Where(rows, HasGeometry);
    WhereSame(f.rows, next, o => Acceptable(cols, o));
    r := Ok(TrafficFrame(cols, rows));
    ValidRowsInOrder(f);
  }

  /** Validating validated rows keeps them all. */
  lemma ValidationIdempotent(f: TrafficFrame)
    ensures ValidRows(TrafficFrame(f.columns, ValidRows(f))) == ValidRows(f)
  {
    WhereAll(ValidRows(f), o => Acceptable(f.columns, o));
  }

  // ---------------------------------------------------------------- mock data

  /** n_points */
  const MockPoints: nat := 200

  /** The random draws of one mock run: unit draws for longitude, latitude and link length,
      the normal noise, and each point's Euclidean distance (in degrees) to the bbox centre. */
  datatype MockDraws = MockDraws(lonU: seq<real>, latU: seq<real>, noise: seq<real>, lengthU: seq<real>, distances: seq<real>)

  /** np.random.uniform(lo, hi) for a unit draw u in [0, 1). */
  function Uniform(lo: real, hi: real, u: real): real {
    lo + u * (hi - lo)
  }

  function CenterLon(b: BBox): real { (b.minLon + b.maxLon) / 2.0 }
  function CenterLat(b: BBox): real { (b.minLat + b.maxLat) / 2.0 }

  /** Draws as numpy produces them: 200 of each, unit draws in [0, 1), and each distance the
      non-negative square root of the squared offsets from the centre. */
  predicate DrawsFit(b: BBox, dr: MockDraws) {
    |dr.lonU| == MockPoints && |dr.latU| == MockPoints && |dr.noise| == MockPoints
    && |dr.lengthU| == MockPoints && |dr.distances| == MockPoints
    && (forall i :: 0 <= i < MockPoints ==> 0.0 <= dr.lonU[i] < 1.0 && 0.0 <= dr.latU[i] < 1.0 && 0.0 <= dr.lengthU[i] < 1.0)
    && (forall i :: 0 <= i < MockPoints ==>
          var dx := Uniform(b.minLon, b.maxLon, dr.lonU[i]) - CenterLon(b);
          var dy := Uniform(b.minLat, b.maxLat, dr.latU[i]) - CenterLat(b);
          dr.distances[i] >= 0.0 && dr.distances[i] * dr.distances[i] == dx * dx + dy * dy)
  }

  /** The rush-hour / night / daytime multiplier. */
  function SpeedFactor(hour: int): real {
    if (7 <= hour <= 9) || (17 <= hour <= 19) then 0.6
    else if 22 <= hour || hour <= 5 then 1.3
    else 1.0
  }

  /** np.clip */
  function Clip(x: real, lo: real, hi: real): (r: real)
    requires lo <= hi
    ensures lo <= r <= hi
    ensures lo <= x <= hi ==> r == x
  {
    if x < lo then lo else if x > hi then hi else x
  }

  /** 50 - (d / dmax) * 30: nearer the centre is slower. */
  function BaseSpeed(d: real, dmax: real): real
    requires dmax > 0.0
  {
    50.0 - d / dmax * 30.0
  }

  lemma BaseSpeedRange(d: real, dmax: real)
    requires 0.0 <= d <= dmax && dmax > 0.0
    ensures 20.0 <= BaseSpeed(d, dmax) <= 50.0
  {
    Stats.DivMono(d, dmax, dmax);
    Stats.DivMono(0.0, d, dmax);
  }

  /** The speed of point i; with dmax = 0 the ratio 0/0 is NaN and stays NaN through the clip. */
  function MockSpeed(d: real, dmax: real, factor: real, noise: real): (s: Option<real>)
    ensures s.Some? <==> dmax > 0.0
    ensures s.Some? ==> 5.0 <= s.value <= 80.0
  {
    if dmax > 0.0 then Some(Clip(BaseSpeed(d, dmax) * factor + noise, 5.0, 80.0)) else None
  }

  /** (length / 1000) / (speed / 3600), in seconds. */
  function TravelSeconds(length: real, speed: Option<real>): (t: Option<real>)
    requires speed.Some? ==> speed.value > 0.0
    ensures t.Some? <==> speed.Some?
    ensures t.Some? ==> t.value * speed.value == length * 3.6
    ensures t.Some? && length >= 0.0 ==> t.value >= 0.0
  {
    if speed.None? then None
    else
      var s := speed.value;
      TravelIdentity(length, s);
      Some((length / 1000.0) / (s / 3600.0))
  }

  lemma TravelIdentity(length: real, s: real)
    requires s > 0.0
    ensures (length / 1000.0) / (s / 3600.0) * s == length * 3.6
  {
    assert (length / 1000.0) / (s / 3600.0) == length * 3.6 / s;
  }

  function MockRow(b: BBox, dr: MockDraws, i: nat, dmax: real, factor: real, code: int): Observation
    requires DrawsFit(b, dr) && i < MockPoints
  {
    var length := Uniform(50.0, 200.0, dr.lengthU[i]);
    var speed := MockSpeed(dr.distances[i], dmax, factor, dr.noise[i]);
    Observation(Some(Config.RoadType), Some(code), speed, TravelSeconds(length, speed), Some(length),
      Some(Point(Uniform(b.minLon, b.maxLon, dr.lonU[i]), Uniform(b.minLat, b.maxLat, dr.latU[i]))))
  }

  const MockColumns: set<Column> := {RoadTypeCol, TimeCodeCol, SpeedCol, TravelTimeCol, LinkLengthCol, GeometryCol}

  /** _generate_mock_data, with the clock reading `now` and the draws given. */
  function MockData(b: BBox, now: DateTime, dr: MockDraws): (f: TrafficFrame)
    requires DrawsFit(b, dr)
    ensures |f.rows| == MockPoints && f.columns == MockColumns
  {
    var dmax := Stats.Max(dr.distances);
    var factor := SpeedFactor(now.hour);
    TrafficFrame(MockColumns,
      seq(MockPoints, i requires 0 <= i < MockPoints => MockRow(b, dr, i, dmax, factor, TimeCodeOf(now))))
  }

  lemma ScaleBelow(u: real, w: real)
    requires 0.0 <= u < 1.0 && w >= 0.0
    ensures 0.0 <= u * w <= w
    ensures w > 0.0 ==> u * w < w
  {
    if w > 0.0 {
      assert w - u * w == (1.0 - u) * w;
    }
  }

  /** A unit draw lands in [lo, hi), or on lo when the interval is a point. */
  lemma UniformWithin(lo: real, hi: real, u: real)
    requires lo <= hi && 0.0 <= u < 1.0
    ensures lo <= Uniform(lo, hi, u) <= hi
    ensures lo < hi ==> Uniform(lo, hi, u) < hi
  {
    var w := hi - lo;
    ScaleBelow(u, w);
    assert Uniform(lo, hi, u) == lo + u * w;
  }

  /** One mock row: road type 3, the given time code, a link length in [50, 200), a point in the
      bbox, and, when dmax > 0, a speed in [5, 80] with the travel time that covers the link. */
  lemma MockRowBounds(b: BBox, dr: MockDraws, i: nat, dmax: real, factor: real, code: int)
    requires DrawsFit(b, dr) && i < MockPoints
    ensures var o := MockRow(b, dr, i, dmax, factor, code);
      o.roadType == Some(3) && o.timeCode == Some(code)
      && o.linkLength.Some? && 50.0 <= o.linkLength.value < 200.0
      && (b.minLon <= b.maxLon && b.minLat <= b.maxLat ==> o.location.Some? && InBox(o.location.value, b))
      && (dmax > 0.0 ==>
            o.speed.Some? && 5.0 <= o.speed.value <= 80.0
            && o.travelTime.Some? && o.travelTime.value >= 0.0
            && o.travelTime.value * o.speed.value == o.linkLength.value * 3.6)
  {
    UniformWithin(50.0, 200.0, dr.lengthU[i]);
    if b.minLon <= b.maxLon && b.minLat <= b.maxLat {
      UniformWithin(b.minLon, b.maxLon, dr.lonU[i]);
      UniformWithin(b.minLat, b.maxLat, dr.latU[i]);
    }
  }

  /** Every mock row carries the current time code and the bounds of MockRowBounds, with
      dmax the largest distance drawn: unless every point sits at the centre, a speed in [5, 80]
      and a non-negative travel time. */
  lemma MockDataBounds(b: BBox, now: DateTime, dr: MockDraws, i: nat)
    requires DrawsFit(b, dr) && i < MockPoints
    ensures var o := MockData(b, now, dr).rows[i];
      o.roadType == Some(3) && o.timeCode == Some(TimeCodeOf(now))
      && o.linkLength.Some? && 50.0 <= o.linkLength.value < 200.0
      && (b.minLon <= b.maxLon && b.minLat <= b.maxLat ==> o.location.Some? && InBox(o.location.value, b))
      && (Stats.Max(dr.distances) > 0.0 ==>
            o.speed.Some? && 5.0 <= o.speed.value <= 80.0
            && o.travelTime.Some? && o.travelTime.value >= 0.0)
  {
    var dmax := Stats.Max(dr.distances);
    var factor := SpeedFactor(now.hour);
    assert MockData(b, now, dr).rows[i] == MockRow(b, dr, i, dmax, factor, TimeCodeOf(now));
    MockRowBounds(b, dr, i, dmax, factor, TimeCodeOf(now));
  }

  /** Unless every point sits at the centre, validation keeps every mock row. */
  lemma MockSurvivesValidation(b: BBox, now: DateTime, dr: MockDraws)
    requires DrawsFit(b, dr) && Stats.Max(dr.distances) > 0.0 && b.minLon <= b.maxLon && b.minLat <= b.maxLat
    ensures ValidRows(MockData(b, now, dr)) == MockData(b, now, dr).rows
  {
    var f := MockData(b, now, dr);
    forall o | o in f.rows ensures Acceptable(f.columns, o) {
      var i :| 0 <= i < |f.rows| && f.rows[i] == o;
      MockDataBounds(b, now, dr, i);
    }
    WhereAll(f.rows, o => Acceptable(f.columns, o));
  }

  /** The base speed times the hour's factor stays within [12, 65] km/h before noise. */
  lemma FactoredBaseRange(d: real, dmax: real, hour: int)
    requires 0.0 <= d <= dmax && dmax > 0.0
    ensures 12.0 <= BaseSpeed(d, dmax) * SpeedFactor(hour) <= 65.0
  {
    BaseSpeedRange(d, dmax);
  }

  // ---------------------------------------------------------------- fetch

  /** What the HTTP exchange did: a requests exception (connection, timeout, HTTP error status),
      another exception while decoding or validating, or a decoded body. */
  datatype ApiOutcome = RequestFailed | ProcessingFailed | Received(body: GeoJsonBody)

  datatype Source = Live | Mock

  /** The frame returned, where it came from, and the URL requested, if any. */
  datatype FetchResult = FetchResult(frame: TrafficFrame, source: Source, requested: Option<string>)

  /** The code used for the query: the caller's, or the current one. */
  function QueryCode(timeCode: Option<nat>, now: DateTime): Option<nat>
    requires Valid(now)
  {
    if timeCode.Some? then timeCode else CurrentTimeCode(now)
  }

  /** fetch_traffic_data; None where computing the current time code raises (it is outside the
      try block). */
  method FetchTrafficData(fetcher: Fetcher, bbox: BBox, timeCode: Option<nat>, now: DateTime,
                          outcome: ApiOutcome, draws: MockDraws, coord: real -> string)
    returns (r: Option<FetchResult>)
    requires Valid(now) && DrawsFit(bbox, draws)
    ensures fetcher.useMock ==> r == Some(FetchResult(MockData(bbox, now, draws), Mock, None))
    ensures !fetcher.useMock ==> (r.None? <==> QueryCode(timeCode, now).None?)
    ensures !fetcher.useMock && r.Some? ==>
      var url := BuildApiUrl(fetcher.apiUrl, bbox, QueryCode(timeCode, now).value, coord);
      var live := outcome.Received? && |ParseGeoJson(outcome.body).rows| > 0;
      r.value.requested == Some(url)
      && (r.value.source == Live <==> live)
      && (live ==> r.value.frame == TrafficFrame(ParseGeoJson(outcome.body).columns, ValidRows(ParseGeoJson(outcome.body))))
      && (!live ==> r.value.frame == MockData(bbox, now, draws))
  {
    if fetcher.useMock {
      return Some(FetchResult(MockData(bbox, now, draws), Mock, None));
    }
    var code := timeCode;
    if code.None? {
      code := CurrentTimeCode(now);
      if code.None? {
        return None;
      }
    }
    var url := BuildApiUrl(fetcher.apiUrl, bbox, code.value, coord);
    match outcome {
      case RequestFailed =>
        r := Some(FetchResult(MockData(bbox, now, draws), Mock, Some(url)));
      case ProcessingFailed =>
        r := Some(FetchResult(MockData(bbox, now, draws), Mock, Some(url)));
      case Received(body) =>
        var gdf := ParseGeoJson(body);
        if |gdf.rows| == 0 {
          return Some(FetchResult(MockData(bbox, now, draws), Mock, Some(url)));
        }
        // A parsed frame always has a geometry column, so validation does not raise here.
        var validated := ValidateTrafficData(gdf);
        assert validated.Ok?;
        r := Some(FetchResult(validated.value, Live, Some(url)));
    }
  }
}

=== FILE: wrappers.dfy ===
/** Optional values and results, standing in for pandas' NaN/None and for Python exceptions. */
module Wrappers {

  /** An absent value (None / NaN in the source) or a present one. */
  datatype Option<+T> = None | Some(value: T) {
    function GetOr(default: T): T {
      match this
      case Some(v) => v
      case None => default
    }
  }

  /** The outcome of an operation that may raise in the source. */
  datatype Result<+R, +E> = Ok(value: R) | Err(error: E)
}
